=== FILE: README.md ===
# Robot control stack — a Dafny model

This project models the command path of a small robot-control system. Python
clients send JSON commands to a robot server, which gates each motion
command on a safety box before moving the (simulated) robot. There are
several servers:

- two Python TCP servers (`SocketsObjects.py`, `server/Python/SocketsServer.py`);
- two ESP8266 TCP servers (`RobotServerDemo/MyWiFiServer.cpp`, `RobotServerDemo/RobotControlServer.cpp`);
- three Python Flask servers (`HTTPObjects.py`, `server/Python/HTTPServer.py`, `PythonServer_Package/robot_server.py`);
- one ESP8266 HTTP server (`ArduinoServer_HTTP/RobotControlServer.cpp`).

The model covers the following parts. Each file is one module.

- `framing.dfy` (`Framing`). The length-prefixed framing of the TCP links: a
  10-character, left-justified decimal length, then the payload. It models
  how each side writes that header (Python f-string, ESP8266 `substring`)
  and how each side reads a frame back (the Python servers' accumulate-and-compare loop, the Python
  client's read-until-enough loop, the ESP8266's drop-the-first-10).
- `geometry.dfy` (`Geometry`) and `robot.dfy` (`Robot`). `Point`,
  `CoordinateRange` (the min/max `contains` and the index-based one of
  `HTTPServer.py`), their iteration protocols, and `RobotObject`: its
  position, pipet level, safe bounds and homing.
- `json.dfy` (`Json`). Decoded JSON values and how each runtime reads them:
  Python's `dict.get`, `d[k]`, truthiness and `float()`, and ArduinoJson's
  NULL `const char*` and zero-valued missing floats.
- `dispatch.dfy` (`Dispatch`). Selecting a coordinate system by name,
  resolving the target point, the reply messages and the servers' safety
  boxes.
- `socket_server.dfy` (`SocketServers`). `handle_command` of the two Python
  TCP servers, with their different error precedences and exception
  handling, and their per-connection loops.
- `esp_server.dfy` (`EspServers`). `handleCommand` of the three ESP8266
  servers and the HTTP handlers of the Arduino HTTP server.
- `client_slots.dfy` (`ClientSlots`). The ESP8266 TCP servers' five-slot
  client table: admission, refusal, the 30-second keep-alive eviction in
  32-bit `millis()` arithmetic, and one `loop()` pass over all slots.
- `http_server.dfy` (`HttpServers`). The three Flask servers: the move,
  pipet, ping, request and home handlers, and the route table.
- `client.dfy` (`Clients`). The Python clients:
  - `set_coordinate_system`;
  - building the `move` payload;
  - the POST/GET choice of `send_message`;
  - socket framing and send failure;
  - `check_server_availability` with its loopback fallback;
  - the receive thread's queue and `get_messages`.

Coordinates are exact reals. The polar conversion
(`r·cos θ, r·sin θ`) is a function parameter. A command arrives as its raw text
plus the decoded top-level JSON value, which may be any value and not only
an object; the value is absent when the text is not JSON.
Time (`time()`, `millis()`), socket reads and HTTP probe results are
parameters.

## Model

| member | source | states |
|---|---|---|
| Framing.LengthFitsHeader | Pre-December/SocketsObjects.py:157-160 | a payload length fits the 10-character header exactly when it is below 10^10 |
| Framing.PyHeader | Pre-December/server/Python/SocketsServer.py:180-182 | the header is at least 10 characters, and exactly 10 iff the length is below 10^10 |
| Text.ParseInt | Pre-December/SocketsObjects.py:171 | `int(msg[:10])` on `bytes`: ASCII whitespace around an optional sign and digits that single underscores may group; anything else raises |
| Text.ParseDigits | Pre-December/client/Python/SocketsClient.py:161 | a space-padded digit string parses to its value, on `bytes` and after `str.strip()` alike |
| Text.GroupedParses | Pre-December/server/Python/SocketsServer.py:167 | `int()` reads `x_y` as the number written `xy` |
| Text.DoubledUnderscoreRaises | Pre-December/server/Python/SocketsServer.py:167 | two underscores in a row make `int()` raise |
| Text.WideSpacePadding | Pre-December/client/Python/SocketsClient.py:161 | whitespace outside ASCII in front of a number makes `int()` on `bytes` raise, while the client's `int(header.strip())` parses the number |
| Framing.HeaderParses | Pre-December/server/Python/SocketsServer.py:165-170 | `int()` of the padded header gives back the length it encodes |
| Framing.PyFrame | Pre-December/SocketsObjects.py:157-160 | a frame is the 10-character header of the payload length followed by the payload unchanged |
| Framing.FrameHeaderParses | Pre-December/SocketsObjects.py:170-172 | the first 10 characters of any frame parse to the payload length |
| Framing.EspRead | Pre-December/RobotServerDemo/MyWiFiServer.cpp:95-103 | `readMessage` yields everything after the first 10 characters, and nothing for a read of 10 or fewer |
| Framing.EspHeaderMatchesPython | Pre-December/RobotServerDemo/MyWiFiServer.cpp:106-110 | the ESP8266 header built from a 19-space string equals Python's `f"{n:<10}"` for every length below 10^10 |
| Framing.EspRoundTrip | Pre-December/RobotServerDemo/RobotControlServer.cpp:94-109 | `readMessage` of what `sendResponse` wrote is the original message |
| Framing.Receive | Pre-December/SocketsObjects.py:162-175 | an empty first read is a closed peer, an unparsable header is an error, and a delivered message leaves nothing over |
| Framing.ReceiveRoundTrip | Pre-December/server/Python/SocketsServer.py:157-178 | a frame cut into any non-empty reads, the first holding the header, is received as its payload |
| Framing.ReceiveWholeFrame | Pre-December/SocketsObjects.py:162-175 | a frame arriving in one read is received as its payload |
| Framing.ReceiveEspFrame | Pre-December/server/Python/SocketsServer.py:157-178 | a Python server receives what an ESP8266 server framed |
| Framing.CoalescedFramesStall | Pre-December/SocketsObjects.py:170-175 | two frames arriving in one read are never delivered: the length test is an equality that can no longer hold |
| Framing.ReceiveBuffered | Pre-December/SocketsObjects.py:162-175 | the corrected receive reports a closed peer on an empty first read |
| Framing.ReceiveBufferedFrame | Pre-December/SocketsObjects.py:162-175 | the corrected receive returns the payload of the first frame of any stream, and what it read past the frame is the start of what follows |
| Framing.CoalescedFramesSplit | Pre-December/SocketsObjects.py:162-175 | the corrected receive splits two coalesced frames into the first payload and the second frame |
| Framing.ClientRoundTrip | Pre-December/client/Python/SocketsClient.py:157-167 | the client's header-then-body loop reads back any framed payload, using exactly as many reads as it was cut into |
| Framing.ClientReadsBody | Pre-December/client/Python/SocketsClient.py:157-167 | after any header that parses to the payload's length, the client returns that payload from any cut of it into non-empty reads, one read per piece |
| Framing.ClientReadsEspFrame | Pre-December/client/Python/SocketsClient.py:157-167 | the client reads back a frame written by an ESP8266 server |
| Geometry.PointAt | Pre-December/PythonServer_Package/point.py:2-8 | a point carries the given coordinates and the default system `cartesian_absolute` |
| Geometry.PointIterationYieldsCoordinates | Pre-December/PythonServer_Package/point.py:13-22 | iterating a point yields x, y, z in order, then stops; a new `iter()` starts over |
| Geometry.Contains | Pre-December/PythonServer_Package/coordinate_range.py:12-16 | a point is contained iff each coordinate lies between its axis's two endpoints, in either order |
| Geometry.ContainsOrdered | Pre-December/server/Python/HTTPServer.py:23-28 | the index-based `contains` accepts only points the min/max `contains` accepts |
| Geometry.ContainsIgnoresEndpointOrder | Pre-December/HTTPObjects.py:42-46 | swapping the endpoints of any axis does not change `contains` |
| Geometry.ContainsRejectsAnyAxis | Pre-December/PythonServer_Package/coordinate_range.py:12-16 | one coordinate out of its axis rejects the point, whatever the others are |
| Geometry.ContainsEveryAxis | Pre-December/PythonServer_Package/coordinate_range.py:12-16 | `contains` iff, for every axis index, the coordinate lies within that axis |
| Geometry.OrderedVariantAgrees | Pre-December/server/Python/HTTPServer.py:23-28 | on ranges written lower bound first, the two `contains` variants agree |
| Geometry.ReversedAxisContainsNothing | Pre-December/server/Python/HTTPServer.py:23-28 | the index-based `contains` rejects every point when an axis is written upper bound first |
| Geometry.RangeIterationYieldsAxes | Pre-December/PythonServer_Package/coordinate_range.py:21-29 | iterating a range yields the x, y and z ranges in order, then keeps stopping |
| Robot.NewRobot | Pre-December/PythonServer_Package/robot_object.py:5-8 | a new robot is at (10, 20, 30), pipet level 0, bounds [0,100]×[0,100]×[0,50] |
| Robot.MoveMotor | Pre-December/PythonServer_Package/robot_object.py:10-12 | only the position changes, to the given coordinates |
| Robot.MovePipet | Pre-December/PythonServer_Package/robot_object.py:14-16 | only the pipet level changes, to the given value |
| Robot.HomeRobot | Pre-December/PythonServer_Package/robot_object.py:24-25 | only the position changes, to the origin |
| Robot.SafeBoundsBox | Pre-December/PythonServer_Package/robot_object.py:21-22 | with the initial bounds, safe means 0≤x,y≤100 and 0≤z≤50, and both range variants agree |
| Robot.StateOperationsIndependent | Pre-December/server/Python/HTTPServer.py:37-52 | motor and pipet moves commute, homing forgets any earlier move, homing twice is homing once, and no operation changes which targets `is_position_safe` accepts |
| Robot.HomeWithSwitches | Pre-December/HTTPObjects.py:90-104 | homing returns iff all three switches are closed, and then leaves the robot at the origin |
| Robot.NewHomedRobot | Pre-December/HTTPObjects.py:62-71 | the `HTTPObjects.py` constructor ends at the origin with level 0 and the initial bounds |
| Robot.HomedConstructorHomes | Pre-December/HTTPObjects.py:62-71 | that constructor is the plain constructor homed, and differs from it |
| Dispatch.SystemNamed | Pre-December/SocketsObjects.py:95-108 | each name selects its system, first match wins, and any other name selects none |
| Dispatch.SystemField | Pre-December/server/Python/SocketsServer.py:39-76 | a system is selected only from a string `coordinate_system` member naming it |
| Dispatch.Translate | Pre-December/SocketsObjects.py:97-101 | a relative target differs from the origin by exactly the deltas |
| Dispatch.PyTarget | Pre-December/server/Python/SocketsServer.py:46-73 | resolution fails iff one of the three `float(data[k])` reads fails, with the first failure's exception; polar keeps z |
| Dispatch.RelativeIsDisplacedAbsolute | Pre-December/HTTPObjects.py:124-130 | a relative target is the current position displaced by the absolute target of the same data; the two fail alike, and the absolute one ignores the position |
| Dispatch.AbsoluteNumbers | Pre-December/PythonServer_Package/robot_server.py:26-31 | numeric x, y, z give exactly (x, y, z), or the current position plus them |
| Dispatch.EspTarget | Pre-December/RobotServerDemo/RobotControlServer.cpp:132-155 | the C++ absolute target is the three members read as floats (0 when missing); polar keeps z |
| Dispatch.EspRelativeIsDisplacedAbsolute | Pre-December/RobotServerDemo/RobotControlServer.cpp:136-143 | the C++ relative target is the current position displaced by the absolute one; without `data` the targets are the origin and the current position |
| Dispatch.PythonAndArduinoAgreeOnNumbers | Pre-December/ArduinoServer_HTTP/RobotControlServer.cpp:68-90 | on numeric members the Python and C++ readers resolve the same target |
| Dispatch.BoxesAreRanges | Pre-December/RobotServerDemo/MyWiFiServer.cpp:202-212 | each server's chained bound checks are the min/max `contains` of its box, and the C++ boxes lie inside the Python socket box |
| SocketServers.MoveTo | Pre-December/SocketsObjects.py:110-117 | a move actuates only on a resolved, safe target, and then replies with that target; a `KeyError`/`ValueError` from the coordinates becomes the format error, any other exception escapes, and a resolved unsafe target is the out-of-bounds error |
| SocketServers.ObjectsMove | Pre-December/SocketsObjects.py:90-117 | without `data` the reply is the format error; with it, an unknown system is reported; an actuated target is safe |
| SocketServers.ObjectsRequest | Pre-December/SocketsObjects.py:119-128 | a missing or `current_pos` subject yields the position (10, 10, 10); any other subject fails when sent |
| SocketServers.ObjectsHandleCommand | Pre-December/SocketsObjects.py:73-88 | non-JSON raises `ValueError`; decoded JSON that is not a dict raises `AttributeError` at `.get`; only `ping` refreshes the keep-alive; only a `move` actuates, and only a safe target; `move` and `request` give their branch's reply; any other type is `Unknown command` |
| SocketServers.ServerMove | Pre-December/server/Python/SocketsServer.py:37-93 | a falsy system is reported first, then a missing `data`, then an unknown system; an actuated target is safe |
| SocketServers.ServerHandleCommand | Pre-December/server/Python/SocketsServer.py:29-114 | non-JSON raises `ValueError`, an object without `type` raises `KeyError`, a decoded value that is not a dict raises `TypeError`; only `ping` refreshes the keep-alive; only a safe `move` actuates; `move` gives its branch's reply; a request with no subject or `current_pos` gets the position, another subject the unknown-command reply quoting the stripped text |
| SocketServers.ObjectsAfter | Pre-December/SocketsObjects.py:54-69 | after any command the loop reads again; the handler's reply, and only a reply, is sent |
| SocketServers.ServerAfter | Pre-December/server/Python/SocketsServer.py:209-229 | the handler's reply is sent iff it returned one; an exception closes the socket and `continue`s, leaving the loop spinning on the closed socket |
| SocketServers.ServerLoop | Pre-December/server/Python/SocketsServer.py:209-229 | a loop spinning on its closed socket sends nothing and never returns to `accept`, whatever would have arrived; a run sends at most one reply per pass, and returns to `accept` only after a closed peer, an unparsable header or an empty payload, the three ways `get_data` yields something falsy |
| SocketServers.ObjectsLoop | Pre-December/SocketsObjects.py:54-69 | a run sends at most one reply per pass; it returns to `accept` iff some pass is a closed peer or an empty payload; a pass whose header `int()` rejects is skipped, its `ValueError` swallowed like a failing command's |
| SocketServers.ExceptionWedgesServer | Pre-December/server/Python/SocketsServer.py:223-227 | once a command raises, `SocketsServer.py` answers nothing more and never accepts another client; `SocketsObjects.py` goes on as if the command had not arrived, and goes on in the same way past an unparsable header, on which `SocketsServer.py` returns to `accept` |
| SocketServers.MoveActuatesIffSafe | Pre-December/server/Python/SocketsServer.py:78-89 | in both servers a move with a known system actuates iff its target resolves and is safe, and both move to the same point |
| SocketServers.RelativeMoveTarget | Pre-December/SocketsObjects.py:97-101 | a numeric relative move targets (10+dx, 10+dy, 10+dz), and moves there iff that is safe |
| SocketServers.PingOnlyRefreshes | Pre-December/server/Python/SocketsServer.py:95-99 | a ping replies `pong`, refreshes the keep-alive to now, and moves nothing |
| SocketServers.MoveErrorPrecedence | Pre-December/server/Python/SocketsServer.py:39-43 | without a system the two servers report different errors; without `data` they report the same one |
| SocketServers.UnknownTypeReplies | Pre-December/server/Python/SocketsServer.py:114 | an unknown type gets a fixed reply from `SocketsObjects.py` and, from `SocketsServer.py`, the command as stripped by `data.strip()`; neither moves |
| SocketServers.UnknownCommandQuotesStripped | Pre-December/server/Python/SocketsServer.py:218 | whatever whitespace surrounds a payload of unknown type, the reply quotes the payload without it, as `data.strip()` leaves it |
| SocketServers.NullCoordinateEscapes | Pre-December/server/Python/SocketsServer.py:91-93 | a null coordinate raises an uncaught `TypeError` and gets no reply: `SocketsObjects.py` then handles the next command normally, while `SocketsServer.py` spins on its closed socket, answering nothing more and never returning to `accept` |
| EspServers.EspMove | Pre-December/RobotServerDemo/MyWiFiServer.cpp:123-177 | a NULL system and an unknown one are distinguished; the robot moves only to a safe resolved target |
| EspServers.TcpMoveReply | Pre-December/RobotServerDemo/RobotControlServer.cpp:122-163 | a move actuates iff it passed the gate, never refreshes the keep-alive, and replies with the target; each refusal has its own error text |
| EspServers.TcpRequestReply | Pre-December/RobotServerDemo/RobotControlServer.cpp:178-191 | a NULL subject is an error; `current_pos` yields (10, 10, 10); any other subject is `Error: Unknown command` |
| EspServers.MyWiFiHandleCommand | Pre-December/RobotServerDemo/MyWiFiServer.cpp:113-199 | unparsable JSON is a format error; a parsed command whose `type` is NULL (missing, not a string, or a root that is not an object) is undefined; only `ping` refreshes; only a box-safe move actuates; `move`, `ping` and `request` give their branch's reply at (10, 10, 10); any other type is `Error: Unknown command` |
| EspServers.DemoHandleCommand | Pre-December/RobotServerDemo/RobotControlServer.cpp:112-192 | as for `MyWiFiServer`, non-object roots included, with the robot's safety; `pipet_control` without a `pipet_level` member quotes the command in an error, with one sets and reports the level read |
| EspServers.HttpHandleCommand | Pre-December/ArduinoServer_HTTP/RobotControlServer.cpp:52-105 | unparsable JSON is a format error; a NULL `type`, non-object roots included, is undefined; success iff the robot acts; a move actuates only inside [0,100]³ and is answered from (10, 20, 30); the pipet level applied is the one read; any type but `move` and `pipet_control` is `Unknown command` |
| EspServers.HttpMoveReply | Pre-December/ArduinoServer_HTTP/RobotControlServer.cpp:62-97 | a move body reports success iff it passed the gate, which is also when the motors move; each refusal has its own error text |
| EspServers.ArduinoServe | Pre-December/ArduinoServer_HTTP/RobotControlServer.cpp:8-50 | every HTTP reply has status 200; move and pipet bodies come from `handleCommand`; ping and request reply fixed bodies |
| EspServers.UnsafeMoveStill200 | Pre-December/ArduinoServer_HTTP/RobotControlServer.cpp:22-26 | an out-of-bounds move is a 200 with an error body, and nothing moves |
| EspServers.HttpCommandHasNoPing | Pre-December/ArduinoServer_HTTP/RobotControlServer.cpp:52-105 | a `ping` or `request` command body is an unknown command to the HTTP server |
| EspServers.RelativeMoveTargets | Pre-December/ArduinoServer_HTTP/RobotControlServer.cpp:73-79 | C++ relative moves target (10,10,10) or (10,20,30) plus the deltas, missing deltas being 0, and move iff safe |
| EspServers.TcpServersAgreeOffPipet | Pre-December/RobotServerDemo/MyWiFiServer.cpp:113-199 | the two TCP servers answer every command except `pipet_control` alike, given the same safety box |
| EspServers.MoveRepliesAgree | Pre-December/RobotServerDemo/RobotControlServer.cpp:122-163 | the TCP and HTTP servers move alike on every outcome, and a TCP move succeeds iff the HTTP body reports success |
| EspServers.MoveActuatesIffSafe | Pre-December/RobotServerDemo/MyWiFiServer.cpp:113-199 | a move in a known system drives the motors to its target exactly when the server's safety check admits it, on all three servers |
| EspServers.DemoPipetControl | Pre-December/RobotServerDemo/RobotControlServer.cpp:165-172 | `pipet_control` without `pipet_level` is refused with the command quoted; otherwise the level read is applied |
| EspServers.MissingTypeIsUndefined | Pre-December/RobotServerDemo/MyWiFiServer.cpp:121-123 | `{}`, `[1]` and `42` all reach `strcmp(NULL, …)` |
| EspServers.NonObjectRootIsUndefined | Pre-December/RobotServerDemo/MyWiFiServer.cpp:115-121 | every parsed root that is not an object is undefined behaviour in all three servers |
| EspServers.TypeCheckedIsDefined | Pre-December/RobotServerDemo/RobotControlServer.cpp:120-122 | with a type check no command is undefined, typed commands are handled as before, and a non-object root is an unknown command |
| ClientSlots.InitialTable | Pre-December/RobotServerDemo/MyWiFiServer.h:18-28 | the table starts with five free slots |
| ClientSlots.Elapsed | Pre-December/RobotServerDemo/MyWiFiServer.cpp:77-81 | the unsigned 32-bit difference wraps around once `millis()` has passed zero |
| ClientSlots.ExpiryAcrossWrap | Pre-December/RobotServerDemo/RobotControlServer.cpp:76-80 | across a wrap-around the difference is still the true delay, and a slot expires iff more than 30 000 ms passed |
| ClientSlots.FirstFree | Pre-December/RobotServerDemo/MyWiFiServer.cpp:24-36 | the slot found is the lowest free one; none is found iff every slot is in use |
| ClientSlots.Admit | Pre-December/RobotServerDemo/MyWiFiServer.cpp:24-42 | refusal iff all five slots are in use, with the refusal notice; otherwise the lowest free slot gets the client, stamped now, and a framed greeting with its number |
| ClientSlots.InUseCount | Pre-December/RobotServerDemo/RobotControlServer.cpp:17-36 | at most as many clients as slots are counted |
| ClientSlots.AdmitCounts | Pre-December/RobotServerDemo/RobotControlServer.cpp:17-36 | admission adds exactly one client, and refusal happens iff five are connected |
| ClientSlots.FirstClientTakesSlotZero | Pre-December/RobotServerDemo/RobotControlServer.cpp:20-27 | the first client takes slot 0 and is greeted as 0 by one server, 1 by the other |
| ClientSlots.HandleClient | Pre-December/RobotServerDemo/MyWiFiServer.cpp:63-92 | a free slot is left alone; only slot i changes; its keep-alive becomes now after a ping and is kept otherwise; it is emptied iff that keep-alive is more than 30 s old, and kept otherwise; the reply and actuation are the pending command's |
| ClientSlots.SlotKeptIffRecent | Pre-December/RobotServerDemo/MyWiFiServer.cpp:68-81 | a connected slot survives its turn iff it pinged or its keep-alive is at most 30 000 ms old, across a `millis()` wrap |
| ClientSlots.HandleClientLocal | Pre-December/RobotServerDemo/MyWiFiServer.cpp:63-92 | a turn depends only on its own slot and keep-alive |
| ClientSlots.ResetIfClosed | Pre-December/RobotServerDemo/RobotControlServer.cpp:53-56 | a closed slot is emptied and nothing else changes |
| ClientSlots.PingRefreshesOwnSlot | Pre-December/RobotServerDemo/MyWiFiServer.cpp:63-92 | a framed ping from slot i answers `pong` and refreshes slot i's keep-alive only |
| ClientSlots.EvictionBoundary | Pre-December/RobotServerDemo/MyWiFiServer.cpp:77-81 | a keep-alive exactly 30 s old survives; one 30.001 s old is evicted |
| ClientSlots.ServeAll | Pre-December/RobotServerDemo/RobotControlServer.cpp:38-59 | undefined iff some in-use slot's command is; otherwise each slot ends as its own turn leaves it, with that turn's reply and actuation; slots heard from within 30 s are kept, no slot in use is stale, and slots only empty |
| ClientSlots.SlotTurnsSettle | Pre-December/RobotServerDemo/MyWiFiServer.cpp:43-58 | when every slot ends as its own turn leaves it, a recent slot is kept, no in-use slot is stale, and with the reset no closed slot remains held |
| HttpServers.HandleMove | Pre-December/PythonServer_Package/robot_server.py:17-45 | a non-object body is a 500, a falsy system or data a 400, an unknown system a 400; success iff the target resolves and is safe, and then only the position changes |
| HttpServers.PipetLevelField | Pre-December/PythonServer_Package/robot_server.py:49-50 | reading the level succeeds iff the body and its `data` are objects |
| HttpServers.HandlePipet | Pre-December/HTTPObjects.py:149-165 | 500 iff reading the level raises, 400 iff the level is absent or null, otherwise 200 and only the level changes |
| HttpServers.Route | Pre-December/PythonServer_Package/robot_server.py:11-15 | exactly five paths are routed, and only `/move` and `/pipet_control` take POST |
| HttpServers.Serve | Pre-December/server/Python/HTTPServer.py:61-125 | each route reaches its handler; ping and request are 200 and change nothing; home moves the robot to the origin only |
| HttpServers.MoveActuatesIffSafe | Pre-December/HTTPObjects.py:140-144 | a resolved move reaches its target with 200 iff the target is safe, and otherwise is a 400 that changes nothing |
| HttpServers.MoveTargets | Pre-December/server/Python/HTTPServer.py:67-95 | numeric data resolves to the current position plus the deltas (relative) or the numbers (absolute) |
| HttpServers.CartesianNamesDisjoint | Pre-December/PythonServer_Package/robot_server.py:26-37 | a short cartesian name at the package server, or a long one at the others, is a 400 |
| HttpServers.ShortNameServersAgree | Pre-December/server/Python/HTTPServer.py:67-95 | with the initial bounds, `HTTPObjects.py` and `HTTPServer.py` answer every move alike |
| HttpServers.PipetStoresLevel | Pre-December/PythonServer_Package/robot_server.py:47-58 | a level stores exactly that level with 200; no level is a 400 that keeps the old one |
| HttpServers.HomeForgetsMoves | Pre-December/PythonServer_Package/robot_server.py:60-75 | homing is idempotent and forgets earlier moves; ping and request change nothing |
| Clients.NewClient | Pre-December/client/Python/SocketsClient.py:26-37 | a new client is disconnected with the absolute system current |
| Clients.SetCoordinateSystem | Pre-December/PythonClient_HTTP/HTTPClient.py:71-78 | success iff the system is one of the three known keys, and only then does the current system change |
| Clients.SetKeepsSystemKnown | Pre-December/PythonClient_Package/controlapi.py:56-63 | the current system always stays a known one |
| Clients.KnownSystemIsServerSystem | Pre-December/PythonClient_Package/controlapi.py:14-19 | a client accepts a system name iff the server with the same names recognises it |
| Clients.DataKeys | Pre-December/client/Python/SocketsClient.py:118-126 | a `cartesian…` system sends keys x, y, anything else r, theta |
| Clients.MovePayload | Pre-December/PythonClient_HTTP/HTTPClient.py:95-103 | the command has exactly type, system and data; the system field is the current one, and data holds the point's values under the keys of the chosen system |
| Clients.PointMove | Pre-December/client/Python/SocketsClient.py:103-131 | not connected sends nothing; a given point is sent as is; without one, x, y, z are sent when all are truthy and otherwise it raises |
| Clients.DefaultPointSendsNulls | Pre-December/PythonClient_HTTP/HTTPClient.py:80-89 | with the default point, x, y, z are ignored, three nulls are sent, and the Python servers with short system names answer 500 |
| Clients.DefaultPointMovesEspToOrigin | Pre-December/PythonClient_HTTP/HTTPClient.py:167 | the same command at the ESP8266 HTTP server, the client's default address, is a 200 that drives the robot to the origin |
| Clients.ZeroCoordinateRaises | Pre-December/client/Python/SocketsClient.py:109-112 | a move to x = 0 without a point raises instead of sending |
| Clients.PointMoveCorrected | Pre-December/client/Python/SocketsClient.py:103-131 | the corrected move sends the given point, or x, y, z when all are given; it is invalid iff no point and some coordinate missing |
| Clients.CorrectedMoveSendsCoordinates | Pre-December/PythonClient_HTTP/HTTPClient.py:86-89 | the corrected move sends any numbers, zero included, and agrees with the code whenever a point is passed |
| Clients.Floats3 | Pre-December/PythonClient_Package/controlapi.py:71-73 | the three conversions succeed together, or fail with the first failure's exception |
| Clients.ControlApiMove | Pre-December/PythonClient_Package/controlapi.py:65-96 | not connected sends nothing; an escaping exception is a `TypeError` from truthy arguments, and a `TypeError` in converting truthy arguments always escapes; otherwise the command always carries `point` |
| Clients.ControlApiIgnoresCoordinates | Pre-December/PythonClient_Package/controlapi.py:71-78 | numbers given as x, y, z are not sent, and the home command is never sent |
| Clients.ControlApiMoveCorrected | Pre-December/PythonClient_Package/controlapi.py:65-100 | the corrected move sends the converted x, y, z, is invalid iff a conversion fails, and homes iff no coordinates and the default point |
| Clients.CorrectedControlApiMoves | Pre-December/PythonClient_Package/controlapi.py:98-100 | the corrected move sends the numbers given, and `move()` with no arguments homes |
| Clients.SocketSend | Pre-December/client/Python/SocketsClient.py:185-201 | a failing send sends nothing and disconnects; otherwise the frame is the header of the length followed by the message |
| Clients.ServerReadsClientFrame | Pre-December/SocketsObjects.py:341-357 | a server's receive gets back exactly what the client framed |
| Clients.ClientMethod | Pre-December/PythonClient_Package/controlapi.py:140-143 | POST iff the endpoint is `move` or `pipet_control` |
| Clients.HttpSend | Pre-December/PythonClient_HTTP/HTTPClient.py:139-150 | a request goes out iff connected, to server/endpoint, with the message as JSON body iff POST |
| Clients.MethodMatchesRoute | Pre-December/PythonClient_HTTP/HTTPClient.py:147-150 | for every routed endpoint the client uses the one method the server accepts there |
| Clients.ClientMoveReachesServer | Pre-December/PythonClient_HTTP/HTTPClient.py:80-107 | a connected client's absolute move is POSTed to `/move` and resolves at the matching server to the point sent |
| Clients.MismatchedKeysFail | Pre-December/PythonClient_HTTP/HTTPClient.py:92-103 | polar keys under an absolute current system reach the server as a 500 |
| Clients.CheckServerAvailability | Pre-December/PythonClient_HTTP/HTTPClient.py:46-69 | connected iff the primary ping is 200 or the loopback fallback is; the URL changes iff the fallback is taken; other fields keep their values |
| Clients.FallbackOnlyAfterException | Pre-December/PythonClient_Package/controlapi.py:31-54 | the loopback probe matters only after the primary request raised with loopback on |
| Clients.DisconnectedSendsNothing | Pre-December/PythonClient_Package/controlapi.py:132-143 | after the availability check, commands go out iff the check succeeded |
| Clients.Queued | Pre-December/client/Python/SocketsClient.py:153-173 | no more messages are queued than passes, and never a `pong` |
| Clients.ReceiveMessages | Pre-December/SocketsObjects.py:309-329 | complete messages other than `pong` are queued in arrival order; `connected` clears iff the run ends in a lost connection |
| Clients.GetMessages | Pre-December/client/Python/SocketsClient.py:230-238 | an empty queue yields nothing yet; otherwise every queued message, oldest first, leaving the queue empty |
| Clients.QueuedThree | Pre-December/client/Python/SocketsClient.py:169-170 | three complete passes queue the two non-pong texts, in order |
| Clients.RepliesQueueInOrder | Pre-December/client/Python/SocketsClient.py:153-173 | two framed replies with a pong between them queue as the two replies, in order |

## Left out

- Sockets, threads, Flask and the ESP8266 web server are not modelled. Received text, parsed JSON, `time()`, `millis()` and HTTP probe results are parameters.
- JSON parsing and serialisation are not modelled. The ArduinoJson `StaticJsonDocument<200>` capacity limit is left out too.
- Number formatting is not modelled. Messages that embed numbers are tagged values, and the exception text in the 500 replies is left out.
- Floating point and trigonometry are not modelled. Coordinates are exact reals, and the polar conversion is a parameter.
- Json.PyFloat: parses integer strings only, with the whitespace `str.strip()` removes around them and digit groups such as `1_000`. Decimal, exponent and `inf`/`nan` strings are treated as raising `ValueError`, because Python's float grammar is outside the model.
- Text.ParseInt: decimal digits other than `0`-`9`, which `int()` accepts on a `str` (the client's `int(header.strip())`), are treated as raising `ValueError`. `int()` on the servers' `bytes` accepts only ASCII digits, so only the client's reading is narrower.
- Json.ArduinoFloat: reads every non-number as 0. ArduinoJson's conversion of booleans and numeric strings is not modelled.
- EspServers.MentionsPipetLevel: `String(doc["data"]).indexOf("pipet_level")` is read as "`data` is an object with a `pipet_level` member". The substring search also matches the text elsewhere, e.g. inside a string value.
- ClientSlots.InUse: the `WiFiClient` boolean is read as "held and still open". Unread data kept by a closed connection is not modelled.
- UTF-8 encoding and decoding are not modelled. A string is a sequence of characters, so byte and character lengths coincide.
- Flask's own behaviour is not modelled: 404 and 405 replies and request-parsing errors.
  - The handlers of `HTTPObjects.py` are registered with class-level decorators, so Flask would call them unbound. The model treats them as bound to the server's robot.
  - The `/` sample route of `HTTPObjects.py` is not modelled.
- `RobotServerDemo/RobotControlServer.cpp` calls `robot->isPositionSafe`, which `RobotServerDemo/RobotObject.h` does not declare. The demo server's safety predicate is therefore a parameter. The robot object's motor and pipet callbacks are reduced to the actuation they are asked for.
- The heartbeat and `send_ping` threads are not modelled beyond the keep-alive timestamp a ping refreshes.
  - The Python socket servers' 1.5 s monitor is not modelled.
  - The client's 5 s ping interval is not modelled.
- SocketServers.ServerLoop: one pass stands for one `get_data` result. A socket closed by the heartbeat thread, a failing `send`, and the `BlockingIOError` retries inside `get_data` are not modelled; the socket errors they raise are the I/O left out above.
- `connect`, `find_robot_ip`, `is_device_online`, `disconnect`, `get_status` and `request_position` are not modelled; they are I/O.
- The HTTP clients' handling of the server's response in `send_message` is not modelled; the reply is I/O.
- Exceptions other than `RequestException` in the availability probe are not modelled.
- Serial logging, `print` and the `delay` calls are not modelled.
- Clients.GetMessages: the busy-wait while the queue is empty is modelled as returning `None`, because blocking is not expressible in a pure model.
- The driver scripts and `__main__` blocks are not modelled.

## Findings

| source | as written | input that shows it | evidently intended | confidence | as-written member | corrected member |
|---|---|---|---|---|---|---|
| Pre-December/SocketsObjects.py:166-175 | the server's receive loop returns only when the accumulated length minus 10 equals the declared length | two frames arriving in one `recv`, e.g. `"2         hi2         ok"` | stop once at least the declared length has arrived, and keep the excess for the next message | high, not executed | Framing.CoalescedFramesStall | Framing.ReceiveBufferedFrame |
| Pre-December/RobotServerDemo/MyWiFiServer.cpp:121-123 | `strcmp(type, "move")` with `type = doc["type"]`, which is NULL when the member is missing or the root is not an object | the commands `{}`, `[1]` or `42` | treat a missing or non-string `type` as an unknown command | high, not executed | EspServers.MissingTypeIsUndefined | EspServers.TypeCheckedIsDefined |
| Pre-December/PythonClient_Package/controlapi.py:71-92 | the converted x, y, z are discarded and `point` is always sent; `point == Point(0,0,0)` compares identity, so the home branch never runs | `move(x=50, y=50, z=20)` sends (0, 0, 0); `move()` sends a move, not `home_robot` | send the converted coordinates, and home when no coordinates are given and the point is the origin | high, not executed | Clients.ControlApiIgnoresCoordinates | Clients.CorrectedControlApiMoves |
| Pre-December/PythonClient_HTTP/HTTPClient.py:80-89 | the default point `Point(None, None, None)` is a truthy object, so x, y, z are never used | `move(x=1, y=2, z=3)` sends three nulls; the Python servers answer 500, and the ESP8266 HTTP server at the default address answers 200 and moves the robot to (0, 0, 0) | default the point to `None` and use x, y, z when given | high, not executed | Clients.DefaultPointSendsNulls | Clients.CorrectedMoveSendsCoordinates |
| Pre-December/client/Python/SocketsClient.py:109-112 | `x and y and z` rejects a zero coordinate; `c` stays `None`, and `c.x` then raises `AttributeError` | `move(x=0, y=5, z=5)` | test `is not None`, so that zero coordinates are sent | high, not executed | Clients.ZeroCoordinateRaises | Clients.CorrectedMoveSendsCoordinates |

=== FILE: client.dfy ===
/** The Python clients' `RobotControlAPI`: the socket clients
    (`SocketsObjects.py`, `client/Python/SocketsClient.py`) and the HTTP
    clients (`PythonClient_HTTP/HTTPClient.py`,
    `PythonClient_Package/controlapi.py`).  What is modelled is how a
    command is built and whether it leaves the client; the network replies
    are parameters. */
module Clients {

  import opened Wrappers
  import opened Text
  import opened Framing
  import opened Json
  import opened Geometry
  import opened Dispatch
  import opened Robot
  import opened HttpServers
  import EspServers

  /** The client's fields that commands depend on: the keys of
      `coord_systems`, `connected`, `current_coord_system`, the server
      address and `loopback`. */
  datatype ClientState = ClientState(names: SystemNames, connected: bool, currentSystem: string,
                                     server: string, loopback: bool)

  /** `key in self.coord_systems`. */
  predicate KnownSystem(names: SystemNames, system: string) {
    system in {names.absolute, names.relative, names.polar}
  }

  /** The constructor before it tries to connect: the absolute system is
      current. */
  function NewClient(names: SystemNames, server: string, loopback: bool): (st: ClientState)
    ensures !st.connected && KnownSystem(st.names, st.currentSystem) && st.currentSystem == names.absolute
  {
    ClientState(names, false, names.absolute, server, loopback)
  }

  /** `set_coordinate_system`: the `bool` says whether the success reply was
      returned. */
  function SetCoordinateSystem(st: ClientState, system: string): (r: (ClientState, bool))
    ensures r.1 <==> KnownSystem(st.names, system)
    ensures r.1 ==> r.0 == st.(currentSystem := system)
    ensures !r.1 ==> r.0 == st
  {
    if KnownSystem(st.names, system) then (st.(currentSystem := system), true) else (st, false)
  }

  /** The current system is always one the client knows. */
  lemma SetKeepsSystemKnown(st: ClientState, system: string)
    requires KnownSystem(st.names, st.currentSystem)
    ensures KnownSystem(SetCoordinateSystem(st, system).0.names, SetCoordinateSystem(st, system).0.currentSystem)
  {
  }

  /** A name the client accepts is one the server with the same names
      recognises, and conversely. */
  lemma KnownSystemIsServerSystem(names: SystemNames, system: string)
    ensures KnownSystem(names, system) <==> SystemNamed(names, system).Some?
  {
  }

  // ------------------------------------------------------- Move payload

  /** A client-side `Point`: each coordinate is whatever value was passed
      (`None` is `Null`), and goes into the JSON unchanged. */
  datatype ClientPoint = ClientPoint(x: Value, y: Value, z: Value)

  /** `coordinate_system.startswith("cartesian")`. */
  predicate Cartesian(system: string) {
    |system| >= 9 && system[..9] == "cartesian"
  }

  /** The keys of the first two coordinates. */
  function DataKeys(system: string): (k: (string, string))
    ensures Cartesian(system) ==> k == ("x", "y")
    ensures !Cartesian(system) ==> k == ("r", "theta")
  {
    if Cartesian(system) then ("x", "y") else ("r", "theta")
  }

  /** The `move` command dict: the system field is always the current one,
      while the keys follow `system`. */
  function MovePayload(current: string, system: string, c: ClientPoint): (v: Value)
    ensures v.Object? && v.members.Keys == {"type", "coordinate_system", "data"}
    ensures v.members["type"] == Str("move") && v.members["coordinate_system"] == Str(current)
    ensures v.members["data"].Object? && v.members["data"].members.Keys == {DataKeys(system).0, DataKeys(system).1, "z"}
    ensures v.members["data"].members[DataKeys(system).0] == c.x
    ensures v.members["data"].members[DataKeys(system).1] == c.y
    ensures v.members["data"].members["z"] == c.z
  {
    var k := DataKeys(system);
    Object(map["type" := Str("move"), "coordinate_system" := Str(current),
               "data" := Object(map[k.0 := c.x, k.1 := c.y, "z" := c.z])])
  }

  /** A command whose `coordinate_system` field is `system`. */
  predicate CarriesSystem(command: Value, system: string) {
    command.Object? && "coordinate_system" in command.members && command.members["coordinate_system"] == Str(system)
  }

  /** `{"type": "home_robot"}`. */
  const HomeCommand := Object(map["type" := Str("home_robot")])

  /** What a move call does: refuse because the client is not connected,
      hand a command to `send_message` for an endpoint, or report the point
      invalid without sending. */
  datatype ClientCommand = NotConnected | Send(endpoint: string, command: Value) | Invalid

  /** `coordinate_system or self.current_coord_system`; the empty string
      stands for `None` too. */
  function KeySystem(st: ClientState, system: string): string {
    if system == "" then st.currentSystem else system
  }

  /** `move(c, x, y, z, coordinate_system)` of the socket clients and of
      `HTTPClient.py`.  A point object is always truthy, so `c` is rebuilt
      from x, y, z only when it is `None` (`c.None?`) and x, y, z are all
      truthy; a `None` point then fails at `c.x`. */
  function PointMove(st: ClientState, c: Option<ClientPoint>, x: Value, y: Value, z: Value, system: string): (r: PyResult<ClientCommand>)
    ensures !st.connected ==> r == Ok(NotConnected)
    ensures st.connected && c.Some? ==> r == Ok(Send("move", MovePayload(st.currentSystem, KeySystem(st, system), c.value)))
    ensures st.connected && c.None? && Truthy(x) && Truthy(y) && Truthy(z) ==>
              r == Ok(Send("move", MovePayload(st.currentSystem, KeySystem(st, system), ClientPoint(x, y, z))))
    ensures r.Raise? <==> st.connected && c.None? && !(Truthy(x) && Truthy(y) && Truthy(z))
    ensures r.Raise? ==> r.error == AttributeError
    ensures r.Ok? && r.value.Send? ==> r.value.endpoint == "move" && CarriesSystem(r.value.command, st.currentSystem)
  {
    if !st.connected then Ok(NotConnected)
    else
      var point := if c.None? && Truthy(x) && Truthy(y) && Truthy(z) then Some(ClientPoint(x, y, z)) else c;
      match point
      case None => Raise(AttributeError)
      case Some(p) => Ok(Send("move", MovePayload(st.currentSystem, KeySystem(st, system), p)))
  }

  /** The default `c` of the socket clients. */
  const SocketsDefaultPoint: Option<ClientPoint> := None

  /** The default `c` of `HTTPClient.py`: `Point(None, None, None)`. */
  const HttpClientDefaultPoint: Option<ClientPoint> := Some(ClientPoint(Null, Null, Null))

  /** With `HTTPClient.py`'s default point the coordinates given as x, y, z
      are never used: the command carries three nulls, and the Python
      servers that accept its system names answer it with a 500. */
  lemma DefaultPointSendsNulls(st: ClientState, v: Variant, robot: RobotState, polar: PolarToCartesian)
    requires st.connected && st.currentSystem == v.names.absolute && v.names == ShortNames
    ensures var r := PointMove(st, HttpClientDefaultPoint, Number(1.0), Number(2.0), Number(3.0), "");
            r.Ok? && r.value.Send? && r.value.command.members["data"] == Object(map["x" := Null, "y" := Null, "z" := Null])
            && HandleMove(v, robot, r.value.command, polar) == Refuse(robot, 500, "Error processing move command")
  {
    var cmd := MovePayload(st.currentSystem, st.currentSystem, ClientPoint(Null, Null, Null));
    assert cmd.members["data"].members == map["x" := Null, "y" := Null, "z" := Null];
    assert TruthyField(cmd.members, "data") by { assert "x" in cmd.members["data"].members; }
    assert SystemField(v.names, cmd.members) == Some(Absolute);
  }

  /** At the ESP8266 HTTP server, the address `HTTPClient.py` targets by
      default, the same command is worse: the three nulls read as 0, and the
      server answers 200 and drives the robot to the origin instead of the
      point asked for. */
  lemma DefaultPointMovesEspToOrigin(st: ClientState, raw: string, polar: PolarToCartesian)
    requires st.connected && st.currentSystem == ShortNames.absolute
    ensures var r := PointMove(st, HttpClientDefaultPoint, Number(1.0), Number(2.0), Number(3.0), "");
            var origin := PointAt(0.0, 0.0, 0.0);
            r.Ok? && r.value.Send? &&
            EspServers.ArduinoServe(EspServers.MoveEndpoint, Request(raw, Some(r.value.command)), polar) ==
            EspServers.Handled(HttpResponse(200, JsonBody(true, MovedTo(origin))), EspServers.MotorTo(origin), false)
  {
    var cmd := MovePayload(st.currentSystem, st.currentSystem, ClientPoint(Null, Null, Null));
    var doc := EspServers.Members(cmd);
    assert CString(doc, "type") == Some("move");
    assert CString(doc, "coordinate_system") == Some("cartesian_abs");
    assert SystemNamed(ShortNames, "cartesian_abs") == Some(Absolute);
    assert ArduinoFloatAt(doc, "x") == 0.0 && ArduinoFloatAt(doc, "y") == 0.0 && ArduinoFloatAt(doc, "z") == 0.0;
    assert EspServers.ArduinoHttpSafe(PointAt(0.0, 0.0, 0.0));
  }

  /** The socket clients' truthiness test rejects a zero coordinate: moving
      to x = 0 without a point raises instead of sending. */
  lemma ZeroCoordinateRaises(st: ClientState, y: real, z: real)
    requires st.connected
    ensures PointMove(st, SocketsDefaultPoint, Number(0.0), Number(y), Number(z), "") == Raise(AttributeError)
  {
  }

  /** The evidently intended move: `c` defaults to `None`, and x, y, z are
      used when they are all given (`is not None`); otherwise nothing is
      sent. */
  function PointMoveCorrected(st: ClientState, c: Option<ClientPoint>, x: Value, y: Value, z: Value, system: string): (r: ClientCommand)
    ensures !st.connected ==> r == NotConnected
    ensures st.connected && c.Some? ==> r == Send("move", MovePayload(st.currentSystem, KeySystem(st, system), c.value))
    ensures st.connected && c.None? && x != Null && y != Null && z != Null ==>
              r == Send("move", MovePayload(st.currentSystem, KeySystem(st, system), ClientPoint(x, y, z)))
    ensures r == Invalid <==> st.connected && c.None? && (x == Null || y == Null || z == Null)
  {
    if !st.connected then NotConnected
    else match c
      case Some(p) => Send("move", MovePayload(st.currentSystem, KeySystem(st, system), p))
      case None =>
        if x != Null && y != Null && z != Null then Send("move", MovePayload(st.currentSystem, KeySystem(st, system), ClientPoint(x, y, z)))
        else Invalid
  }

  /** The corrected move sends every coordinate it is given, zero included,
      and agrees with the code as written whenever a point is passed. */
  lemma CorrectedMoveSendsCoordinates(st: ClientState, c: Option<ClientPoint>, x: real, y: real, z: real, system: string)
    requires st.connected
    ensures PointMoveCorrected(st, None, Number(x), Number(y), Number(z), system) ==
            Send("move", MovePayload(st.currentSystem, KeySystem(st, system), ClientPoint(Number(x), Number(y), Number(z))))
    ensures c.Some? ==> PointMove(st, c, Null, Null, Null, system) == Ok(PointMoveCorrected(st, c, Null, Null, Null, system))
  {
  }

  // ----------------------------------------------------- controlapi.py

  /** `(float(x), float(y), float(z))`, evaluated left to right. */
  function Floats3(x: Value, y: Value, z: Value): (r: PyResult<(real, real, real)>)
    ensures r.Ok? <==> PyFloat(x).Ok? && PyFloat(y).Ok? && PyFloat(z).Ok?
    ensures r.Ok? ==> r.value == (PyFloat(x).value, PyFloat(y).value, PyFloat(z).value)
    ensures PyFloat(x).Raise? ==> r == Raise(PyFloat(x).error)
    ensures PyFloat(x).Ok? && PyFloat(y).Raise? ==> r == Raise(PyFloat(y).error)
  {
    match PyFloat(x)
    case Raise(e) => Raise(e)
    case Ok(a) =>
      match PyFloat(y)
      case Raise(e) => Raise(e)
      case Ok(b) =>
        match PyFloat(z)
        case Raise(e) => Raise(e)
        case Ok(c) => Ok((a, b, c))
  }

  /** The default `point` of `controlapi.move`: `Point(0, 0, 0)`. */
  const ControlApiDefaultPoint := ClientPoint(Number(0.0), Number(0.0), Number(0.0))

  /** `move(point, x, y, z, coordinate_system)` of `controlapi.py` as
      written.  When x, y, z are all truthy they are converted, a
      `ValueError` is caught and printed, a `TypeError` escapes; the
      converted values are then dropped.  `point == Point(0, 0, 0)` compares
      object identity with a fresh object, so the home branch is never taken.
      The command always carries `point`. */
  function ControlApiMove(st: ClientState, point: ClientPoint, x: Value, y: Value, z: Value, system: string): (r: PyResult<ClientCommand>)
    ensures !st.connected ==> r == Ok(NotConnected)
    ensures r.Raise? ==> r.error == TypeError && Truthy(x) && Truthy(y) && Truthy(z)
    ensures r.Ok? && st.connected ==> r.value == Send("move", MovePayload(st.currentSystem, KeySystem(st, system), point))
    ensures st.connected && Truthy(x) && Truthy(y) && Truthy(z) && Floats3(x, y, z) == Raise(TypeError) ==> r == Raise(TypeError)
    ensures st.connected && !(Truthy(x) && Truthy(y) && Truthy(z) && Floats3(x, y, z) == Raise(TypeError)) ==>
              r == Ok(Send("move", MovePayload(st.currentSystem, KeySystem(st, system), point)))
  {
    if !st.connected then Ok(NotConnected)
    else
      var converted := if Truthy(x) && Truthy(y) && Truthy(z) then Floats3(x, y, z) else Ok((0.0, 0.0, 0.0));
      if converted.Raise? && converted.error == TypeError then Raise(TypeError)
      else Ok(Send("move", MovePayload(st.currentSystem, KeySystem(st, system), point)))
  }

  /** As written, x, y, z never reach the command, and the home command is
      never sent: `move(x=50, y=50, z=20)` sends the default (0, 0, 0). */
  lemma ControlApiIgnoresCoordinates(st: ClientState, x: real, y: real, z: real)
    requires st.connected && x != 0.0 && y != 0.0 && z != 0.0
    ensures ControlApiMove(st, ControlApiDefaultPoint, Number(x), Number(y), Number(z), "") ==
            Ok(Send("move", MovePayload(st.currentSystem, st.currentSystem, ControlApiDefaultPoint)))
    ensures ControlApiMove(st, ControlApiDefaultPoint, Null, Null, Null, "") !=
            Ok(Send("home_robot", HomeCommand))
  {
  }

  /** The evidently intended `controlapi.move`: converted x, y, z go into the
      command; an invalid one sends nothing; with no coordinates, a point at
      the origin (compared by value) sends the home command. */
  function ControlApiMoveCorrected(st: ClientState, point: ClientPoint, x: Value, y: Value, z: Value, system: string): (r: ClientCommand)
    ensures !st.connected ==> r == NotConnected
    ensures r.Send? && r.endpoint == "home_robot" <==>
              st.connected && (x == Null || y == Null || z == Null) && point == ControlApiDefaultPoint
    ensures st.connected && x != Null && y != Null && z != Null && Floats3(x, y, z).Ok? ==>
              var f := Floats3(x, y, z).value;
              r == Send("move", MovePayload(st.currentSystem, KeySystem(st, system), ClientPoint(Number(f.0), Number(f.1), Number(f.2))))
    ensures r == Invalid <==> st.connected && x != Null && y != Null && z != Null && Floats3(x, y, z).Raise?
  {
    if !st.connected then NotConnected
    else if x != Null && y != Null && z != Null then
      match Floats3(x, y, z)
      case Raise(_) => Invalid
      case Ok(f) => Send("move", MovePayload(st.currentSystem, KeySystem(st, system), ClientPoint(Number(f.0), Number(f.1), Number(f.2))))
    else if point == ControlApiDefaultPoint then Send("home_robot", HomeCommand)
    else Send("move", MovePayload(st.currentSystem, KeySystem(st, system), point))
  }

  /** The corrected move sends the numbers it is given, and `move()` with no
      arguments homes the robot. */
  lemma CorrectedControlApiMoves(st: ClientState, x: real, y: real, z: real)
    requires st.connected
    ensures ControlApiMoveCorrected(st, ControlApiDefaultPoint, Number(x), Number(y), Number(z), "") ==
            Send("move", MovePayload(st.currentSystem, st.currentSystem, ClientPoint(Number(x), Number(y), Number(z))))
    ensures ControlApiMoveCorrected(st, ControlApiDefaultPoint, Null, Null, Null, "") == Send("home_robot", HomeCommand)
  {
  }

  // ------------------------------------------------------------ Sending

  /** `send_message` of the socket clients: the frame that goes out, or,
      when `sendall` fails, nothing and `connected` cleared. */
  function SocketSend(st: ClientState, message: string, sendFails: bool): (r: (Option<string>, ClientState))
    ensures sendFails ==> r.0.None? && r.1 == st.(connected := false)
    ensures !sendFails ==> r.1 == st && r.0.Some?
    ensures !sendFails && |message| < MaxFramedLength ==> |r.0.value| == HeaderSize + |message|
    ensures !sendFails && |message| < MaxFramedLength ==>
              r.0.value[..HeaderSize] == PyHeader(|message|) && r.0.value[HeaderSize..] == message
  {
    if sendFails then (None, st.(connected := false)) else (Some(PyFrame(message)), st)
  }

  /** The server's `receive_message` gets back exactly the text the client
      framed, when the frame arrives whole. */
  lemma ServerReadsClientFrame(st: ClientState, message: string)
    requires |message| < MaxFramedLength
    ensures var frame := SocketSend(st, message, false).0.value;
            Receive([frame]) == Received.Delivered(message, [])
  {
    var frame := PyFrame(message);
    assert Concat([frame]) == frame by { assert Concat([frame][1..]) == [] by { assert [frame][1..] == []; } }
    assert |frame| >= HeaderSize;
    ReceiveRoundTrip(message, [frame]);
  }

  datatype HttpRequest = HttpRequest(verb: HttpMethod, url: string, json: Option<Value>)

  /** The method `send_message` picks for an endpoint. */
  function ClientMethod(endpoint: string): (m: HttpMethod)
    ensures m == Post <==> endpoint == "move" || endpoint == "pipet_control"
  {
    if endpoint == "move" || endpoint == "pipet_control" then Post else Get
  }

  /** `send_message(message, endpoint)` of the HTTP clients: nothing when not
      connected; otherwise a POST carrying the message to `move` and
      `pipet_control`, a GET without body to any other endpoint. */
  function HttpSend(st: ClientState, message: Value, endpoint: string): (r: Option<HttpRequest>)
    ensures r.Some? <==> st.connected
    ensures r.Some? ==> r.value.url == st.server + "/" + endpoint
    ensures r.Some? ==> r.value.verb == ClientMethod(endpoint)
    ensures r.Some? ==> (r.value.json.Some? <==> r.value.verb == Post)
    ensures r.Some? && r.value.json.Some? ==> r.value.json.value == message
  {
    if !st.connected then None
    else if ClientMethod(endpoint) == Post then Some(HttpRequest(Post, st.server + "/" + endpoint, Some(message)))
    else Some(HttpRequest(Get, st.server + "/" + endpoint, None))
  }

  /** For every endpoint a server routes, the client uses the one method the
      route accepts. */
  lemma MethodMatchesRoute(endpoint: string)
    requires Route("/" + endpoint).Some?
    ensures ClientMethod(endpoint) == Route("/" + endpoint).value.1
  {
    var path := "/" + endpoint;
    if endpoint == "move" {
      assert path == "/move";
      assert Route(path) == Some((MoveRoute, Post));
    } else if endpoint == "pipet_control" {
      assert path == "/pipet_control";
      assert Route(path) == Some((PipetRoute, Post));
    } else {
      assert path[1..] == endpoint;
      assert "/move"[1..] == "move" && "/pipet_control"[1..] == "pipet_control";
    }
  }

  /** A connected HTTP client with a point inside the robot's bounds moves
      the robot there: the absolute command is POSTed to `/move`, which the
      server with the same system names routes to its move handler. */
  lemma ClientMoveReachesServer(st: ClientState, v: Variant, robot: RobotState, x: real, y: real, z: real, polar: PolarToCartesian)
    requires v == ObjectsServer || v == FlaskServer || v == PackageServer
    requires st.connected && st.names == v.names && st.currentSystem == v.names.absolute
    ensures var r := PointMove(st, Some(ClientPoint(Number(x), Number(y), Number(z))), Null, Null, Null, "");
            r.Ok? && r.value.Send? && Route("/" + r.value.endpoint) == Some((MoveRoute, Post))
            && HttpSend(st, r.value.command, r.value.endpoint).value.verb == Post
            && Resolves(v, robot, r.value.command, polar)
            && Target(v, robot, r.value.command, polar) == PointAt(x, y, z)
  {
    var cmd := MovePayload(st.currentSystem, st.currentSystem, ClientPoint(Number(x), Number(y), Number(z)));
    assert Cartesian(st.currentSystem);
    assert ("/" + "move") == "/move";
    var m := cmd.members["data"].members;
    assert TruthyField(cmd.members, "data") by { assert "x" in m; }
    assert SystemField(v.names, cmd.members) == Some(Absolute);
    AbsoluteNumbers(m, robot.position, polar, x, y, z);
  }

  /** A key system that disagrees with the current one sends keys the server
      does not read: a polar-keyed command under an absolute system is a 500. */
  lemma MismatchedKeysFail(st: ClientState, v: Variant, robot: RobotState, c: ClientPoint, polar: PolarToCartesian)
    requires v == ObjectsServer || v == FlaskServer || v == PackageServer
    requires st.connected && st.names == v.names && st.currentSystem == v.names.absolute
    ensures var r := PointMove(st, Some(c), Null, Null, Null, "polar");
            r.Ok? && r.value.Send?
            && HandleMove(v, robot, r.value.command, polar) == Refuse(robot, 500, "Error processing move command")
  {
    var cmd := MovePayload(st.currentSystem, "polar", c);
    assert !Cartesian("polar");
    assert TruthyField(cmd.members, "data") by { assert "z" in cmd.members["data"].members; }
    assert SystemField(v.names, cmd.members) == Some(Absolute);
    assert "x" !in cmd.members["data"].members;
  }

  // ------------------------------------------- check_server_availability

  /** What one `requests.get(.../ping)` gave: a status code, or a
      `RequestException`. */
  datatype Probe = Status(code: nat) | RequestException

  const LoopbackUrl := "http://127.0.0.1"

  /** The fallback to the loopback address is taken. */
  predicate FallsBack(st: ClientState, primary: Probe, fallback: Probe) {
    primary.RequestException? && st.loopback && fallback == Status(200)
  }

  /** `check_server_availability`: the value returned and the client
      afterwards. */
  function CheckServerAvailability(st: ClientState, primary: Probe, fallback: Probe): (r: (bool, ClientState))
    ensures r.0 == r.1.connected
    ensures r.0 <==> primary == Status(200) || FallsBack(st, primary, fallback)
    ensures FallsBack(st, primary, fallback) ==> r.1.server == LoopbackUrl
    ensures !FallsBack(st, primary, fallback) ==> r.1.server == st.server
    ensures r.1.names == st.names && r.1.currentSystem == st.currentSystem && r.1.loopback == st.loopback
  {
    match primary
    case Status(code) => (code == 200, st.(connected := code == 200))
    case RequestException =>
      if st.loopback then
        match fallback
        case RequestException => (false, st.(connected := false))
        case Status(code) =>
          if code == 200 then (true, st.(connected := true, server := LoopbackUrl))
          else (false, st.(connected := false))
      else (false, st.(connected := false))
  }

  /** The loopback address is only probed after the primary request raised
      with loopback on: otherwise the outcome does not depend on it. */
  lemma FallbackOnlyAfterException(st: ClientState, primary: Probe, fallback: Probe, other: Probe)
    requires primary.Status? || !st.loopback
    ensures CheckServerAvailability(st, primary, fallback) == CheckServerAvailability(st, primary, other)
  {
  }

  /** Once connected, a client sends its commands; a failed check leaves it
      sending nothing at all. */
  lemma DisconnectedSendsNothing(st: ClientState, primary: Probe, fallback: Probe, message: Value, endpoint: string)
    ensures var after := CheckServerAvailability(st, primary, fallback).1;
            HttpSend(after, message, endpoint).Some? <==> primary == Status(200) || FallsBack(st, primary, fallback)
  {
  }

  // ------------------------------------------------------------ Receiving

  /** The messages `receive_messages` queues for a run of passes: the texts
      of the passes before the first that is not a complete message, with
      the `"pong"` replies dropped. */
  function Queued(passes: seq<ClientReceived>): (q: seq<string>)
    ensures |q| <= |passes|
    ensures forall k :: 0 <= k < |q| ==> q[k] != "pong"
  {
    if |passes| == 0 || !passes[0].Message? then []
    else (if passes[0].text == "pong" then [] else [passes[0].text]) + Queued(passes[1..])
  }

  /** The run ends with the connection lost (rather than waiting). */
  predicate EndsLost(passes: seq<ClientReceived>) {
    exists i :: 0 <= i < |passes| && passes[i].ConnectionLost? && forall j :: 0 <= j < i ==> passes[j].Message?
  }

  /** `receive_messages` over a run of passes (each pass one header and its
      body, see `ClientReceive`): every complete message but `"pong"` is
      queued in arrival order; an empty read or a bad header clears
      `connected` and ends the thread; a pass still waiting ends the run. */
  method ReceiveMessages(passes: seq<ClientReceived>, queue: seq<string>) returns (q: seq<string>, connected: bool)
    ensures q == queue + Queued(passes)
    ensures connected <==> !EndsLost(passes)
    ensures forall k :: |queue| <= k < |q| ==> q[k] != "pong"
  {
    q := queue;
    var i := 0;
    while i < |passes| && passes[i].Message?
      invariant 0 <= i <= |passes|
      invariant forall j :: 0 <= j < i ==> passes[j].Message?
      invariant q + Queued(passes[i..]) == queue + Queued(passes)
      invariant forall k :: |queue| <= k < |q| ==> q[k] != "pong"
    {
      assert passes[i..][1..] == passes[i + 1..];
      if passes[i].text != "pong" {
        q := q + [passes[i].text];
      }
      i := i + 1;
    }
    assert Queued(passes[i..]) == [];
    connected := !(i < |passes| && passes[i].ConnectionLost?);
    if !connected {
      assert EndsLost(passes);
    }
  }

  /** `get_messages`: `None` while the queue is empty (the call keeps
      waiting); otherwise every queued message, oldest first, leaving the
      queue empty. */
  method GetMessages(queue: seq<string>) returns (messages: Option<seq<string>>, remaining: seq<string>)
    ensures |queue| == 0 ==> messages.None? && remaining == queue
    ensures |queue| > 0 ==> messages == Some(queue) && remaining == []
  {
    if |queue| == 0 {
      return None, queue;
    }
    messages := Some(queue);
    remaining := [];
  }

  /** Three complete passes queue their texts in order, without the pong. */
  lemma QueuedThree(a: string, b: string, na: nat, np: nat, nb: nat)
    requires a != "pong" && b != "pong"
    ensures Queued([Message(a, na), Message("pong", np), Message(b, nb)]) == [a, b]
  {
    var last := [Message(b, nb)];
    var tail := [Message("pong", np), Message(b, nb)];
    assert last[1..] == [];
    assert Queued(last) == [b] + Queued([]);
    assert tail[1..] == last;
    assert Queued(tail) == [] + Queued(last);
    var passes := [Message(a, na)] + tail;
    assert passes[1..] == tail;
    assert Queued(passes) == [a] + Queued(tail);
  }

  /** Replies a server framed reach the queue in order, without the pongs:
      two replies and a pong sent whole queue as the two replies. */
  lemma RepliesQueueInOrder(a: string, b: string)
    requires a != "pong" && b != "pong"
    requires 0 < |a| < MaxFramedLength && 0 < |b| < MaxFramedLength
    ensures var passes := [ClientReceive(PyHeader(|a|), [a]), ClientReceive(PyHeader(4), ["pong"]),
                           ClientReceive(PyHeader(|b|), [b])];
            Queued(passes) == [a, b]
  {
    ConcatSingle(a);
    ConcatSingle("pong");
    ConcatSingle(b);
    ClientRoundTrip(a, [a]);
    ClientRoundTrip("pong", ["pong"]);
    ClientRoundTrip(b, [b]);
    QueuedThree(a, b, 1, 1, 1);
  }
}

=== FILE: client_slots.dfy ===
/** The ESP8266 TCP servers' client table (`MyWiFiServer::loop` /
    `handleClient` and `RobotControlServer::loop` / `handleClient`): five
    slots, each with the `millis()` of its last keep-alive.  Time is a
    parameter; `millis()` and the timestamps are 32-bit unsigned. */
module ClientSlots {

  import opened Wrappers
  import opened Text
  import opened Framing
  import opened Json
  import opened Dispatch
  import opened EspServers

  const MaxClients := 5

  /** `KeepAliveInterval * 1000`: 30 s, in milliseconds. */
  const KeepAliveMillis := 30 * 1000

  const MillisRange := 0x1_0000_0000

  /** An `unsigned long` millisecond reading. */
  type Millis = n: int | 0 <= n < 0x1_0000_0000

  /** A slot holds nothing, or a connection that is open or has been closed
      by the peer. */
  datatype Slot = Empty | Held(id: nat, open: bool)

  /** `clients[i]` as a boolean: a held connection that is still open. */
  predicate InUse(s: Slot) {
    s.Held? && s.open
  }

  datatype Table = Table(clients: seq<Slot>, lastKeepAlive: seq<Millis>)

  predicate Valid(t: Table) {
    |t.clients| == MaxClients && |t.lastKeepAlive| == MaxClients
  }

  /** The table after `begin()`: no client, all timestamps 0. */
  function InitialTable(): (t: Table)
    ensures Valid(t) && forall j :: 0 <= j < MaxClients ==> !InUse(t.clients[j])
  {
    Table([Empty, Empty, Empty, Empty, Empty], [0, 0, 0, 0, 0])
  }

  // ------------------------------------------------------------ Time

  /** `millis() - lastKeepAlive[i]` in unsigned 32-bit arithmetic. */
  function Elapsed(now: Millis, last: Millis): (e: Millis)
    ensures now >= last ==> e == now - last
    ensures now < last ==> e == now - last + MillisRange
  {
    (now - last) % MillisRange
  }

  /** The eviction test `millis() - lastKeepAlive[i] > KeepAliveInterval * 1000`. */
  predicate Expired(now: Millis, last: Millis) {
    Elapsed(now, last) > KeepAliveMillis
  }

  /** The unsigned subtraction measures the true delay even when `millis()`
      has wrapped around since the keep-alive: a slot expires exactly when
      more than 30 000 ms have passed. */
  lemma ExpiryAcrossWrap(last: Millis, delay: nat)
    requires delay < MillisRange
    ensures Elapsed((last + delay) % MillisRange, last) == delay
    ensures Expired((last + delay) % MillisRange, last) <==> delay > KeepAliveMillis
  {
  }

  // ------------------------------------------------------- Admission

  /** The lowest slot at or after `from` that is not in use. */
  function FirstFree(clients: seq<Slot>, from: nat): (r: Option<nat>)
    requires from <= |clients|
    ensures r.Some? ==> from <= r.value < |clients| && !InUse(clients[r.value])
    ensures r.Some? ==> forall j :: from <= j < r.value ==> InUse(clients[j])
    ensures r.None? <==> forall j :: from <= j < |clients| ==> InUse(clients[j])
    decreases |clients| - from
  {
    if from == |clients| then None
    else if !InUse(clients[from]) then Some(from)
    else FirstFree(clients, from + 1)
  }

  /** `newClient.println(...)`: sent unframed to a refused client. */
  const RefusalNotice := "Max clients reached. Connection refused.\r\n"

  datatype Admission = Admitted(table: Table, slot: nat, greeting: string) | Refused(table: Table, notice: string)

  /** The admission half of `loop()`.  `base` is what the greeting adds to
      the slot index: 0 in `MyWiFiServer` (`String(i)`), 1 in
      `RobotControlServer` (`String(i+1)`). */
  function Admit(t: Table, id: nat, now: Millis, base: nat): (r: Admission)
    requires Valid(t)
    ensures Valid(r.table)
    ensures r.Refused? <==> forall j :: 0 <= j < MaxClients ==> InUse(t.clients[j])
    ensures r.Refused? ==> r.table == t && r.notice == RefusalNotice
    ensures r.Admitted? ==> r.slot < MaxClients && !InUse(t.clients[r.slot])
    ensures r.Admitted? ==> forall j :: 0 <= j < r.slot ==> InUse(t.clients[j])
    ensures r.Admitted? ==> r.table.clients == t.clients[r.slot := Held(id, true)]
    ensures r.Admitted? ==> r.table.lastKeepAlive == t.lastKeepAlive[r.slot := now]
    ensures r.Admitted? ==> r.greeting == EspFrame("Connection established: " + Decimal(r.slot + base))
  {
    match FirstFree(t.clients, 0)
    case None => Refused(t, RefusalNotice)
    case Some(i) =>
      Admitted(Table(t.clients[i := Held(id, true)], t.lastKeepAlive[i := now]), i,
               EspFrame("Connection established: " + Decimal(i + base)))
  }

  /** The number of slots in use. */
  function InUseCount(clients: seq<Slot>): (n: nat)
    ensures n <= |clients|
  {
    if |clients| == 0 then 0 else InUseCount(clients[..|clients| - 1]) + (if InUse(clients[|clients| - 1]) then 1 else 0)
  }

  lemma {:induction false} InUseCountUpdate(clients: seq<Slot>, i: nat, s: Slot)
    requires i < |clients| && !InUse(clients[i]) && InUse(s)
    ensures InUseCount(clients[i := s]) == InUseCount(clients) + 1
    decreases |clients|
  {
    var last := |clients| - 1;
    assert clients[i := s][..last] == if i < last then clients[..last][i := s] else clients[..last];
    if i < last {
      InUseCountUpdate(clients[..last], i, s);
    }
  }

  lemma {:induction false} InUseCountFull(clients: seq<Slot>)
    ensures InUseCount(clients) == |clients| <==> forall j :: 0 <= j < |clients| ==> InUse(clients[j])
    decreases |clients|
  {
    if |clients| > 0 {
      var last := |clients| - 1;
      InUseCountFull(clients[..last]);
      assert forall j :: 0 <= j < last ==> clients[..last][j] == clients[j];
    }
  }

  /** Admission adds exactly one client, and refusal happens only when all
      five slots are in use. */
  lemma AdmitCounts(t: Table, id: nat, now: Millis, base: nat)
    requires Valid(t)
    ensures Admit(t, id, now, base).Refused? <==> InUseCount(t.clients) == MaxClients
    ensures Admit(t, id, now, base).Admitted? ==>
              InUseCount(Admit(t, id, now, base).table.clients) == InUseCount(t.clients) + 1
  {
    InUseCountFull(t.clients);
    var r := Admit(t, id, now, base);
    if r.Admitted? {
      InUseCountUpdate(t.clients, r.slot, Held(id, true));
    }
  }

  /** On an empty table the first five clients take slots 0..4 in order. */
  lemma FirstClientTakesSlotZero(id: nat, now: Millis)
    ensures Admit(InitialTable(), id, now, 0) ==
            Admitted(Table([Held(id, true), Empty, Empty, Empty, Empty], [now, 0, 0, 0, 0]), 0,
                     EspFrame("Connection established: 0"))
    ensures Admit(InitialTable(), id, now, 1).Admitted? &&
            Admit(InitialTable(), id, now, 1).greeting == EspFrame("Connection established: 1")
  {
    var t := InitialTable();
    assert FirstFree(t.clients, 0) == Some(0) by {
      assert !InUse(t.clients[0]);
    }
    assert t.clients[0 := Held(id, true)] == [Held(id, true), Empty, Empty, Empty, Empty];
    assert t.lastKeepAlive[0 := now] == [now, 0, 0, 0, 0];
    assert Decimal(0) == "0";
    assert Decimal(1) == "1";
  }

  // ---------------------------------------------------- Serving a slot

  /** One slot's turn: the table afterwards, the reply sent back and the
      actuation; or undefined behaviour from `handleCommand`. */
  datatype Turn = Turn(table: Table, sent: Option<Message>, actuation: Actuation) | TurnUndefined

  /** `handleClient(i)`: when the slot is in use, answer the pending command
      (`handled` is `handleCommand`'s result, `None` when nothing is
      available), apply a ping's keep-alive refresh, then evict the slot if
      its keep-alive is older than 30 s. */
  function HandleClient(t: Table, i: nat, now: Millis, handled: Option<Handled<Message>>): (r: Turn)
    requires Valid(t) && i < MaxClients
    ensures r.TurnUndefined? <==> InUse(t.clients[i]) && handled == Some(UndefinedBehaviour)
    ensures !InUse(t.clients[i]) ==> r == Turn(t, None, Idle)
    ensures r.Turn? ==> Valid(r.table)
    ensures r.Turn? ==> forall j :: 0 <= j < MaxClients && j != i ==>
              r.table.clients[j] == t.clients[j] && r.table.lastKeepAlive[j] == t.lastKeepAlive[j]
    ensures r.Turn? && InUse(t.clients[i]) ==>
              r.table.lastKeepAlive[i] == (if handled.Some? && handled.value.refreshKeepAlive then now else t.lastKeepAlive[i])
    ensures r.Turn? && InUse(t.clients[i]) ==>
              r.table.clients[i] == (if Expired(now, r.table.lastKeepAlive[i]) then Empty else t.clients[i])
    ensures r.Turn? ==> (r.sent.Some? <==> InUse(t.clients[i]) && handled.Some?)
    ensures r.Turn? && r.sent.Some? ==> r.sent.value == handled.value.reply && r.actuation == handled.value.actuation
    ensures r.Turn? && r.sent.None? ==> r.actuation == Idle
  {
    if !InUse(t.clients[i]) then Turn(t, None, Idle)
    else match handled
      case Some(UndefinedBehaviour) => TurnUndefined
      case Some(Handled(reply, act, refresh)) =>
        var ka := if refresh then t.lastKeepAlive[i := now] else t.lastKeepAlive;
        var clients := if Expired(now, ka[i]) then t.clients[i := Empty] else t.clients;
        Turn(Table(clients, ka), Some(reply), act)
      case None =>
        var clients := if Expired(now, t.lastKeepAlive[i]) then t.clients[i := Empty] else t.clients;
        Turn(Table(clients, t.lastKeepAlive), None, Idle)
  }

  /** A connected slot survives its turn exactly when it has been heard from
      within 30 s: it pinged in this turn, or its last keep-alive is at most
      30 000 ms old, measured across a wrap of `millis()`. */
  lemma SlotKeptIffRecent(t: Table, i: nat, delay: nat, handled: Option<Handled<Message>>)
    requires Valid(t) && i < MaxClients && InUse(t.clients[i]) && delay < MillisRange
    requires handled != Some(UndefinedBehaviour)
    ensures var now := (t.lastKeepAlive[i] + delay) % MillisRange;
            var r := HandleClient(t, i, now, handled);
            var pinged := handled.Some? && handled.value.refreshKeepAlive;
            r.Turn? && (r.table.clients[i] == Empty <==> !pinged && delay > KeepAliveMillis)
            && (r.table.clients[i] != Empty ==> r.table.clients[i] == t.clients[i])
  {
    var now := (t.lastKeepAlive[i] + delay) % MillisRange;
    ExpiryAcrossWrap(t.lastKeepAlive[i], delay);
    assert !Expired(now, now) by {
      assert Elapsed(now, now) == 0;
    }
  }

  /** A turn depends on its own slot only. */
  lemma HandleClientLocal(t: Table, u: Table, i: nat, now: Millis, handled: Option<Handled<Message>>)
    requires Valid(t) && Valid(u) && i < MaxClients
    requires t.clients[i] == u.clients[i] && t.lastKeepAlive[i] == u.lastKeepAlive[i]
    ensures HandleClient(t, i, now, handled).TurnUndefined? == HandleClient(u, i, now, handled).TurnUndefined?
    ensures HandleClient(t, i, now, handled).Turn? ==>
              var a := HandleClient(t, i, now, handled);
              var b := HandleClient(u, i, now, handled);
              a.table.clients[i] == b.table.clients[i] && a.table.lastKeepAlive[i] == b.table.lastKeepAlive[i]
              && a.sent == b.sent && a.actuation == b.actuation
  {
  }

  /** `RobotControlServer::loop` resets a slot whose connection has closed
      before `handleClient` runs. */
  function ResetIfClosed(t: Table, i: nat): (r: Table)
    requires Valid(t) && i < MaxClients
    ensures Valid(r) && r.lastKeepAlive == t.lastKeepAlive
    ensures r.clients[i] == (if InUse(t.clients[i]) then t.clients[i] else Empty)
    ensures forall j :: 0 <= j < MaxClients && j != i ==> r.clients[j] == t.clients[j]
  {
    if InUse(t.clients[i]) then t else t.(clients := t.clients[i := Empty])
  }

  /** `readMessage` then `handleCommand` in `MyWiFiServer`: `parsed` is the
      JSON decoder's view of the text after the header. */
  function MyWiFiServe(received: string, parsed: Option<Value>, polar: PolarToCartesian): Handled<Message> {
    MyWiFiHandleCommand(Request(EspRead(received), parsed), polar)
  }

  /** A framed ping from slot i keeps that slot alive at `now` and changes no
      other slot. */
  lemma PingRefreshesOwnSlot(t: Table, i: nat, now: Millis, message: string,
                             doc: map<string, Value>, polar: PolarToCartesian)
    requires Valid(t) && i < MaxClients && InUse(t.clients[i])
    requires CString(doc, "type") == Some("ping")
    ensures var r := HandleClient(t, i, now, Some(MyWiFiServe(EspFrame(message), Some(Object(doc)), polar)));
            r == Turn(Table(t.clients, t.lastKeepAlive[i := now]), Some(Say("pong")), Idle)
  {
    assert Elapsed(now, now) == 0;
  }

  /** A slot whose last keep-alive is exactly 30 s old survives its turn; one
      a millisecond older is evicted. */
  lemma EvictionBoundary(t: Table, i: nat)
    requires Valid(t) && i < MaxClients && InUse(t.clients[i])
    requires t.lastKeepAlive[i] == 0
    ensures HandleClient(t, i, KeepAliveMillis, None).table == t
    ensures HandleClient(t, i, KeepAliveMillis + 1, None).table == t.(clients := t.clients[i := Empty])
  {
  }

  // ------------------------------------------------------- A loop pass

  /** Slot j's turn in a `loop()` pass, judged from the table at the start of
      the pass: with `resetClosed` (the `RobotControlServer` loop) a closed
      slot is emptied first. */
  function SlotTurn(t: Table, j: nat, now: Millis, handled: Option<Handled<Message>>, resetClosed: bool): Turn
    requires Valid(t) && j < MaxClients
  {
    HandleClient(if resetClosed then ResetIfClosed(t, j) else t, j, now, handled)
  }

  /** The serving half of one `loop()` pass over all five slots, in index
      order; `handled[i]` is slot i's pending command result.  Each slot ends
      as its own turn leaves it, with that turn's reply and actuation, since
      a turn touches no other slot.  Stops at the first undefined command. */
  method ServeAll(t: Table, now: Millis, handled: seq<Option<Handled<Message>>>, resetClosed: bool)
    returns (r: Table, sent: seq<Option<Message>>, actuations: seq<Actuation>, undefined: bool)
    requires Valid(t) && |handled| == MaxClients
    ensures Valid(r)
    ensures undefined <==> exists j :: 0 <= j < MaxClients && InUse(t.clients[j]) && handled[j] == Some(UndefinedBehaviour)
    ensures !undefined ==> |sent| == MaxClients && |actuations| == MaxClients
    ensures !undefined ==> forall j :: 0 <= j < MaxClients ==>
              SlotTurn(t, j, now, handled[j], resetClosed).Turn? &&
              r.clients[j] == SlotTurn(t, j, now, handled[j], resetClosed).table.clients[j] &&
              r.lastKeepAlive[j] == SlotTurn(t, j, now, handled[j], resetClosed).table.lastKeepAlive[j] &&
              sent[j] == SlotTurn(t, j, now, handled[j], resetClosed).sent &&
              actuations[j] == SlotTurn(t, j, now, handled[j], resetClosed).actuation
    ensures !undefined ==> forall j :: 0 <= j < MaxClients && InUse(r.clients[j]) ==> !Expired(now, r.lastKeepAlive[j])
    ensures !undefined ==> forall j :: 0 <= j < MaxClients && InUse(t.clients[j]) && !Expired(now, t.lastKeepAlive[j]) ==>
              r.clients[j] == t.clients[j]
    ensures !undefined ==> forall j :: 0 <= j < MaxClients ==> r.clients[j] == t.clients[j] || r.clients[j] == Empty
    ensures !undefined && resetClosed ==> forall j :: 0 <= j < MaxClients ==> r.clients[j] == Empty || InUse(r.clients[j])
  {
    r, sent, actuations, undefined := t, [], [], false;
    var i := 0;
    while i < MaxClients
      invariant 0 <= i <= MaxClients && Valid(r) && |sent| == i && |actuations| == i
      invariant forall j :: i <= j < MaxClients ==> r.clients[j] == t.clients[j] && r.lastKeepAlive[j] == t.lastKeepAlive[j]
      invariant forall j :: 0 <= j < i ==>
                  SlotTurn(t, j, now, handled[j], resetClosed).Turn? &&
                  r.clients[j] == SlotTurn(t, j, now, handled[j], resetClosed).table.clients[j] &&
                  r.lastKeepAlive[j] == SlotTurn(t, j, now, handled[j], resetClosed).table.lastKeepAlive[j] &&
                  sent[j] == SlotTurn(t, j, now, handled[j], resetClosed).sent &&
                  actuations[j] == SlotTurn(t, j, now, handled[j], resetClosed).actuation
      invariant forall j :: 0 <= j < i ==> !(InUse(t.clients[j]) && handled[j] == Some(UndefinedBehaviour))
    {
      var before := if resetClosed then ResetIfClosed(r, i) else r;
      var start := if resetClosed then ResetIfClosed(t, i) else t;
      HandleClientLocal(before, start, i, now, handled[i]);
      var turn := HandleClient(before, i, now, handled[i]);
      if turn.TurnUndefined? {
        undefined := true;
        return;
      }
      r := turn.table;
      sent := sent + [turn.sent];
      actuations := actuations + [turn.actuation];
      i := i + 1;
    }
    SlotTurnsSettle(t, now, handled, resetClosed, r);
  }

  /** What the per-slot description of a pass implies for the table: no
      in-use slot is stale, a slot heard from within 30 s is kept, and a slot
      is only ever kept or emptied. */
  lemma SlotTurnsSettle(t: Table, now: Millis, handled: seq<Option<Handled<Message>>>, resetClosed: bool, r: Table)
    requires Valid(t) && Valid(r) && |handled| == MaxClients
    requires forall j :: 0 <= j < MaxClients ==>
               SlotTurn(t, j, now, handled[j], resetClosed).Turn? &&
               r.clients[j] == SlotTurn(t, j, now, handled[j], resetClosed).table.clients[j] &&
               r.lastKeepAlive[j] == SlotTurn(t, j, now, handled[j], resetClosed).table.lastKeepAlive[j]
    ensures forall j :: 0 <= j < MaxClients && InUse(r.clients[j]) ==> !Expired(now, r.lastKeepAlive[j])
    ensures forall j :: 0 <= j < MaxClients && InUse(t.clients[j]) && !Expired(now, t.lastKeepAlive[j]) ==>
              r.clients[j] == t.clients[j]
    ensures forall j :: 0 <= j < MaxClients ==> r.clients[j] == t.clients[j] || r.clients[j] == Empty
    ensures resetClosed ==> forall j :: 0 <= j < MaxClients ==> r.clients[j] == Empty || InUse(r.clients[j])
  {
    forall j | 0 <= j < MaxClients
      ensures InUse(r.clients[j]) ==> !Expired(now, r.lastKeepAlive[j])
      ensures InUse(t.clients[j]) && !Expired(now, t.lastKeepAlive[j]) ==> r.clients[j] == t.clients[j]
      ensures r.clients[j] == t.clients[j] || r.clients[j] == Empty
      ensures resetClosed ==> r.clients[j] == Empty || InUse(r.clients[j])
    {
      var start := if resetClosed then ResetIfClosed(t, j) else t;
      assert start.clients[j] == (if resetClosed && !InUse(t.clients[j]) then Empty else t.clients[j]);
      assert start.lastKeepAlive[j] == t.lastKeepAlive[j];
      assert Elapsed(now, now) == 0;
    }
  }
}

=== FILE: dispatch.dfy ===
/** What every server does with a `move` command before the safety gate:
    pick the coordinate system by name, read the target from `data`, and
    resolve it to a cartesian point.  Also the servers' reply messages and
    their safety boxes. */
module Dispatch {

  import opened Wrappers
  import opened Geometry
  import opened Json

  /** Reply texts.  Fixed strings are kept verbatim; the ones that embed
      formatted numbers are kept as tagged values. */
  datatype Message =
    | Say(text: string)
    | MovedTo(target: Point)
    | CurrentPosition(at: Point)
    | PipetLevelSet(level: Value)
    | ProcessingError(context: string, error: PyError)

  /** A `{"status": "Success" | "Error", "message": …}` body of the HTTP
      servers. */
  datatype JsonBody = JsonBody(success: bool, message: Message)

  function ErrorBody(text: string): JsonBody {
    JsonBody(false, Say(text))
  }

  datatype HttpResponse<B> = HttpResponse(status: nat, body: B)

  datatype System = Absolute | Relative | PolarSystem

  /** The three names a server accepts for its coordinate systems. */
  datatype SystemNames = SystemNames(absolute: string, relative: string, polar: string)

  /** `cartesian_abs` / `cartesian_rel` / `polar`: the socket servers, the
      C++ servers, `HTTPObjects.py`, `HTTPServer.py` and their clients. */
  const ShortNames := SystemNames("cartesian_abs", "cartesian_rel", "polar")

  /** `cartesian_absolute` / `cartesian_relative` / `polar`: the
      `PythonServer_Package` server and the `controlapi.py` client. */
  const LongNames := SystemNames("cartesian_absolute", "cartesian_relative", "polar")

  /** The if/elif chain on the system name. */
  function SystemNamed(names: SystemNames, name: string): (r: Option<System>)
    ensures r == Some(Absolute) <==> name == names.absolute
    ensures r == Some(Relative) <==> name == names.relative && name != names.absolute
    ensures r == Some(PolarSystem) <==> name == names.polar && name != names.absolute && name != names.relative
    ensures r.None? <==> name !in {names.absolute, names.relative, names.polar}
  {
    if name == names.absolute then Some(Absolute)
    else if name == names.relative then Some(Relative)
    else if name == names.polar then Some(PolarSystem)
    else None
  }

  /** `obj.get("coordinate_system") == name` for the recognised names. */
  function SystemField(names: SystemNames, cmd: map<string, Value>): (r: Option<System>)
    ensures r.Some? ==> "coordinate_system" in cmd && cmd["coordinate_system"].Str?
    ensures r.Some? ==> SystemNamed(names, cmd["coordinate_system"].s) == r
  {
    if "coordinate_system" in cmd && cmd["coordinate_system"].Str?
    then SystemNamed(names, cmd["coordinate_system"].s) else None
  }

  /** The polar branch `r*cos(radians(theta)), r*sin(radians(theta))`,
      supplied by the caller: trigonometry is outside the model. */
  type PolarToCartesian = (real, real) -> (real, real)

  function Translate(origin: Point, dx: real, dy: real, dz: real): (p: Point)
    ensures p.x - origin.x == dx && p.y - origin.y == dy && p.z - origin.z == dz
  {
    PointAt(origin.x + dx, origin.y + dy, origin.z + dz)
  }

  /** The data keys each system reads. */
  function Keys(sys: System): (string, string, string) {
    if sys == PolarSystem then ("r", "theta", "z") else ("x", "y", "z")
  }

  /** The Python servers' target: three `float(data[k])` reads in order, then
      the system's conversion. */
  function PyTarget(sys: System, data: Value, current: Point, polar: PolarToCartesian): (r: PyResult<Point>)
    ensures r.Raise? <==> PyFloats3(data, Keys(sys).0, Keys(sys).1, Keys(sys).2).Raise?
    ensures r.Raise? ==> r.error == PyFloats3(data, Keys(sys).0, Keys(sys).1, Keys(sys).2).error
    ensures r.Ok? && sys == PolarSystem ==> r.value.z == PyFloats3(data, "r", "theta", "z").value.2
  {
    var k := Keys(sys);
    match PyFloats3(data, k.0, k.1, k.2)
    case Raise(e) => Raise(e)
    case Ok(v) =>
      match sys
      case Absolute => Ok(PointAt(v.0, v.1, v.2))
      case Relative => Ok(Translate(current, v.0, v.1, v.2))
      case PolarSystem =>
        var xy := polar(v.0, v.1);
        Ok(PointAt(xy.0, xy.1, v.2))
  }

  /** A relative move lands at the current position displaced by the
      absolute target the same data describes; the two read the same keys
      and fail the same way.  An absolute target does not depend on where the
      robot is. */
  lemma RelativeIsDisplacedAbsolute(data: Value, current: Point, other: Point, polar: PolarToCartesian)
    ensures PyTarget(Relative, data, current, polar).Raise? == PyTarget(Absolute, data, current, polar).Raise?
    ensures PyTarget(Absolute, data, current, polar).Ok? ==>
              var a := PyTarget(Absolute, data, current, polar).value;
              PyTarget(Relative, data, current, polar) == Ok(Translate(current, a.x, a.y, a.z))
    ensures PyTarget(Absolute, data, current, polar) == PyTarget(Absolute, data, other, polar)
  {
  }

  /** With numeric members the absolute target is exactly the numbers sent. */
  lemma AbsoluteNumbers(m: map<string, Value>, current: Point, polar: PolarToCartesian, x: real, y: real, z: real)
    requires "x" in m && "y" in m && "z" in m
    requires m["x"] == Number(x) && m["y"] == Number(y) && m["z"] == Number(z)
    ensures PyTarget(Absolute, Object(m), current, polar) == Ok(PointAt(x, y, z))
    ensures PyTarget(Relative, Object(m), current, polar) == Ok(Translate(current, x, y, z))
  {
    PyFloats3Numbers(m, "x", "y", "z", x, y, z);
  }

  /** The C++ servers' target: every member reads as a float, a missing or
      non-numeric one as 0, so resolution never fails. */
  function EspTarget(sys: System, doc: map<string, Value>, current: Point, polar: PolarToCartesian): (p: Point)
    ensures sys == Absolute ==> p == PointAt(ArduinoFloatAt(doc, "x"), ArduinoFloatAt(doc, "y"), ArduinoFloatAt(doc, "z"))
    ensures sys == PolarSystem ==> p.z == ArduinoFloatAt(doc, "z")
  {
    var k := Keys(sys);
    var a, b, c := ArduinoFloatAt(doc, k.0), ArduinoFloatAt(doc, k.1), ArduinoFloatAt(doc, k.2);
    match sys
    case Absolute => PointAt(a, b, c)
    case Relative => Translate(current, a, b, c)
    case PolarSystem => var xy := polar(a, b); PointAt(xy.0, xy.1, c)
  }

  /** The C++ relative target is the current position displaced by the
      absolute one; a command with no `data` at all targets the current
      position itself (relative) or the origin (absolute). */
  lemma EspRelativeIsDisplacedAbsolute(doc: map<string, Value>, current: Point, polar: PolarToCartesian)
    ensures var a := EspTarget(Absolute, doc, current, polar);
            EspTarget(Relative, doc, current, polar) == Translate(current, a.x, a.y, a.z)
    ensures "data" !in doc ==> EspTarget(Absolute, doc, current, polar) == PointAt(0.0, 0.0, 0.0)
    ensures "data" !in doc ==> EspTarget(Relative, doc, current, polar) == PointAt(current.x, current.y, current.z)
  {
  }

  predicate NumericMember(m: map<string, Value>, key: string) {
    key in m && m[key].Number?
  }

  /** Where the Python and the C++ readers agree: numeric members. */
  lemma PythonAndArduinoAgreeOnNumbers(m: map<string, Value>, doc: map<string, Value>, sys: System,
                                       current: Point, polar: PolarToCartesian)
    requires "data" in doc && doc["data"] == Object(m)
    requires NumericMember(m, Keys(sys).0) && NumericMember(m, Keys(sys).1) && NumericMember(m, Keys(sys).2)
    ensures PyTarget(sys, Object(m), current, polar) == Ok(EspTarget(sys, doc, current, polar))
  {
  }

  // ------------------------------------------------------------ Safety

  /** An inclusive box `MIN <= v <= MAX` on each axis, as a range whose axes
      are written lower bound first. */
  function Box(minX: real, maxX: real, minY: real, maxY: real, minZ: real, maxZ: real): CoordinateRange {
    CoordinateRange(Interval(minX, maxX), Interval(minY, maxY), Interval(minZ, maxZ), DefaultSystem)
  }

  /** `is_position_safe` of the Python socket servers. */
  const SocketsBox := Box(-300.0, 300.0, -300.0, 300.0, 0.0, 200.0)

  /** `isPositionSafe` of `MyWiFiServer.cpp`. */
  const MyWiFiBox := Box(-100.0, 100.0, -100.0, 100.0, 0.0, 100.0)

  /** `isPositionSafe` of the Arduino HTTP server. */
  const ArduinoHttpBox := Box(0.0, 100.0, 0.0, 100.0, 0.0, 100.0)

  /** The servers' chained comparisons are the ordered `contains`. */
  predicate InBox(box: CoordinateRange, p: Point) {
    ContainsOrdered(box, p)
  }

  /** Each box is written lower bound first, so its chained comparison is
      also the order-insensitive `contains`; the boxes are nested, so a
      point the C++ servers accept is also safe for the Python servers. */
  lemma BoxesAreRanges(p: Point)
    ensures InBox(SocketsBox, p) == Contains(SocketsBox, p)
    ensures InBox(MyWiFiBox, p) == Contains(MyWiFiBox, p)
    ensures InBox(ArduinoHttpBox, p) == Contains(ArduinoHttpBox, p)
    ensures InBox(MyWiFiBox, p) ==> InBox(SocketsBox, p)
    ensures InBox(ArduinoHttpBox, p) ==> InBox(SocketsBox, p)
  {
    OrderedVariantAgrees(SocketsBox, p);
    OrderedVariantAgrees(MyWiFiBox, p);
    OrderedVariantAgrees(ArduinoHttpBox, p);
  }
}

=== FILE: esp_server.dfy ===
/** `handleCommand` of the three ESP8266 servers: the TCP servers of
    `RobotServerDemo` (`MyWiFiServer.cpp`, `RobotControlServer.cpp`) and the
    HTTP server of `ArduinoServer_HTTP`, plus the HTTP handlers wrapping the
    latter.  Members of the parsed document are read with ArduinoJson's
    conversions: a missing `const char*` is NULL and a missing number is 0;
    a document whose root is not an object has no members at all. */
module EspServers {

  import opened Wrappers
  import opened Geometry
  import opened Json
  import opened Dispatch

  /** What a handled command makes the robot do. */
  datatype Actuation = Idle | MotorTo(target: Point) | PipetTo(level: real)

  /** One `handleCommand` call: the reply, the actuation and whether the
      caller's keep-alive slot was refreshed; or undefined behaviour, when
      `strcmp` is handed the NULL pointer of a missing `type`. */
  datatype Handled<M> = Handled(reply: M, actuation: Actuation, refreshKeepAlive: bool) | UndefinedBehaviour

  /** `getCurrent` of the two TCP servers: 10 on every axis. */
  const TcpCurrent := PointAt(10.0, 10.0, 10.0)

  /** `getCurrent` of the HTTP server: (10, 20, 30). */
  const HttpCurrent := PointAt(10.0, 20.0, 30.0)

  predicate MyWiFiSafe(p: Point) {
    InBox(MyWiFiBox, p)
  }

  predicate ArduinoHttpSafe(p: Point) {
    InBox(ArduinoHttpBox, p)
  }

  /** The members `doc[key]` can reach: `deserializeJson` accepts any JSON
      value as the root, and indexing a root that is not an object by a key
      gives null. */
  function Members(root: Value): (m: map<string, Value>)
    ensures root.Object? ==> m == root.members
    ensures !root.Object? ==> m == map[]
  {
    if root.Object? then root.members else map[]
  }

  /** `(const char*) doc["type"]` of a parsed command is NULL. */
  predicate TypeMissing(req: Request) {
    req.parsed.Some? && CString(Members(req.parsed.value), "type").None?
  }

  /** The command's `type` is the string `name`. */
  predicate TypeIs(req: Request, name: string) {
    req.parsed.Some? && CString(Members(req.parsed.value), "type") == Some(name)
  }

  /** The `move` branch all three share, up to the wording of its replies. */
  datatype MoveOutcome = NoSystem | UnknownSystem | OutOfBounds(target: Point) | Moving(target: Point)

  function EspMove(doc: map<string, Value>, current: Point, safe: Point -> bool, polar: PolarToCartesian): (r: MoveOutcome)
    ensures r.NoSystem? <==> CString(doc, "coordinate_system").None?
    ensures r.UnknownSystem? <==> CString(doc, "coordinate_system").Some? && SystemField(ShortNames, doc).None?
    ensures r.Moving? ==> safe(r.target)
    ensures r.OutOfBounds? ==> !safe(r.target)
    ensures (r.Moving? || r.OutOfBounds?) ==> r.target == EspTarget(SystemField(ShortNames, doc).value, doc, current, polar)
  {
    match CString(doc, "coordinate_system")
    case None => NoSystem
    case Some(name) =>
      match SystemNamed(ShortNames, name)
      case None => UnknownSystem
      case Some(sys) =>
        var p := EspTarget(sys, doc, current, polar);
        if !safe(p) then OutOfBounds(p) else Moving(p)
  }

  /** The reply texts of the TCP servers for a move. */
  function TcpMoveReply(m: MoveOutcome): (h: Handled<Message>)
    ensures h.Handled? && !h.refreshKeepAlive
    ensures h.actuation != Idle <==> m.Moving?
    ensures m.Moving? ==> h.reply == MovedTo(m.target) && h.actuation == MotorTo(m.target)
    ensures m.NoSystem? ==> h.reply == Say("Error: No coordinate system specified")
    ensures m.UnknownSystem? ==> h.reply == Say("Error: Invalid coordinate system")
    ensures m.OutOfBounds? ==> h.reply == Say("Error: Position out of safe bounds")
  {
    match m
    case NoSystem => Handled(Say("Error: No coordinate system specified"), Idle, false)
    case UnknownSystem => Handled(Say("Error: Invalid coordinate system"), Idle, false)
    case OutOfBounds(_) => Handled(Say("Error: Position out of safe bounds"), Idle, false)
    case Moving(p) => Handled(MovedTo(p), MotorTo(p), false)
  }

  /** The `request` branch of the TCP servers: a NULL subject is an error, an
      unknown one falls through to the unknown-command reply. */
  function TcpRequestReply(doc: map<string, Value>): (m: Message)
    ensures CString(doc, "subject").None? ==> m == Say("Error: No request subject specified")
    ensures CString(doc, "subject") == Some("current_pos") ==> m == CurrentPosition(TcpCurrent)
    ensures CString(doc, "subject").Some? && CString(doc, "subject") != Some("current_pos") ==> m == Say("Error: Unknown command")
  {
    match CString(doc, "subject")
    case None => Say("Error: No request subject specified")
    case Some(subject) => if subject == "current_pos" then CurrentPosition(TcpCurrent) else Say("Error: Unknown command")
  }

  /** `MyWiFiServer::handleCommand`: move, ping and request. */
  function MyWiFiHandleCommand(req: Request, polar: PolarToCartesian): (h: Handled<Message>)
    ensures req.parsed.None? ==> h == Handled(Say("Error: Invalid command format"), Idle, false)
    ensures h.UndefinedBehaviour? <==> TypeMissing(req)
    ensures h.Handled? ==> (h.refreshKeepAlive <==> TypeIs(req, "ping"))
    ensures h.Handled? && h.actuation != Idle ==> h.actuation.MotorTo? && MyWiFiSafe(h.actuation.target)
    ensures TypeIs(req, "move") ==> h == TcpMoveReply(EspMove(Members(req.parsed.value), TcpCurrent, MyWiFiSafe, polar))
    ensures TypeIs(req, "ping") ==> h == Handled(Say("pong"), Idle, true)
    ensures TypeIs(req, "request") ==> h == Handled(TcpRequestReply(Members(req.parsed.value)), Idle, false)
    ensures req.parsed.Some? && !TypeMissing(req) && !TypeIs(req, "move") && !TypeIs(req, "ping") && !TypeIs(req, "request") ==>
              h == Handled(Say("Error: Unknown command"), Idle, false)
  {
    match req.parsed
    case None => Handled(Say("Error: Invalid command format"), Idle, false)
    case Some(root) =>
      var doc := Members(root);
      match CString(doc, "type")
      case None => UndefinedBehaviour
      case Some(kind) =>
        if kind == "move" then TcpMoveReply(EspMove(doc, TcpCurrent, MyWiFiSafe, polar))
        else if kind == "ping" then Handled(Say("pong"), Idle, true)
        else if kind == "request" then Handled(TcpRequestReply(doc), Idle, false)
        else Handled(Say("Error: Unknown command"), Idle, false)
  }

  /** `String(doc["data"]).indexOf("pipet_level") >= 0`, read as `data`
      being an object with a `pipet_level` member. */
  predicate MentionsPipetLevel(doc: map<string, Value>) {
    "data" in doc && doc["data"].Object? && "pipet_level" in doc["data"].members
  }

  /** `RobotControlServer::handleCommand` of `RobotServerDemo`: as in
      `MyWiFiServer`, plus `pipet_control`; the safety predicate belongs to
      the robot object and is a parameter here. */
  function DemoHandleCommand(req: Request, isSafe: Point -> bool, polar: PolarToCartesian): (h: Handled<Message>)
    ensures req.parsed.None? ==> h == Handled(Say("Error: Invalid command format"), Idle, false)
    ensures h.UndefinedBehaviour? <==> TypeMissing(req)
    ensures h.Handled? ==> (h.refreshKeepAlive <==> TypeIs(req, "ping"))
    ensures h.Handled? && h.actuation.MotorTo? ==> isSafe(h.actuation.target)
    ensures h.Handled? && h.actuation.PipetTo? ==>
              TypeIs(req, "pipet_control") && MentionsPipetLevel(Members(req.parsed.value))
    ensures TypeIs(req, "move") ==> h == TcpMoveReply(EspMove(Members(req.parsed.value), TcpCurrent, isSafe, polar))
    ensures TypeIs(req, "pipet_control") && !MentionsPipetLevel(Members(req.parsed.value)) ==>
              h == Handled(Say("Error, incorrect command structure: \n" + req.raw), Idle, false)
    ensures TypeIs(req, "pipet_control") && MentionsPipetLevel(Members(req.parsed.value)) ==>
              h == Handled(PipetLevelSet(Number(ArduinoFloatAt(Members(req.parsed.value), "pipet_level"))),
                           PipetTo(ArduinoFloatAt(Members(req.parsed.value), "pipet_level")), false)
    ensures TypeIs(req, "ping") ==> h == Handled(Say("pong"), Idle, true)
    ensures TypeIs(req, "request") ==> h == Handled(TcpRequestReply(Members(req.parsed.value)), Idle, false)
    ensures req.parsed.Some? && !TypeMissing(req) && !TypeIs(req, "move") && !TypeIs(req, "pipet_control")
              && !TypeIs(req, "ping") && !TypeIs(req, "request") ==>
              h == Handled(Say("Error: Unknown command"), Idle, false)
  {
    match req.parsed
    case None => Handled(Say("Error: Invalid command format"), Idle, false)
    case Some(root) =>
      var doc := Members(root);
      match CString(doc, "type")
      case None => UndefinedBehaviour
      case Some(kind) =>
        if kind == "move" then TcpMoveReply(EspMove(doc, TcpCurrent, isSafe, polar))
        else if kind == "pipet_control" then
          var level := ArduinoFloatAt(doc, "pipet_level");
          if !MentionsPipetLevel(doc) then Handled(Say("Error, incorrect command structure: \n" + req.raw), Idle, false)
          else Handled(PipetLevelSet(Number(level)), PipetTo(level), false)
        else if kind == "ping" then Handled(Say("pong"), Idle, true)
        else if kind == "request" then Handled(TcpRequestReply(doc), Idle, false)
        else Handled(Say("Error: Unknown command"), Idle, false)
  }

  // ---------------------------------------------------- Arduino HTTP

  /** The JSON bodies of the HTTP server for a move: the same outcomes as
      over TCP, the error texts without their `Error: ` prefix. */
  function HttpMoveReply(m: MoveOutcome): (h: Handled<JsonBody>)
    ensures h.Handled? && !h.refreshKeepAlive
    ensures h.reply.success <==> m.Moving?
    ensures h.actuation != Idle <==> m.Moving?
    ensures m.Moving? ==> h.reply == JsonBody(true, MovedTo(m.target)) && h.actuation == MotorTo(m.target)
    ensures m.NoSystem? ==> h.reply == ErrorBody("No coordinate system specified")
    ensures m.UnknownSystem? ==> h.reply == ErrorBody("Invalid coordinate system")
    ensures m.OutOfBounds? ==> h.reply == ErrorBody("Position out of safe bounds")
  {
    match m
    case NoSystem => Handled(ErrorBody("No coordinate system specified"), Idle, false)
    case UnknownSystem => Handled(ErrorBody("Invalid coordinate system"), Idle, false)
    case OutOfBounds(_) => Handled(ErrorBody("Position out of safe bounds"), Idle, false)
    case Moving(p) => Handled(JsonBody(true, MovedTo(p)), MotorTo(p), false)
  }

  /** `RobotControlServer::handleCommand` of `ArduinoServer_HTTP`: move and
      pipet_control only; there is no `ping` or `request` type here. */
  function HttpHandleCommand(req: Request, polar: PolarToCartesian): (h: Handled<JsonBody>)
    ensures req.parsed.None? ==> h == Handled(ErrorBody("Invalid command format"), Idle, false)
    ensures h.UndefinedBehaviour? <==> TypeMissing(req)
    ensures h.Handled? ==> !h.refreshKeepAlive
    ensures h.Handled? ==> (h.reply.success <==> h.actuation != Idle)
    ensures h.Handled? && h.actuation.MotorTo? ==> ArduinoHttpSafe(h.actuation.target)
    ensures h.Handled? && h.actuation.PipetTo? ==>
              h.actuation.level == ArduinoFloatAt(Members(req.parsed.value), "pipet_level")
    ensures TypeIs(req, "move") ==> h == HttpMoveReply(EspMove(Members(req.parsed.value), HttpCurrent, ArduinoHttpSafe, polar))
    ensures TypeIs(req, "pipet_control") ==>
              h == Handled(JsonBody(true, PipetLevelSet(Number(ArduinoFloatAt(Members(req.parsed.value), "pipet_level")))),
                           PipetTo(ArduinoFloatAt(Members(req.parsed.value), "pipet_level")), false)
    ensures req.parsed.Some? && !TypeMissing(req) && !TypeIs(req, "move") && !TypeIs(req, "pipet_control") ==>
              h == Handled(ErrorBody("Unknown command"), Idle, false)
  {
    match req.parsed
    case None => Handled(ErrorBody("Invalid command format"), Idle, false)
    case Some(root) =>
      var doc := Members(root);
      match CString(doc, "type")
      case None => UndefinedBehaviour
      case Some(kind) =>
        if kind == "move" then HttpMoveReply(EspMove(doc, HttpCurrent, ArduinoHttpSafe, polar))
        else if kind == "pipet_control" then
          var level := ArduinoFloatAt(doc, "pipet_level");
          Handled(JsonBody(true, PipetLevelSet(Number(level))), PipetTo(level), false)
        else Handled(ErrorBody("Unknown command"), Idle, false)
  }

  /** The routes `begin()` registers. */
  datatype Endpoint = MoveEndpoint | PipetEndpoint | PingEndpoint | RequestEndpoint

  /** `handleMoveCommand`, `handlePipetControl`, `handlePing`,
      `handleRequest`: every reply is sent with status 200, the error bodies
      included. */
  function ArduinoServe(e: Endpoint, req: Request, polar: PolarToCartesian): (r: Handled<HttpResponse<JsonBody>>)
    ensures r.Handled? ==> r.reply.status == 200
    ensures (e == MoveEndpoint || e == PipetEndpoint) ==>
              (r.UndefinedBehaviour? <==> HttpHandleCommand(req, polar).UndefinedBehaviour?)
    ensures (e == MoveEndpoint || e == PipetEndpoint) && r.Handled? ==>
              r.reply.body == HttpHandleCommand(req, polar).reply && r.actuation == HttpHandleCommand(req, polar).actuation
    ensures e == PingEndpoint ==> r == Handled(HttpResponse(200, JsonBody(true, Say("pong"))), Idle, false)
    ensures e == RequestEndpoint ==> r == Handled(HttpResponse(200, JsonBody(true, CurrentPosition(HttpCurrent))), Idle, false)
  {
    match e
    case PingEndpoint => Handled(HttpResponse(200, JsonBody(true, Say("pong"))), Idle, false)
    case RequestEndpoint => Handled(HttpResponse(200, JsonBody(true, CurrentPosition(HttpCurrent))), Idle, false)
    case _ =>
      match HttpHandleCommand(req, polar)
      case UndefinedBehaviour => UndefinedBehaviour
      case Handled(body, act, refresh) => Handled(HttpResponse(200, body), act, refresh)
  }

  /** A move over HTTP with an unsafe target is reported in the body only:
      the status is still 200 and the robot does not move. */
  lemma UnsafeMoveStill200(req: Request, polar: PolarToCartesian)
    requires TypeIs(req, "move")
    requires EspMove(Members(req.parsed.value), HttpCurrent, ArduinoHttpSafe, polar).OutOfBounds?
    ensures ArduinoServe(MoveEndpoint, req, polar) ==
            Handled(HttpResponse(200, ErrorBody("Position out of safe bounds")), Idle, false)
  {
  }

  /** `ping` and `request` are not command types of the HTTP server. */
  lemma HttpCommandHasNoPing(req: Request, polar: PolarToCartesian)
    requires TypeIs(req, "ping") || TypeIs(req, "request")
    ensures HttpHandleCommand(req, polar) == Handled(ErrorBody("Unknown command"), Idle, false)
  {
  }

  // ---------------------------------------------------- Move semantics

  /** The TCP and HTTP servers move alike for every outcome, and over TCP
      a move succeeds exactly when its HTTP body reports success. */
  lemma MoveRepliesAgree(m: MoveOutcome)
    ensures TcpMoveReply(m).actuation == HttpMoveReply(m).actuation
    ensures TcpMoveReply(m).reply.MovedTo? <==> HttpMoveReply(m).reply.success
    ensures m.Moving? ==> TcpMoveReply(m).reply == HttpMoveReply(m).reply.message
  {
  }

  /** A move in a known system drives the motors to its target exactly when
      the server's safety predicate admits the target, on all three servers. */
  lemma MoveActuatesIffSafe(req: Request, sys: System, isSafe: Point -> bool, polar: PolarToCartesian)
    requires TypeIs(req, "move") && SystemField(ShortNames, Members(req.parsed.value)) == Some(sys)
    ensures var t := EspTarget(sys, Members(req.parsed.value), TcpCurrent, polar);
            (MyWiFiHandleCommand(req, polar).actuation == MotorTo(t) <==> MyWiFiSafe(t))
            && (MyWiFiHandleCommand(req, polar).actuation == Idle <==> !MyWiFiSafe(t))
    ensures var t := EspTarget(sys, Members(req.parsed.value), TcpCurrent, polar);
            (DemoHandleCommand(req, isSafe, polar).actuation == MotorTo(t) <==> isSafe(t))
            && (DemoHandleCommand(req, isSafe, polar).actuation == Idle <==> !isSafe(t))
    ensures var t := EspTarget(sys, Members(req.parsed.value), HttpCurrent, polar);
            (HttpHandleCommand(req, polar).actuation == MotorTo(t) <==> ArduinoHttpSafe(t))
            && (HttpHandleCommand(req, polar).actuation == Idle <==> !ArduinoHttpSafe(t))
  {
  }

  /** The C++ relative move: (10, 10, 10) plus the deltas on the TCP servers,
      (10, 20, 30) plus the deltas over HTTP; a missing delta counts as 0. */
  lemma RelativeMoveTargets(doc: map<string, Value>, polar: PolarToCartesian, isSafe: Point -> bool)
    requires CString(doc, "coordinate_system") == Some("cartesian_rel")
    ensures var d := EspTarget(Absolute, doc, TcpCurrent, polar);
            var t := PointAt(10.0 + d.x, 10.0 + d.y, 10.0 + d.z);
            EspMove(doc, TcpCurrent, isSafe, polar) == (if isSafe(t) then Moving(t) else OutOfBounds(t))
    ensures var d := EspTarget(Absolute, doc, HttpCurrent, polar);
            var t := PointAt(10.0 + d.x, 20.0 + d.y, 30.0 + d.z);
            EspMove(doc, HttpCurrent, ArduinoHttpSafe, polar) == (if ArduinoHttpSafe(t) then Moving(t) else OutOfBounds(t))
  {
    assert SystemNamed(ShortNames, "cartesian_rel") == Some(Relative);
    EspRelativeIsDisplacedAbsolute(doc, TcpCurrent, polar);
    EspRelativeIsDisplacedAbsolute(doc, HttpCurrent, polar);
  }

  /** The two TCP servers differ only in `pipet_control`: on every other
      command they answer alike when the demo robot's safety predicate is
      the `MyWiFiServer` box. */
  lemma TcpServersAgreeOffPipet(req: Request, polar: PolarToCartesian)
    requires !TypeIs(req, "pipet_control")
    ensures DemoHandleCommand(req, MyWiFiSafe, polar) == MyWiFiHandleCommand(req, polar)
  {
  }

  /** `pipet_control` without a `pipet_level` member is refused with the
      command quoted; with one, the level read (0 unless it is a number) is
      the level applied. */
  lemma DemoPipetControl(req: Request, isSafe: Point -> bool, polar: PolarToCartesian)
    requires TypeIs(req, "pipet_control")
    ensures !MentionsPipetLevel(Members(req.parsed.value)) ==>
              DemoHandleCommand(req, isSafe, polar) ==
              Handled(Say("Error, incorrect command structure: \n" + req.raw), Idle, false)
    ensures MentionsPipetLevel(Members(req.parsed.value)) ==>
              var level := ArduinoFloat(Some(Members(req.parsed.value)["data"].members["pipet_level"]));
              DemoHandleCommand(req, isSafe, polar) == Handled(PipetLevelSet(Number(level)), PipetTo(level), false)
  {
  }

  // ----------------------------------- Finding: strcmp on a NULL type

  /** A parsed command without a string `type` reaches `strcmp(NULL,
      "move")` in all three servers: the object `{}`, and equally valid JSON
      that is not an object at all, such as `[1]` or `42`. */
  lemma MissingTypeIsUndefined(polar: PolarToCartesian, isSafe: Point -> bool)
    ensures MyWiFiHandleCommand(Request("{}", Some(Object(map[]))), polar).UndefinedBehaviour?
    ensures DemoHandleCommand(Request("{}", Some(Object(map[]))), isSafe, polar).UndefinedBehaviour?
    ensures HttpHandleCommand(Request("{}", Some(Object(map[]))), polar).UndefinedBehaviour?
    ensures MyWiFiHandleCommand(Request("[1]", Some(List([Number(1.0)]))), polar).UndefinedBehaviour?
    ensures HttpHandleCommand(Request("42", Some(Number(42.0))), polar).UndefinedBehaviour?
  {
    assert CString(map[], "type").None?;
  }

  /** Every parsed root that is not an object is undefined behaviour in all
      three servers, whatever its contents. */
  lemma NonObjectRootIsUndefined(req: Request, polar: PolarToCartesian, isSafe: Point -> bool)
    requires req.parsed.Some? && !req.parsed.value.Object?
    ensures MyWiFiHandleCommand(req, polar).UndefinedBehaviour?
    ensures DemoHandleCommand(req, isSafe, polar).UndefinedBehaviour?
    ensures HttpHandleCommand(req, polar).UndefinedBehaviour?
  {
    assert Members(req.parsed.value) == map[];
  }

  /** The evidently intended handling: a command whose `type` is missing or
      not a string, or whose root is not an object, is an unknown command. */
  function TypeChecked<M>(req: Request, asWritten: Handled<M>, unknown: M): (h: Handled<M>)
    ensures TypeMissing(req) ==> h == Handled(unknown, Idle, false)
    ensures !TypeMissing(req) ==> h == asWritten
  {
    if TypeMissing(req) then Handled(unknown, Idle, false) else asWritten
  }

  /** With the check, no command is undefined, and every command that has a
      string type is handled exactly as before. */
  lemma TypeCheckedIsDefined(req: Request, polar: PolarToCartesian, isSafe: Point -> bool)
    ensures TypeChecked(req, MyWiFiHandleCommand(req, polar), Say("Error: Unknown command")).Handled?
    ensures TypeChecked(req, DemoHandleCommand(req, isSafe, polar), Say("Error: Unknown command")).Handled?
    ensures TypeChecked(req, HttpHandleCommand(req, polar), ErrorBody("Unknown command")).Handled?
    ensures !TypeMissing(req) ==>
              TypeChecked(req, MyWiFiHandleCommand(req, polar), Say("Error: Unknown command")) == MyWiFiHandleCommand(req, polar)
    ensures !TypeMissing(req) ==>
              TypeChecked(req, HttpHandleCommand(req, polar), ErrorBody("Unknown command")) == HttpHandleCommand(req, polar)
    ensures req.parsed.Some? && !req.parsed.value.Object? ==>
              TypeChecked(req, HttpHandleCommand(req, polar), ErrorBody("Unknown command")) ==
              Handled(ErrorBody("Unknown command"), Idle, false)
  {
  }
}

=== FILE: framing.dfy ===
/** Length-prefixed framing used on every TCP link of the system: the
    payload's decimal length, left-justified in a 10-character field of
    spaces, followed by the payload itself.  Python writes the header with
    `f"{len(data):<10}"`; the ESP8266 builds it from a 19-space string and
    `String::substring`.  Receivers differ: the Python servers compare the
    accumulated length with the declared one, the Python client reads until
    it has enough, and the ESP8266 simply drops the first 10 characters. */
module Framing {

  import opened Wrappers
  import opened Text

  const HeaderSize: nat := 10

  /** Payloads shorter than this have a length of at most 10 digits, so
      their header is exactly `HeaderSize` characters. */
  const MaxFramedLength: nat := 10_000_000_000

  lemma {:induction false} LengthFitsHeader(n: nat)
    ensures |Decimal(n)| <= HeaderSize <==> n < MaxFramedLength
  {
    assert Pow10(HeaderSize) == MaxFramedLength;
    DecimalWidth(n, HeaderSize);
  }

  // ---------------------------------------------------------------- Python

  /** `f"{n:<10}"`. */
  function PyHeader(n: nat): (h: string)
    ensures |h| >= HeaderSize
    ensures n < MaxFramedLength <==> |h| == HeaderSize
  {
    LengthFitsHeader(n);
    LeftJustify(Decimal(n), HeaderSize)
  }

  /** The trimmed header parses back to the length it encodes. */
  lemma {:induction false} HeaderParses(n: nat)
    ensures ParseInt(PyHeader(n)) == Some(n)
    ensures ParseInt(Strip(PyHeader(n))) == Some(n)
  {
    ParsePaddedDecimal(n, HeaderSize);
  }

  /** What `send` / `send_message` put on the wire for `data`. */
  function PyFrame(data: string): (f: string)
    ensures |data| < MaxFramedLength ==> |f| == HeaderSize + |data|
    ensures |data| < MaxFramedLength ==> f[..HeaderSize] == PyHeader(|data|)
    ensures |data| < MaxFramedLength ==> f[HeaderSize..] == data
  {
    PyHeader(|data|) + data
  }

  /** The first 10 characters of a frame parse back to the payload length. */
  lemma {:induction false} FrameHeaderParses(data: string)
    requires |data| < MaxFramedLength
    ensures ParseInt(PyFrame(data)[..HeaderSize]) == Some(|data|)
  {
    HeaderParses(|data|);
  }

  // -------------------------------------------------------------- ESP8266

  /** Arduino `String::substring(left, right)`: the bounds are swapped when
      reversed, an empty string results when the start is at or past the
      end, and the end is clamped to the length. */
  function ArduinoSubstring(s: string, left: nat, right: nat): (r: string)
    ensures |r| <= |s|
  {
    var lo := if left > right then right else left;
    var hi := if left > right then left else right;
    if lo >= |s| then [] else s[lo .. if hi > |s| then |s| else hi]
  }

  /** The header `sendResponse` builds: the length followed by
      `String("                   ").substring(len(str(n)), 10)`. */
  function EspHeader(n: nat): string {
    Decimal(n) + ArduinoSubstring(Spaces(19), |Decimal(n)|, HeaderSize)
  }

  /** `sendResponse(client, message)` writes this. */
  function EspFrame(message: string): string {
    EspHeader(|message|) + message
  }

  /** `readMessage`: everything after the first 10 characters read. */
  function EspRead(received: string): (r: string)
    ensures |received| >= HeaderSize ==> r == received[HeaderSize..]
    ensures |received| <= HeaderSize ==> r == []
  {
    ArduinoSubstring(received, HeaderSize, |received|)
  }

  /** Both implementations produce the same header for every length the
      10-character field can hold. */
  lemma EspHeaderMatchesPython(n: nat)
    requires n < MaxFramedLength
    ensures EspHeader(n) == PyHeader(n)
  {
    var d := Decimal(n);
    LengthFitsHeader(n);
    assert ArduinoSubstring(Spaces(19), |d|, HeaderSize) == Spaces(HeaderSize - |d|);
    if |d| == HeaderSize {
      assert d + Spaces(0) == d;
    }
  }

  /** `readMessage(sendResponse(m)) == m`. */
  lemma EspRoundTrip(m: string)
    requires |m| < MaxFramedLength
    ensures EspRead(EspFrame(m)) == m
  {
    EspHeaderMatchesPython(|m|);
    assert EspFrame(m) == PyFrame(m);
  }

  // ------------------------------------------------- Python server receive

  /** Outcome of one receive on a server socket. */
  datatype Received =
    | Delivered(payload: string, leftover: string)  // a message; `leftover` is what was read past it
    | PeerClosed                                    // a `recv` returned nothing
    | BadHeader                                     // `int()` of the header raised `ValueError`
    | Waiting                                       // the next `recv` would block

  /** Concatenation of the successive `recv` results. */
  function Concat(chunks: seq<string>): string {
    if |chunks| == 0 then [] else chunks[0] + Concat(chunks[1..])
  }

  lemma {:induction false} ConcatLength(chunks: seq<string>)
    ensures |chunks| > 0 ==> |Concat(chunks)| >= |chunks[0]|
  {
  }

  /** A single read is the whole stream. */
  lemma ConcatSingle(m: string)
    ensures Concat([m]) == m
  {
    assert Concat([m]) == m + Concat([]);
  }

  predicate NonEmptyChunks(chunks: seq<string>) {
    forall i :: 0 <= i < |chunks| ==> chunks[i] != []
  }

  /** `receive_message` (and `get_data`): `chunks` are the results of the
      successive `recv(1024)` calls.  The header is parsed from the first
      10 characters of the FIRST chunk; the message is returned only when
      the accumulated length minus 10 equals the declared length. */
  function Receive(chunks: seq<string>): (r: Received)
    ensures r.Delivered? ==> r.leftover == []
    ensures |chunks| > 0 && chunks[0] == [] ==> r == PeerClosed
    ensures |chunks| > 0 && chunks[0] != [] && ParseInt(PyPrefix(chunks[0], HeaderSize)).None? ==> r == BadHeader
  {
    if |chunks| == 0 then Waiting
    else if chunks[0] == [] then PeerClosed
    else match ParseInt(PyPrefix(chunks[0], HeaderSize))
      case None => BadHeader
      case Some(len) => Accumulate(chunks, [], len)
  }

  /** The accumulation loop once the declared length is known. */
  function Accumulate(chunks: seq<string>, full: string, len: int): (r: Received)
    ensures r.Delivered? ==> r.leftover == []
    decreases |chunks|
  {
    if |chunks| == 0 then Waiting
    else if chunks[0] == [] then PeerClosed
    else
      var full' := full + chunks[0];
      if |full'| - HeaderSize == len then Delivered(PySuffix(full', HeaderSize), [])
      else Accumulate(chunks[1..], full', len)
  }

  lemma {:induction false} AccumulateDelivers(chunks: seq<string>, full: string, len: int)
    requires |chunks| > 0 && NonEmptyChunks(chunks)
    requires |full| + |Concat(chunks)| == len + HeaderSize
    ensures Accumulate(chunks, full, len) == Delivered(PySuffix(full + Concat(chunks), HeaderSize), [])
    decreases |chunks|
  {
    var full' := full + chunks[0];
    assert full + Concat(chunks) == full' + Concat(chunks[1..]);
    if |chunks| > 1 {
      ConcatLength(chunks[1..]);
      AccumulateDelivers(chunks[1..], full', len);
    }
  }

  /** Receiving a frame cut into any number of non-empty pieces, the first
      of which holds the whole header, yields the original payload. */
  lemma ReceiveStarts(chunks: seq<string>, len: int)
    requires |chunks| > 0 && chunks[0] != []
    requires ParseInt(PyPrefix(chunks[0], HeaderSize)) == Some(len)
    ensures Receive(chunks) == Accumulate(chunks, [], len)
  {
  }

  lemma {:induction false} ReceiveRoundTrip(m: string, chunks: seq<string>)
    requires |m| < MaxFramedLength
    requires |chunks| > 0 && NonEmptyChunks(chunks) && |chunks[0]| >= HeaderSize
    requires Concat(chunks) == PyFrame(m)
    ensures Receive(chunks) == Delivered(m, [])
  {
    FirstChunkHeader(m, chunks);
    ReceiveStarts(chunks, |m|);
    assert [] + Concat(chunks) == PyFrame(m);
    AccumulateDelivers(chunks, [], |m|);
  }

  lemma {:induction false} FirstChunkHeader(m: string, chunks: seq<string>)
    requires |m| < MaxFramedLength
    requires |chunks| > 0 && |chunks[0]| >= HeaderSize
    requires Concat(chunks) == PyFrame(m)
    ensures chunks[0] != []
    ensures ParseInt(PyPrefix(chunks[0], HeaderSize)) == Some(|m|)
  {
    var f := PyFrame(m);
    var c := chunks[0];
    assert f == c + Concat(chunks[1..]);
    assert c[..HeaderSize] == f[..HeaderSize];
    PrefixOfFrame(m, c);
  }

  lemma {:induction false} PrefixOfFrame(m: string, c: string)
    requires |m| < MaxFramedLength
    requires |c| >= HeaderSize && c[..HeaderSize] == PyFrame(m)[..HeaderSize]
    ensures ParseInt(PyPrefix(c, HeaderSize)) == Some(|m|)
  {
    var f := PyFrame(m);
    var h := f[..HeaderSize];
    FrameHeaderParses(m);
    var p := PyPrefix(c, HeaderSize);
    assert p == h;
  }

  /** A single `recv` carrying the whole frame. */
  lemma ReceiveWholeFrame(m: string)
    requires |m| < MaxFramedLength
    ensures Receive([PyFrame(m)]) == Delivered(m, [])
  {
    assert Concat([PyFrame(m)]) == PyFrame(m) + Concat([]);
    ReceiveRoundTrip(m, [PyFrame(m)]);
  }

  /** A Python server reads what the ESP8266 sends. */
  lemma ReceiveEspFrame(m: string)
    requires |m| < MaxFramedLength
    ensures Receive([EspFrame(m)]) == Delivered(m, [])
  {
    EspHeaderMatchesPython(|m|);
    assert EspFrame(m) == PyFrame(m);
    ReceiveWholeFrame(m);
  }

  // ------------------------------- receive when one recv holds two frames

  lemma {:induction false} AccumulateOvershot(chunks: seq<string>, full: string, len: int)
    requires |full| - HeaderSize > len
    ensures !Accumulate(chunks, full, len).Delivered?
    decreases |chunks|
  {
    if |chunks| > 0 && chunks[0] != [] {
      AccumulateOvershot(chunks[1..], full + chunks[0], len);
    }
  }

  /** As written, `receive_message` never returns the first of two frames
      that arrive in the same `recv`: the accumulated length already exceeds
      the declared one, and it only grows. */
  lemma {:induction false} CoalescedFramesStall(a: string, b: string, rest: seq<string>)
    requires |a| < MaxFramedLength && |b| < MaxFramedLength
    ensures !Receive([PyFrame(a) + PyFrame(b)] + rest).Delivered?
  {
    var c := PyFrame(a) + PyFrame(b);
    var chunks := [c] + rest;
    assert chunks[0] == c && chunks[1..] == rest;
    assert c[..HeaderSize] == PyFrame(a)[..HeaderSize];
    PrefixOfFrame(a, c);
    ReceiveStarts(chunks, |a|);
    AccumulateOvershot(rest, [] + c, |a|);
  }

  /** The receive loop as evidently intended: stop as soon as at least the
      declared number of characters has arrived, return exactly that many,
      and hand back what was read beyond them. */
  function ReceiveBuffered(chunks: seq<string>): (r: Received)
    ensures |chunks| > 0 && chunks[0] == [] ==> r == PeerClosed
  {
    if |chunks| == 0 then Waiting
    else if chunks[0] == [] then PeerClosed
    else match ParseInt(PyPrefix(chunks[0], HeaderSize))
      case None => BadHeader
      case Some(len) => if len < 0 then BadHeader else AccumulateAtLeast(chunks, [], len)
  }

  function AccumulateAtLeast(chunks: seq<string>, full: string, len: nat): Received
    decreases |chunks|
  {
    if |chunks| == 0 then Waiting
    else if chunks[0] == [] then PeerClosed
    else
      var full' := full + chunks[0];
      if |full'| >= HeaderSize + len then
        Delivered(full'[HeaderSize..HeaderSize + len], full'[HeaderSize + len..])
      else AccumulateAtLeast(chunks[1..], full', len)
  }

  lemma {:induction false} AccumulateAtLeastDelivers(chunks: seq<string>, full: string, len: nat)
    requires NonEmptyChunks(chunks)
    requires |full| < HeaderSize + len <= |full + Concat(chunks)|
    ensures var r := AccumulateAtLeast(chunks, full, len);
            var stream := full + Concat(chunks);
            && r.Delivered?
            && r.payload == stream[HeaderSize..HeaderSize + len]
            && stream[..HeaderSize + len] + r.leftover <= stream
    decreases |chunks|
  {
    var stream := full + Concat(chunks);
    assert |chunks| > 0;
    var full' := full + chunks[0];
    assert stream == full' + Concat(chunks[1..]);
    if |full'| >= HeaderSize + len {
      var r := AccumulateAtLeast(chunks, full, len);
      assert r.leftover == full'[HeaderSize + len..];
      assert stream[..HeaderSize + len] + r.leftover == full';
    } else {
      AccumulateAtLeastDelivers(chunks[1..], full', len);
    }
  }

  /** Whatever follows the frame in the stream, and however it is cut into
      `recv` results (the first holding the header), the corrected loop
      returns the payload, and the characters it read past the frame are
      the start of what followed it. */
  lemma {:induction false} ReceiveBufferedFrame(m: string, chunks: seq<string>)
    requires |m| < MaxFramedLength
    requires |chunks| > 0 && NonEmptyChunks(chunks) && |chunks[0]| >= HeaderSize
    requires PyFrame(m) <= Concat(chunks)
    ensures var r := ReceiveBuffered(chunks);
            r.Delivered? && r.payload == m && PyFrame(m) + r.leftover <= Concat(chunks)
  {
    BufferedHeader(m, chunks);
    BufferedBody(m, chunks);
  }

  lemma BufferedHeader(m: string, chunks: seq<string>)
    requires |m| < MaxFramedLength
    requires |chunks| > 0 && |chunks[0]| >= HeaderSize
    requires PyFrame(m) <= Concat(chunks)
    ensures ReceiveBuffered(chunks) == AccumulateAtLeast(chunks, [], |m|)
  {
    assert Concat(chunks) == chunks[0] + Concat(chunks[1..]);
    assert chunks[0][..HeaderSize] == PyFrame(m)[..HeaderSize];
    PrefixOfFrame(m, chunks[0]);
    ReceiveStartsBuffered(chunks, |m|);
  }

  lemma BufferedBody(m: string, chunks: seq<string>)
    requires |m| < MaxFramedLength
    requires NonEmptyChunks(chunks)
    requires PyFrame(m) <= Concat(chunks)
    ensures var r := AccumulateAtLeast(chunks, [], |m|);
            r.Delivered? && r.payload == m && PyFrame(m) + r.leftover <= Concat(chunks)
  {
    var f := PyFrame(m);
    var stream := Concat(chunks);
    assert [] + stream == stream;
    AccumulateAtLeastDelivers(chunks, [], |m|);
    assert stream[..HeaderSize + |m|] == f;
  }

  /** The two frames that stall the loop as written are separated by the
      corrected one. */
  lemma {:induction false} CoalescedFramesSplit(a: string, b: string)
    requires |a| < MaxFramedLength && |b| < MaxFramedLength
    ensures ReceiveBuffered([PyFrame(a) + PyFrame(b)]) == Delivered(a, PyFrame(b))
  {
    var fa := PyFrame(a);
    var c := fa + PyFrame(b);
    assert Concat([c]) == c + Concat([]);
    assert fa <= c;
    ReceiveBufferedFrame(a, [c]);
    var r := ReceiveBuffered([c]);
    assert fa + r.leftover <= c;
    assert |r.leftover| == |PyFrame(b)| by {
      PrefixOfFrame(a, c);
      ReceiveStartsBuffered([c], |a|);
      assert r == AccumulateAtLeast([c], [], |a|);
      assert [] + c == c;
    }
    assert r.leftover == c[|fa|..];
  }

  lemma ReceiveStartsBuffered(chunks: seq<string>, len: nat)
    requires |chunks| > 0 && chunks[0] != []
    requires ParseInt(PyPrefix(chunks[0], HeaderSize)) == Some(len)
    ensures ReceiveBuffered(chunks) == AccumulateAtLeast(chunks, [], len)
  {
  }

  // -------------------------------------------------- Python client receive

  /** Outcome of one pass of the client's `receive_messages` loop. */
  datatype ClientReceived =
    | Message(text: string, chunksUsed: nat)  // a complete message and the number of `recv(1024)` calls it took
    | ConnectionLost                          // empty read or unparsable header: `connected` becomes False
    | Pending                                 // the next `recv` would block

  /** `header` is what `recv(10)` returned; `chunks` the following
      `recv(1024)` results.  Chunks are appended while fewer characters than
      declared have arrived. */
  function ClientReceive(header: string, chunks: seq<string>): ClientReceived {
    if header == [] then ConnectionLost
    else match ParseInt(Strip(header))  // `int(header.strip())` on a `str`
      case None => ConnectionLost
      case Some(len) => ReadBody(chunks, [], len, 0)
  }

  function ReadBody(chunks: seq<string>, full: string, len: int, used: nat): ClientReceived
    decreases |chunks|
  {
    if |full| >= len then Message(full, used)
    else if |chunks| == 0 then Pending
    else if chunks[0] == [] then ConnectionLost
    else ReadBody(chunks[1..], full + chunks[0], len, used + 1)
  }

  lemma {:induction false} ReadBodyCompletes(chunks: seq<string>, full: string, len: int, used: nat)
    requires NonEmptyChunks(chunks)
    requires |full + Concat(chunks)| == len
    requires |chunks| > 0 ==> |full| < len
    ensures ReadBody(chunks, full, len, used) == Message(full + Concat(chunks), used + |chunks|)
    decreases |chunks|
  {
    if |chunks| == 0 {
      assert full + Concat(chunks) == full;
    } else {
      var full' := full + chunks[0];
      assert full + Concat(chunks) == full' + Concat(chunks[1..]);
      if |chunks| > 1 {
        assert |Concat(chunks[1..])| >= |chunks[1]| > 0;
      } else {
        assert Concat(chunks[1..]) == [];
      }
      ReadBodyCompletes(chunks[1..], full', len, used + 1);
    }
  }

  /** A header that parses is not the empty read of a closed connection,
      so the client goes on to read the body. */
  lemma HeaderRead(header: string, len: int, chunks: seq<string>)
    requires ParseInt(Strip(header)) == Some(len)
    ensures ClientReceive(header, chunks) == ReadBody(chunks, [], len, 0)
  {
    var t := Strip(header);
    assert |StripAscii(t)| >= 1;
    assert |t| >= 1;
    assert header != [];
  }

  /** Once a header declaring `|m|` parses, the client reads `m` back from
      any cut of it into non-empty chunks. */
  lemma {:induction false} ClientReadsBody(header: string, chunks: seq<string>, m: string)
    requires ParseInt(Strip(header)) == Some(|m|)
    requires NonEmptyChunks(chunks) && Concat(chunks) == m
    ensures ClientReceive(header, chunks) == Message(m, |chunks|)
  {
    HeaderRead(header, |m|, chunks);
    assert [] + Concat(chunks) == m;
    if |chunks| > 0 {
      assert |Concat(chunks)| >= |chunks[0]| > 0;
    }
    ReadBodyCompletes(chunks, [], |m|, 0);
  }

  /** The client reads back exactly what a server framed, however the
      payload is cut into non-empty `recv` results. */
  lemma {:induction false} ClientRoundTrip(m: string, chunks: seq<string>)
    requires |m| < MaxFramedLength
    requires NonEmptyChunks(chunks) && Concat(chunks) == m
    ensures ClientReceive(PyHeader(|m|), chunks) == Message(m, |chunks|)
  {
    HeaderParses(|m|);
    ClientReadsBody(PyHeader(|m|), chunks, m);
  }

  /** The same holds for frames written by the ESP8266 servers. */
  lemma {:induction false} ClientReadsEspFrame(m: string)
    requires |m| < MaxFramedLength
    ensures ClientReceive(EspFrame(m)[..HeaderSize], [m]) == Message(m, 1) || m == []
    ensures m == [] ==> ClientReceive(EspFrame(m)[..HeaderSize], []) == Message(m, 0)
  {
    EspHeaderMatchesPython(|m|);
    assert EspFrame(m)[..HeaderSize] == PyHeader(|m|);
    if m == [] {
      ClientRoundTrip(m, []);
    } else {
      assert Concat([m]) == m + Concat([]);
      ClientRoundTrip(m, [m]);
    }
  }
}

=== FILE: geometry.dfy ===
/** Points, per-axis coordinate ranges and their iteration protocols
    (`point.py`, `coordinate_range.py` and their copies in `HTTPObjects.py`
    and `HTTPServer.py`).  Coordinates are exact reals. */
module Geometry {

  const DefaultSystem: string := "cartesian_absolute"

  datatype Point = Point(x: real, y: real, z: real, coordinateSystem: string)

  /** `Point(x, y, z)` with the default `coordinate_system`. */
  function PointAt(x: real, y: real, z: real): (p: Point)
    ensures p.x == x && p.y == y && p.z == z
    ensures p.coordinateSystem == "cartesian_absolute"
  {
    Point(x, y, z, DefaultSystem)
  }

  /** The `coordinates` tuple the constructor stores. */
  function Coordinates(p: Point): (c: seq<real>)
    ensures |c| == 3 && c[0] == p.x && c[1] == p.y && c[2] == p.z
  {
    [p.x, p.y, p.z]
  }

  // ------------------------------------------------------ Point iteration

  /** The iteration cursor `current_index`; every method of the class keeps
      it between 0 and 3. */
  type CoordIndex = i: nat | i <= 3

  datatype PointIterator = PointIterator(point: Point, index: CoordIndex)

  datatype Step<T, S> = Yield(value: T, next: S) | StopIteration

  /** `__iter__`: resets the cursor. */
  function PointIter(p: Point): (it: PointIterator)
    ensures it.point == p && it.index == 0
  {
    PointIterator(p, 0)
  }

  /** `__next__`: stop at index 3, otherwise advance and return the
      coordinate just passed. */
  function PointNext(it: PointIterator): Step<real, PointIterator> {
    if it.index == 3 then StopIteration
    else Yield(Coordinates(it.point)[it.index], PointIterator(it.point, it.index + 1))
  }

  /** All values `__next__` yields until `StopIteration`. */
  function PointDrain(it: PointIterator): seq<real>
    decreases 3 - it.index
  {
    match PointNext(it)
    case StopIteration => []
    case Yield(v, next) => [v] + PointDrain(next)
  }

  /** Iterating a point yields x, y, z in that order and then stops; the
      iterator is then exhausted, and a fresh `iter()` starts over. */
  lemma PointIterationYieldsCoordinates(p: Point)
    ensures PointDrain(PointIter(p)) == [p.x, p.y, p.z]
    ensures PointNext(PointIterator(p, 3)) == StopIteration
    ensures PointIter(PointIterator(p, 3).point) == PointIter(p)
  {
    var it0 := PointIter(p);
    var it1 := PointIterator(p, 1);
    var it2 := PointIterator(p, 2);
    var it3 := PointIterator(p, 3);
    assert PointNext(it0) == Yield(p.x, it1);
    assert PointNext(it1) == Yield(p.y, it2);
    assert PointNext(it2) == Yield(p.z, it3);
    assert PointDrain(it3) == [];
    assert PointDrain(it2) == [p.z];
    assert PointDrain(it1) == [p.y, p.z];
  }

  // ------------------------------------------------------------- Ranges

  /** A two-element list `[first, second]` bounding one axis. */
  datatype Interval = Interval(first: real, second: real)

  function Min(i: Interval): real {
    if i.first <= i.second then i.first else i.second
  }

  function Max(i: Interval): real {
    if i.first <= i.second then i.second else i.first
  }

  datatype CoordinateRange = CoordinateRange(
    xRange: Interval, yRange: Interval, zRange: Interval, coordinateSystem: string)

  /** `min(r) <= v <= max(r)`. */
  predicate WithinMinMax(r: Interval, v: real) {
    Min(r) <= v <= Max(r)
  }

  /** `v` lies between the two endpoints, in whichever order they come. */
  predicate Between(r: Interval, v: real) {
    (r.first <= v <= r.second) || (r.second <= v <= r.first)
  }

  /** `CoordinateRange.contains` (`coordinate_range.py`, `HTTPObjects.py`):
      every coordinate lies between the two endpoints of its axis, whichever
      of them is the smaller. */
  function Contains(range: CoordinateRange, p: Point): (b: bool)
    ensures b <==> Between(range.xRange, p.x) && Between(range.yRange, p.y) && Between(range.zRange, p.z)
  {
    WithinMinMax(range.xRange, p.x) && WithinMinMax(range.yRange, p.y) && WithinMinMax(range.zRange, p.z)
  }

  /** `r[0] <= v <= r[1]`: the check `HTTPServer.py` uses. */
  predicate WithinOrdered(r: Interval, v: real) {
    r.first <= v <= r.second
  }

  /** `Coordinate_Range.contains` of `HTTPServer.py`: each axis is read as
      `[lower, upper]` in that order. */
  function ContainsOrdered(range: CoordinateRange, p: Point): (b: bool)
    ensures b ==> Contains(range, p)
  {
    WithinOrdered(range.xRange, p.x) && WithinOrdered(range.yRange, p.y) && WithinOrdered(range.zRange, p.z)
  }

  function Swap(i: Interval): Interval {
    Interval(i.second, i.first)
  }

  /** Swapping the endpoints of any axis never changes `contains`. */
  lemma ContainsIgnoresEndpointOrder(range: CoordinateRange, p: Point)
    ensures Contains(range.(xRange := Swap(range.xRange)), p) == Contains(range, p)
    ensures Contains(range.(yRange := Swap(range.yRange)), p) == Contains(range, p)
    ensures Contains(range.(zRange := Swap(range.zRange)), p) == Contains(range, p)
  {
  }

  /** A point outside its axis on any single axis is rejected, whatever the
      other two coordinates are. */
  lemma ContainsRejectsAnyAxis(range: CoordinateRange, p: Point)
    ensures !WithinMinMax(range.xRange, p.x) ==> !Contains(range, p)
    ensures !WithinMinMax(range.yRange, p.y) ==> !Contains(range, p)
    ensures !WithinMinMax(range.zRange, p.z) ==> !Contains(range, p)
  {
  }

  /** Per-axis reading of `contains`: the point's i-th coordinate lies
      within the range's i-th axis, for every i. */
  lemma ContainsEveryAxis(range: CoordinateRange, p: Point)
    ensures Contains(range, p) <==>
            forall axis :: 0 <= axis < 3 ==> Between(Ranges(range)[axis], Coordinates(p)[axis])
  {
    var rs, cs := Ranges(range), Coordinates(p);
    if forall axis :: 0 <= axis < 3 ==> Between(rs[axis], cs[axis]) {
      assert Between(rs[0], cs[0]) && Between(rs[1], cs[1]) && Between(rs[2], cs[2]);
    }
  }

  /** On ranges written lower-bound first, the two variants agree. */
  lemma OrderedVariantAgrees(range: CoordinateRange, p: Point)
    requires range.xRange.first <= range.xRange.second
    requires range.yRange.first <= range.yRange.second
    requires range.zRange.first <= range.zRange.second
    ensures ContainsOrdered(range, p) == Contains(range, p)
  {
  }

  /** The index-based variant is order-sensitive: a reversed axis with
      distinct endpoints contains no point at all. */
  lemma ReversedAxisContainsNothing(range: CoordinateRange, p: Point)
    requires range.xRange.first > range.xRange.second
          || range.yRange.first > range.yRange.second
          || range.zRange.first > range.zRange.second
    ensures !ContainsOrdered(range, p)
  {
  }

  // ------------------------------------------------------ Range iteration

  /** The `ranges` list the constructor stores. */
  function Ranges(range: CoordinateRange): (rs: seq<Interval>)
    ensures |rs| == 3 && rs[0] == range.xRange && rs[1] == range.yRange && rs[2] == range.zRange
  {
    [range.xRange, range.yRange, range.zRange]
  }

  datatype RangeIterator = RangeIterator(range: CoordinateRange, index: nat)

  function RangeIter(range: CoordinateRange): (it: RangeIterator)
    ensures it.range == range && it.index == 0
  {
    RangeIterator(range, 0)
  }

  /** `__next__`: stop once the index reaches `len(ranges)`. */
  function RangeNext(it: RangeIterator): Step<Interval, RangeIterator> {
    if it.index >= |Ranges(it.range)| then StopIteration
    else Yield(Ranges(it.range)[it.index], RangeIterator(it.range, it.index + 1))
  }

  function RangeDrain(it: RangeIterator): seq<Interval>
    decreases 3 - it.index
  {
    match RangeNext(it)
    case StopIteration => []
    case Yield(v, next) => [v] + RangeDrain(next)
  }

  /** Iterating a range yields the x, y and z ranges in order, then stops,
      and keeps stopping. */
  lemma RangeIterationYieldsAxes(range: CoordinateRange)
    ensures RangeDrain(RangeIter(range)) == [range.xRange, range.yRange, range.zRange]
    ensures forall i: nat :: i >= 3 ==> RangeNext(RangeIterator(range, i)) == StopIteration
  {
    var it1 := RangeIterator(range, 1);
    var it2 := RangeIterator(range, 2);
    var it3 := RangeIterator(range, 3);
    assert RangeNext(RangeIter(range)) == Yield(range.xRange, it1);
    assert RangeNext(it1) == Yield(range.yRange, it2);
    assert RangeNext(it2) == Yield(range.zRange, it3);
    assert RangeDrain(it3) == [];
    assert RangeDrain(it2) == [range.zRange];
    assert RangeDrain(it1) == [range.yRange, range.zRange];
  }
}

=== FILE: http_server.dfy ===
/** The Flask handlers over a `RobotObject`: `HTTPObjects.py`,
    `server/Python/HTTPServer.py` and `PythonServer_Package/robot_server.py`.
    A handler takes the robot and the decoded request body and gives back
    the response and the robot afterwards; an exception inside a handler
    becomes a 500 reply. */
module HttpServers {

  import opened Wrappers
  import opened Geometry
  import opened Json
  import opened Robot
  import opened Dispatch

  /** What distinguishes the three servers: the system names they accept,
      whether their range is the index-based one, and the text of the homing
      reply. */
  datatype Variant = Variant(names: SystemNames, orderedRange: bool, homedText: string)

  /** `HTTPObjects.py`. */
  const ObjectsServer := Variant(ShortNames, false, "Robot homed.\\n Current position: X=0 Y=0 Z=0")

  /** `server/Python/HTTPServer.py`. */
  const FlaskServer := Variant(ShortNames, true, "Robot homed. Current position: X=0 Y=0 Z=0")

  /** `PythonServer_Package/robot_server.py`. */
  const PackageServer := Variant(LongNames, false, "Robot homed. Current position: X=0 Y=0 Z=0")

  /** `robot.is_position_safe(x, y, z)` with the variant's range. */
  predicate Safe(v: Variant, s: RobotState, p: Point) {
    if v.orderedRange then IsPositionSafeOrdered(s, p.x, p.y, p.z) else IsPositionSafe(s, p.x, p.y, p.z)
  }

  datatype Served = Served(response: HttpResponse<JsonBody>, robot: RobotState)

  /** `jsonify({"status": "Error", "message": text}), status`. */
  function Refuse(s: RobotState, status: nat, text: string): Served {
    Served(HttpResponse(status, ErrorBody(text)), s)
  }

  /** `jsonify({"status": "Success", ...})` with Flask's default 200. */
  function Succeed(s: RobotState, m: Message): Served {
    Served(HttpResponse(200, JsonBody(true, m)), s)
  }

  /** A body that is a JSON object with a truthy system and truthy data,
      naming a known system whose target resolves: the only moves that get
      past the checks before the safety gate. */
  predicate Resolves(v: Variant, s: RobotState, body: Value, polar: PolarToCartesian) {
    body.Object? && TruthyField(body.members, "coordinate_system") && TruthyField(body.members, "data")
    && SystemField(v.names, body.members).Some?
    && PyTarget(SystemField(v.names, body.members).value, body.members["data"], s.position, polar).Ok?
  }

  /** The target a resolving move asks for. */
  function Target(v: Variant, s: RobotState, body: Value, polar: PolarToCartesian): Point
    requires Resolves(v, s, body, polar)
  {
    PyTarget(SystemField(v.names, body.members).value, body.members["data"], s.position, polar).value
  }

  /** `handle_move_command`. */
  function HandleMove(v: Variant, s: RobotState, body: Value, polar: PolarToCartesian): (r: Served)
    ensures !body.Object? ==> r == Refuse(s, 500, "Error processing move command")
    ensures body.Object? && !(TruthyField(body.members, "coordinate_system") && TruthyField(body.members, "data")) ==>
              r == Refuse(s, 400, "Invalid command format")
    ensures (body.Object? && TruthyField(body.members, "coordinate_system") && TruthyField(body.members, "data")
             && SystemField(v.names, body.members).None?) ==> r == Refuse(s, 400, "Invalid coordinate system")
    ensures r.response.body.success <==> Resolves(v, s, body, polar) && Safe(v, s, Target(v, s, body, polar))
    ensures r.response.body.success ==>
              var t := Target(v, s, body, polar);
              r == Succeed(MoveMotor(s, t.x, t.y, t.z), MovedTo(t))
    ensures !r.response.body.success ==> r.robot == s && r.response.status in {400, 500}
  {
    if !body.Object? then Refuse(s, 500, "Error processing move command")
    else
      var command := body.members;
      if !TruthyField(command, "coordinate_system") || !TruthyField(command, "data") then
        Refuse(s, 400, "Invalid command format")
      else match SystemField(v.names, command)
        case None => Refuse(s, 400, "Invalid coordinate system")
        case Some(sys) =>
          match PyTarget(sys, command["data"], s.position, polar)
          case Raise(_) => Refuse(s, 500, "Error processing move command")
          case Ok(t) =>
            if !Safe(v, s, t) then Refuse(s, 400, "Position out of safe bounds")
            else Succeed(MoveMotor(s, t.x, t.y, t.z), MovedTo(t))
  }

  /** `command["data"].get("pipet_level")`: `TypeError` when the body is not
      an object, `KeyError` without `data`, `AttributeError` when `data` is
      not an object. */
  function PipetLevelField(body: Value): (r: PyResult<Option<Value>>)
    ensures r.Ok? <==> body.Object? && "data" in body.members && body.members["data"].Object?
    ensures r.Ok? ==> r.value == PyGet(body.members["data"].members, "pipet_level")
  {
    match PyIndex(body, "data")
    case Raise(e) => Raise(e)
    case Ok(data) => if data.Object? then Ok(PyGet(data.members, "pipet_level")) else Raise(AttributeError)
  }

  /** `pipet_level is None`: absent, or JSON `null`. */
  predicate MissingLevel(level: Option<Value>) {
    level.None? || level.value.Null?
  }

  /** `handle_pipet_control`. */
  function HandlePipet(s: RobotState, body: Value): (r: Served)
    ensures r.response.status == 500 <==> PipetLevelField(body).Raise?
    ensures r.response.status == 400 <==> PipetLevelField(body).Ok? && MissingLevel(PipetLevelField(body).value)
    ensures r.response.status in {200, 400, 500}
    ensures r.response.status == 200 <==> r.response.body.success
    ensures r.response.body.success ==>
              var level := PipetLevelField(body).value.value;
              level != Null && r == Succeed(MovePipet(s, level), PipetLevelSet(level))
    ensures !r.response.body.success ==> r.robot == s
  {
    match PipetLevelField(body)
    case Raise(_) => Refuse(s, 500, "Error processing pipet control command")
    case Ok(level) =>
      if MissingLevel(level) then Refuse(s, 400, "Missing pipet_level in command")
      else Succeed(MovePipet(s, level.value), PipetLevelSet(level.value))
  }

  // ------------------------------------------------------------ Routes

  datatype HttpMethod = Get | Post

  datatype Endpoint = MoveRoute | PipetRoute | PingRoute | RequestRoute | HomeRoute

  /** The rules the three servers register: the path after the host, the
      handler and the one method it answers. */
  function Route(path: string): (r: Option<(Endpoint, HttpMethod)>)
    ensures r.Some? <==> path in {"/move", "/pipet_control", "/ping", "/request", "/home_robot"}
    ensures r.Some? ==> (r.value.1 == Post <==> r.value.0 in {MoveRoute, PipetRoute})
  {
    if path == "/move" then Some((MoveRoute, Post))
    else if path == "/pipet_control" then Some((PipetRoute, Post))
    else if path == "/ping" then Some((PingRoute, Get))
    else if path == "/request" then Some((RequestRoute, Get))
    else if path == "/home_robot" then Some((HomeRoute, Get))
    else None
  }

  /** One request to a routed endpoint. */
  function Serve(v: Variant, s: RobotState, e: Endpoint, body: Value, polar: PolarToCartesian): (r: Served)
    ensures e == MoveRoute ==> r == HandleMove(v, s, body, polar)
    ensures e == PipetRoute ==> r == HandlePipet(s, body)
    ensures e == PingRoute ==> r == Succeed(s, Say("pong"))
    ensures e == RequestRoute ==> r == Succeed(s, CurrentPosition(s.position))
    ensures e == HomeRoute ==> r.robot.position == PointAt(0.0, 0.0, 0.0) && r.response.status == 200
    ensures e == HomeRoute ==> r.robot.pipetLevel == s.pipetLevel && r.robot.safeBounds == s.safeBounds
  {
    match e
    case MoveRoute => HandleMove(v, s, body, polar)
    case PipetRoute => HandlePipet(s, body)
    case PingRoute => Succeed(s, Say("pong"))
    case RequestRoute => Succeed(s, CurrentPosition(s.position))
    case HomeRoute => Succeed(HomeRobot(s), Say(v.homedText))
  }

  // ------------------------------------------------------------ Lemmas

  /** A move whose target resolves actuates exactly when the target is safe;
      an unsafe one is a 400 and leaves the robot where it was. */
  lemma MoveActuatesIffSafe(v: Variant, s: RobotState, body: Value, polar: PolarToCartesian)
    requires Resolves(v, s, body, polar)
    ensures var t := Target(v, s, body, polar);
            var r := HandleMove(v, s, body, polar);
            (r.robot.position == PointAt(t.x, t.y, t.z) && r.response.status == 200 <==> Safe(v, s, t))
            && (!Safe(v, s, t) ==> r == Refuse(s, 400, "Position out of safe bounds"))
  {
  }

  /** With numeric data a relative move targets the robot's current position
      plus the deltas, and an absolute move the numbers themselves. */
  lemma MoveTargets(v: Variant, s: RobotState, m: map<string, Value>, polar: PolarToCartesian, x: real, y: real, z: real)
    requires "x" in m && "y" in m && "z" in m
    requires m["x"] == Number(x) && m["y"] == Number(y) && m["z"] == Number(z)
    ensures var body := Object(map["coordinate_system" := Str(v.names.relative), "data" := Object(m)]);
            |v.names.relative| > 0 && v.names.relative != v.names.absolute ==>
            Resolves(v, s, body, polar) && Target(v, s, body, polar) == Translate(s.position, x, y, z)
    ensures var body := Object(map["coordinate_system" := Str(v.names.absolute), "data" := Object(m)]);
            |v.names.absolute| > 0 ==>
            Resolves(v, s, body, polar) && Target(v, s, body, polar) == PointAt(x, y, z)
  {
    AbsoluteNumbers(m, s.position, polar, x, y, z);
    assert Truthy(Object(m)) by { assert "x" in m; }
  }

  /** The package server and the other two accept disjoint cartesian names:
      a short name sent to the package server, or a long one to the others,
      is a 400 that moves nothing. */
  lemma CartesianNamesDisjoint(s: RobotState, data: Value, polar: PolarToCartesian)
    requires Truthy(data)
    ensures var short := Object(map["coordinate_system" := Str("cartesian_abs"), "data" := data]);
            HandleMove(PackageServer, s, short, polar) == Refuse(s, 400, "Invalid coordinate system")
    ensures var long := Object(map["coordinate_system" := Str("cartesian_relative"), "data" := data]);
            HandleMove(ObjectsServer, s, long, polar) == Refuse(s, 400, "Invalid coordinate system")
            && HandleMove(FlaskServer, s, long, polar) == Refuse(s, 400, "Invalid coordinate system")
  {
    var short := map["coordinate_system" := Str("cartesian_abs"), "data" := data];
    assert short["coordinate_system"] == Str("cartesian_abs");
    var long := map["coordinate_system" := Str("cartesian_relative"), "data" := data];
    assert long["coordinate_system"] == Str("cartesian_relative");
  }

  /** With the initial bounds the index-based and the min/max range accept
      the same targets, so the two short-name servers answer every move
      alike. */
  lemma ShortNameServersAgree(s: RobotState, body: Value, polar: PolarToCartesian)
    requires s.safeBounds == SafeBounds
    ensures HandleMove(ObjectsServer, s, body, polar) == HandleMove(FlaskServer, s, body, polar)
  {
    if Resolves(ObjectsServer, s, body, polar) {
      var t := Target(ObjectsServer, s, body, polar);
      SafeBoundsBox(s, t.x, t.y, t.z);
    }
  }

  /** A pipet command with a level stores exactly that level and nothing
      else; one without a level is a 400 that leaves the old level. */
  lemma PipetStoresLevel(s: RobotState, level: Value, data: map<string, Value>)
    ensures level != Null ==>
              var body := Object(map["data" := Object(data["pipet_level" := level])]);
              HandlePipet(s, body).robot == MovePipet(s, level)
              && HandlePipet(s, body).response.status == 200
    ensures "pipet_level" !in data ==>
              var body := Object(map["data" := Object(data)]);
              HandlePipet(s, body) == Refuse(s, 400, "Missing pipet_level in command")
  {
  }

  /** Homing is idempotent and forgets any earlier move; ping and request
      never change the robot. */
  lemma HomeForgetsMoves(v: Variant, s: RobotState, body: Value, polar: PolarToCartesian)
    ensures var moved := Serve(v, s, MoveRoute, body, polar).robot;
            Serve(v, moved, HomeRoute, body, polar).robot == Serve(v, s, HomeRoute, body, polar).robot
    ensures var homed := Serve(v, s, HomeRoute, body, polar).robot;
            Serve(v, homed, HomeRoute, body, polar).robot == homed
    ensures Serve(v, s, PingRoute, body, polar).robot == s && Serve(v, s, RequestRoute, body, polar).robot == s
  {
  }
}

=== FILE: json.dfy ===
/** Decoded JSON command bodies and how each runtime reads them: Python's
    `dict.get`, `d[k]`, truthiness and `float()`, and ArduinoJson's
    `const char*` and `float` conversions.  Parsing itself is not modelled:
    a request arrives with its raw text and, when the text was valid JSON,
    the value at its top level, which need not be an object. */
module Json {

  import opened Wrappers
  import opened Text

  datatype Value =
    | Number(n: real)
    | Flag(b: bool)
    | Str(s: string)
    | Null
    | List(items: seq<Value>)
    | Object(members: map<string, Value>)

  /** A received command: `raw` is the text after the framing header,
      `parsed` is `None` when `json.loads` / `deserializeJson` fails and
      otherwise the decoded top-level value (`[1]` and `42` decode too). */
  datatype Request = Request(raw: string, parsed: Option<Value>)

  /** The Python exceptions the handlers distinguish. */
  datatype PyError = KeyError | ValueError | TypeError | AttributeError

  datatype PyResult<T> = Ok(value: T) | Raise(error: PyError)

  // ------------------------------------------------------------- Python

  /** `obj.get(key)`. */
  function PyGet(obj: map<string, Value>, key: string): (r: Option<Value>)
    ensures r.Some? <==> key in obj
    ensures r.Some? ==> r.value == obj[key]
  {
    if key in obj then Some(obj[key]) else None
  }

  /** `bool(v)`: zero, false, empty strings and containers and `None` are false. */
  predicate Truthy(v: Value) {
    match v
    case Number(n) => n != 0.0
    case Flag(b) => b
    case Str(s) => |s| > 0
    case Null => false
    case List(items) => |items| > 0
    case Object(members) => |members| > 0
  }

  /** `bool(obj.get(key))`: an absent key reads as `None`. */
  predicate TruthyField(obj: map<string, Value>, key: string) {
    key in obj && Truthy(obj[key])
  }

  /** `obj.get(key) == text`. */
  predicate FieldIs(obj: map<string, Value>, key: string, text: string) {
    key in obj && obj[key] == Str(text)
  }

  /** `v[key]` with a string key: only a dict can be indexed by a string. */
  function PyIndex(v: Value, key: string): (r: PyResult<Value>)
    ensures r.Ok? <==> v.Object? && key in v.members
    ensures r.Ok? ==> r.value == v.members[key]
    ensures r.Raise? && v.Object? ==> r.error == KeyError
    ensures r.Raise? && !v.Object? ==> r.error == TypeError
  {
    match v
    case Object(members) => if key in members then Ok(members[key]) else Raise(KeyError)
    case _ => Raise(TypeError)
  }

  /** `float(v)`: numbers and booleans convert; a string is parsed when it
      strips to an integer, digit groups allowed (`ValueError` otherwise);
      `None` and containers raise `TypeError`. */
  function PyFloat(v: Value): (r: PyResult<real>)
    ensures v.Number? ==> r == Ok(v.n)
    ensures v.Null? || v.List? || v.Object? ==> r == Raise(TypeError)
    ensures r.Raise? ==> r.error in {ValueError, TypeError}
  {
    match v
    case Number(n) => Ok(n)
    case Flag(b) => Ok(if b then 1.0 else 0.0)
    case Str(s) =>
      (match ParseInt(Strip(s))
       case Some(k) => Ok(k as real)
       case None => Raise(ValueError))
    case _ => Raise(TypeError)
  }

  /** `float(data[key])`: the lookup fails first, then the conversion. */
  function PyFloatAt(data: Value, key: string): (r: PyResult<real>)
    ensures PyIndex(data, key).Raise? ==> r == Raise(PyIndex(data, key).error)
    ensures PyIndex(data, key).Ok? ==> r == PyFloat(PyIndex(data, key).value)
  {
    match PyIndex(data, key)
    case Raise(e) => Raise(e)
    case Ok(v) => PyFloat(v)
  }

  /** `float(data[a]), float(data[b]), float(data[c])`, evaluated left to
      right: the first failing read decides the exception. */
  function PyFloats3(data: Value, a: string, b: string, c: string): (r: PyResult<(real, real, real)>)
    ensures r.Ok? <==> PyFloatAt(data, a).Ok? && PyFloatAt(data, b).Ok? && PyFloatAt(data, c).Ok?
    ensures r.Ok? ==> r.value == (PyFloatAt(data, a).value, PyFloatAt(data, b).value, PyFloatAt(data, c).value)
    ensures PyFloatAt(data, a).Raise? ==> r == Raise(PyFloatAt(data, a).error)
    ensures PyFloatAt(data, a).Ok? && PyFloatAt(data, b).Raise? ==> r == Raise(PyFloatAt(data, b).error)
    ensures PyFloatAt(data, a).Ok? && PyFloatAt(data, b).Ok? && PyFloatAt(data, c).Raise? ==>
              r == Raise(PyFloatAt(data, c).error)
  {
    match PyFloatAt(data, a)
    case Raise(e) => Raise(e)
    case Ok(x) =>
      match PyFloatAt(data, b)
      case Raise(e) => Raise(e)
      case Ok(y) =>
        match PyFloatAt(data, c)
        case Raise(e) => Raise(e)
        case Ok(z) => Ok((x, y, z))
  }

  /** Three numeric members are read back exactly. */
  lemma PyFloats3Numbers(m: map<string, Value>, a: string, b: string, c: string, x: real, y: real, z: real)
    requires a in m && b in m && c in m
    requires m[a] == Number(x) && m[b] == Number(y) && m[c] == Number(z)
    ensures PyFloats3(Object(m), a, b, c) == Ok((x, y, z))
  {
  }

  // -------------------------------------------------------- ArduinoJson

  /** `const char* s = obj[key]`: the text of a string member, NULL when the
      member is absent or not a string. */
  function CString(obj: map<string, Value>, key: string): (r: Option<string>)
    ensures r.Some? <==> key in obj && obj[key].Str?
    ensures r.Some? ==> obj[key] == Str(r.value)
  {
    if key in obj && obj[key].Str? then Some(obj[key].s) else None
  }

  /** `float f = variant`: a number converts, anything else (null included)
      reads as 0. */
  function ArduinoFloat(v: Option<Value>): (f: real)
    ensures (v.Some? && v.value.Number?) ==> f == v.value.n
    ensures !(v.Some? && v.value.Number?) ==> f == 0.0
  {
    if v.Some? && v.value.Number? then v.value.n else 0.0
  }

  /** `doc[outer][inner]`: null unless `outer` is an object holding `inner`. */
  function Member2(doc: map<string, Value>, outer: string, inner: string): (r: Option<Value>)
    ensures r.Some? <==> outer in doc && doc[outer].Object? && inner in doc[outer].members
    ensures r.Some? ==> r.value == doc[outer].members[inner]
  {
    if outer in doc && doc[outer].Object? && inner in doc[outer].members
    then Some(doc[outer].members[inner]) else None
  }

  /** `float f = doc["data"][key]`. */
  function ArduinoFloatAt(doc: map<string, Value>, key: string): real {
    ArduinoFloat(Member2(doc, "data", key))
  }
}

=== FILE: robot.dfy ===
/** The simulated robot of the Python HTTP servers (`RobotObject` in
    `robot_object.py`, `HTTPServer.py` and `HTTPObjects.py`): a position, a
    pipet level and the safe-bounds range. */
module Robot {

  import opened Wrappers
  import opened Geometry
  import opened Json

  /** `pipetLevel` holds whatever value the last `MovePipet` received (the
      servers pass the JSON value through unchanged). */
  datatype RobotState = RobotState(position: Point, pipetLevel: Value, safeBounds: CoordinateRange)

  /** `Coordinate_Range([0,100],[0,100],[0,50])`. */
  const SafeBounds: CoordinateRange :=
    CoordinateRange(Interval(0.0, 100.0), Interval(0.0, 100.0), Interval(0.0, 50.0), DefaultSystem)

  /** The constructor of `robot_object.py` and `HTTPServer.py`. */
  function NewRobot(): (r: RobotState)
    ensures r.position == PointAt(10.0, 20.0, 30.0)
    ensures r.pipetLevel == Number(0.0)
    ensures r.safeBounds == SafeBounds
  {
    RobotState(PointAt(10.0, 20.0, 30.0), Number(0.0), SafeBounds)
  }

  /** `MoveMotor(x, y, z)`: only the position changes. */
  function MoveMotor(s: RobotState, x: real, y: real, z: real): (r: RobotState)
    ensures r.position.x == x && r.position.y == y && r.position.z == z
    ensures r.pipetLevel == s.pipetLevel && r.safeBounds == s.safeBounds
  {
    s.(position := PointAt(x, y, z))
  }

  /** `MovePipet(level)`: only the pipet level changes. */
  function MovePipet(s: RobotState, level: Value): (r: RobotState)
    ensures r.pipetLevel == level
    ensures r.position == s.position && r.safeBounds == s.safeBounds
  {
    s.(pipetLevel := level)
  }

  /** `home_robot()` of `robot_object.py` and `HTTPServer.py`: only the
      position changes, to the origin. */
  function HomeRobot(s: RobotState): (r: RobotState)
    ensures r.position.x == 0.0 && r.position.y == 0.0 && r.position.z == 0.0
    ensures r.pipetLevel == s.pipetLevel && r.safeBounds == s.safeBounds
  {
    s.(position := PointAt(0.0, 0.0, 0.0))
  }

  /** `is_position_safe(x, y, z)` with the min/max `contains`. */
  predicate IsPositionSafe(s: RobotState, x: real, y: real, z: real) {
    Contains(s.safeBounds, PointAt(x, y, z))
  }

  /** `is_position_safe(x, y, z)` of `HTTPServer.py`, whose range reads each
      axis as `[lower, upper]`. */
  predicate IsPositionSafeOrdered(s: RobotState, x: real, y: real, z: real) {
    ContainsOrdered(s.safeBounds, PointAt(x, y, z))
  }

  /** Within the initial bounds, safe means 0 <= x, y <= 100 and 0 <= z <= 50,
      and both variants of the check agree. */
  lemma SafeBoundsBox(s: RobotState, x: real, y: real, z: real)
    requires s.safeBounds == SafeBounds
    ensures IsPositionSafe(s, x, y, z) <==> 0.0 <= x <= 100.0 && 0.0 <= y <= 100.0 && 0.0 <= z <= 50.0
    ensures IsPositionSafeOrdered(s, x, y, z) == IsPositionSafe(s, x, y, z)
  {
    OrderedVariantAgrees(s.safeBounds, PointAt(x, y, z));
  }

  /** Moving the motor and the pipet commute; homing forgets any earlier
      move; and no operation changes which targets are safe. */
  lemma StateOperationsIndependent(s: RobotState, x: real, y: real, z: real, level: Value, a: real, b: real, c: real)
    ensures MovePipet(MoveMotor(s, x, y, z), level) == MoveMotor(MovePipet(s, level), x, y, z)
    ensures HomeRobot(MoveMotor(s, x, y, z)) == HomeRobot(s)
    ensures HomeRobot(HomeRobot(s)) == HomeRobot(s)
    ensures IsPositionSafe(MoveMotor(s, x, y, z), a, b, c) == IsPositionSafe(s, a, b, c)
    ensures IsPositionSafe(MovePipet(s, level), a, b, c) == IsPositionSafe(s, a, b, c)
    ensures IsPositionSafe(HomeRobot(s), a, b, c) == IsPositionSafe(s, a, b, c)
  {
  }

  // ----------------------------------------------- HTTPObjects.py variant

  /** The three limit switches `home_robot` of `HTTPObjects.py` waits on. */
  datatype Switches = Switches(x: bool, y: bool, z: bool)

  /** `home_robot()` of `HTTPObjects.py`: the loop body changes nothing, so
      it spins forever (`None`) unless every switch is already closed, and
      then moves the position to the origin. */
  function HomeWithSwitches(s: RobotState, sw: Switches): (r: Option<RobotState>)
    ensures r.Some? <==> sw.x && sw.y && sw.z
    ensures r.Some? ==> r.value == HomeRobot(s)
  {
    if sw.x && sw.y && sw.z then Some(s.(position := PointAt(0.0, 0.0, 0.0))) else None
  }

  /** The constructor of `HTTPObjects.py`: the robot of `NewRobot`, homed with
      all switches closed. */
  function NewHomedRobot(): (r: RobotState)
    ensures r.pipetLevel == Number(0.0) && r.safeBounds == SafeBounds
    ensures r.position == PointAt(0.0, 0.0, 0.0)
  {
    var sw := Switches(true, true, true);
    HomeWithSwitches(NewRobot(), sw).GetOr(NewRobot())
  }

  /** The homed constructor differs from the unhomed one in the position only. */
  lemma HomedConstructorHomes()
    ensures NewHomedRobot() == HomeRobot(NewRobot())
    ensures NewHomedRobot() != NewRobot()
  {
  }
}

=== FILE: socket_server.dfy ===
/** The two Python TCP servers: `RobotServer` of `SocketsObjects.py` and the
    module-level server of `SocketsServer.py`.  A command is handled against
    a fixed current position (10, 10, 10), the box of `is_position_safe` and
    a keep-alive timestamp that `ping` refreshes. */
module SocketServers {

  import opened Wrappers
  import opened Geometry
  import opened Json
  import opened Dispatch
  import opened Text

  /** `get_current_position()` of both servers. */
  const Current := PointAt(10.0, 10.0, 10.0)

  /** `is_position_safe(point)`: x and y in [-300, 300], z in [0, 200]. */
  predicate IsPositionSafe(p: Point) {
    InBox(SocketsBox, p)
  }

  /** The result of one `handle_command` call: the reply (or the exception
      that escaped it), the keep-alive timestamp afterwards, and the point
      passed to `move_to_position`, if any. */
  datatype Handled = Handled(reply: PyResult<Message>, lastKeepAlive: real, moved: Option<Point>)

  /** The move replies both servers share once the system is known. */
  function MoveTo(sys: System, data: Value, polar: PolarToCartesian): (r: (PyResult<Message>, Option<Point>))
    ensures r.1.Some? ==> r.0 == Ok(MovedTo(r.1.value))
    ensures r.0.Ok? && r.0.value.MovedTo? ==> r.1 == Some(r.0.value.target)
    ensures r.1.Some? ==> IsPositionSafe(r.1.value)
    ensures r.1.Some? ==> PyTarget(sys, data, Current, polar) == Ok(r.1.value)
    ensures PyTarget(sys, data, Current, polar).Raise? && PyTarget(sys, data, Current, polar).error in {KeyError, ValueError} ==>
              r == (Ok(Say("Error: Invalid MOVE command format")), None)
    ensures PyTarget(sys, data, Current, polar).Raise? && PyTarget(sys, data, Current, polar).error !in {KeyError, ValueError} ==>
              r == (Raise(PyTarget(sys, data, Current, polar).error), None)
    ensures PyTarget(sys, data, Current, polar).Ok? && !IsPositionSafe(PyTarget(sys, data, Current, polar).value) ==>
              r == (Ok(Say("Error: Position out of safe bounds")), None)
    ensures PyTarget(sys, data, Current, polar).Ok? && IsPositionSafe(PyTarget(sys, data, Current, polar).value) ==>
              r.1 == Some(PyTarget(sys, data, Current, polar).value)
  {
    match PyTarget(sys, data, Current, polar)
    case Raise(e) =>
      if e == KeyError || e == ValueError then (Ok(Say("Error: Invalid MOVE command format")), None)
      else (Raise(e), None)
    case Ok(p) =>
      if !IsPositionSafe(p) then (Ok(Say("Error: Position out of safe bounds")), None)
      else (Ok(MovedTo(p)), Some(p))
  }

  // ------------------------------------------------- SocketsObjects.py

  /** `process_move_command`: `data` is looked up before the system is
      checked, and only `ValueError`/`KeyError` are turned into a reply. */
  function ObjectsMove(cmd: map<string, Value>, polar: PolarToCartesian): (r: (PyResult<Message>, Option<Point>))
    ensures "data" !in cmd ==> r == (Ok(Say("Error: Invalid MOVE command format")), None)
    ensures "data" in cmd && SystemField(ShortNames, cmd).None? ==> r == (Ok(Say("Error: Invalid coordinate system")), None)
    ensures r.1.Some? ==> IsPositionSafe(r.1.value)
  {
    if "data" !in cmd then (Ok(Say("Error: Invalid MOVE command format")), None)
    else match SystemField(ShortNames, cmd)
      case None => (Ok(Say("Error: Invalid coordinate system")), None)
      case Some(sys) => MoveTo(sys, cmd["data"], polar)
  }

  /** `process_request_command`: the subject defaults to `current_pos`; any
      other subject makes it return `None`, and sending `None` then raises
      `TypeError` in `handle_client`. */
  function ObjectsRequest(cmd: map<string, Value>): (r: PyResult<Message>)
    ensures r.Ok? <==> ("subject" !in cmd || cmd["subject"] == Str("current_pos"))
    ensures r.Ok? ==> r.value == CurrentPosition(Current)
  {
    if "subject" !in cmd || cmd["subject"] == Str("current_pos") then Ok(CurrentPosition(Current))
    else Raise(TypeError)
  }

  /** The decoded command is a JSON object of type `kind`. */
  predicate IsCommand(req: Request, kind: string) {
    req.parsed.Some? && req.parsed.value.Object? && FieldIs(req.parsed.value.members, "type", kind)
  }

  /** `RobotServer.handle_command` of `SocketsObjects.py`.  Text that is not
      JSON makes `json.loads` raise (a `ValueError`); a decoded value that is
      not a dict has no `get`, so `command_dict.get("type")` raises
      `AttributeError`. */
  function ObjectsHandleCommand(req: Request, lastKeepAlive: real, now: real, polar: PolarToCartesian): (h: Handled)
    ensures req.parsed.None? ==> h == Handled(Raise(ValueError), lastKeepAlive, None)
    ensures req.parsed.Some? && !req.parsed.value.Object? ==> h == Handled(Raise(AttributeError), lastKeepAlive, None)
    ensures h.lastKeepAlive == (if IsCommand(req, "ping") then now else lastKeepAlive)
    ensures h.moved.Some? ==> IsPositionSafe(h.moved.value) && h.reply == Ok(MovedTo(h.moved.value))
    ensures h.moved.Some? ==> IsCommand(req, "move")
    ensures IsCommand(req, "move") ==> h == Handled(ObjectsMove(req.parsed.value.members, polar).0, lastKeepAlive, ObjectsMove(req.parsed.value.members, polar).1)
    ensures IsCommand(req, "request") ==> h == Handled(ObjectsRequest(req.parsed.value.members), lastKeepAlive, None)
    ensures req.parsed.Some? && req.parsed.value.Object? && !IsCommand(req, "move") && !IsCommand(req, "ping") && !IsCommand(req, "request") ==>
              h == Handled(Ok(Say("Unknown command")), lastKeepAlive, None)
  {
    match req.parsed
    case None => Handled(Raise(ValueError), lastKeepAlive, None)
    case Some(root) =>
      if !root.Object? then Handled(Raise(AttributeError), lastKeepAlive, None)
      else
        var cmd := root.members;
        if FieldIs(cmd, "type", "move") then
          var (reply, moved) := ObjectsMove(cmd, polar);
          Handled(reply, lastKeepAlive, moved)
        else if FieldIs(cmd, "type", "ping") then Handled(Ok(Say("pong")), now, None)
        else if FieldIs(cmd, "type", "request") then Handled(ObjectsRequest(cmd), lastKeepAlive, None)
        else Handled(Ok(Say("Unknown command")), lastKeepAlive, None)
  }

  // --------------------------------------------------- SocketsServer.py

  /** The `move` branch of `SocketsServer.handle_command`: a falsy system is
      reported first, then a missing `data`, then an unknown system. */
  function ServerMove(cmd: map<string, Value>, polar: PolarToCartesian): (r: (PyResult<Message>, Option<Point>))
    ensures !TruthyField(cmd, "coordinate_system") ==> r == (Ok(Say("Error: No coordinate system specified")), None)
    ensures TruthyField(cmd, "coordinate_system") && "data" !in cmd ==> r == (Ok(Say("Error: Invalid MOVE command format")), None)
    ensures TruthyField(cmd, "coordinate_system") && "data" in cmd && SystemField(ShortNames, cmd).None? ==>
              r == (Ok(Say("Error: Invalid coordinate system")), None)
    ensures r.1.Some? ==> IsPositionSafe(r.1.value)
  {
    if !TruthyField(cmd, "coordinate_system") then (Ok(Say("Error: No coordinate system specified")), None)
    else if "data" !in cmd then (Ok(Say("Error: Invalid MOVE command format")), None)
    else match SystemField(ShortNames, cmd)
      case None => (Ok(Say("Error: Invalid coordinate system")), None)
      case Some(sys) => MoveTo(sys, cmd["data"], polar)
  }

  /** `handle_command` of `SocketsServer.py`, called with the received text
      stripped of surrounding whitespace.  `command_dict["type"]` raises
      `KeyError` when an object has no type and `TypeError` when the decoded
      value is not a dict; a request for another subject falls through to
      the unknown-command reply, which quotes the stripped command. */
  function ServerHandleCommand(req: Request, lastKeepAlive: real, now: real, polar: PolarToCartesian): (h: Handled)
    ensures req.parsed.None? ==> h.reply == Raise(ValueError)
    ensures req.parsed.Some? && req.parsed.value.Object? && "type" !in req.parsed.value.members ==> h.reply == Raise(KeyError)
    ensures req.parsed.Some? && !req.parsed.value.Object? ==> h.reply == Raise(TypeError)
    ensures h.lastKeepAlive == (if IsCommand(req, "ping") then now else lastKeepAlive)
    ensures h.moved.Some? ==> IsPositionSafe(h.moved.value) && h.reply == Ok(MovedTo(h.moved.value))
    ensures h.moved.Some? ==> IsCommand(req, "move")
    ensures IsCommand(req, "move") ==> h == Handled(ServerMove(req.parsed.value.members, polar).0, lastKeepAlive, ServerMove(req.parsed.value.members, polar).1)
    ensures IsCommand(req, "request") && (!TruthyField(req.parsed.value.members, "subject") || req.parsed.value.members["subject"] == Str("current_pos")) ==>
              h == Handled(Ok(CurrentPosition(Current)), lastKeepAlive, None)
    ensures IsCommand(req, "request") && TruthyField(req.parsed.value.members, "subject") && req.parsed.value.members["subject"] != Str("current_pos") ==>
              h == Handled(Ok(Say("Unknown command: " + Strip(req.raw))), lastKeepAlive, None)
  {
    match req.parsed
    case None => Handled(Raise(ValueError), lastKeepAlive, None)
    case Some(root) =>
      match PyIndex(root, "type")
      case Raise(e) => Handled(Raise(e), lastKeepAlive, None)
      case Ok(kind) =>
        var cmd := root.members;
        if kind == Str("move") then
          var (reply, moved) := ServerMove(cmd, polar);
          Handled(reply, lastKeepAlive, moved)
        else if kind == Str("ping") then Handled(Ok(Say("pong")), now, None)
        else if kind == Str("request") && (!TruthyField(cmd, "subject") || cmd["subject"] == Str("current_pos")) then
          Handled(Ok(CurrentPosition(Current)), lastKeepAlive, None)
        else Handled(Ok(Say("Unknown command: " + Strip(req.raw))), lastKeepAlive, None)
  }

  // ------------------------------------------------------ Connection

  /** Where a connection loop stands after a command.  `Reading`: the next
      pass reads from the socket again.  `Spinning`: `SocketsServer.py` has
      closed the socket itself and `continue`d; every later pass calls
      `recv` on the closed socket, which raises `OSError` (not WinError
      10053/10054), so the handler closes it again and continues, and the
      loop never returns to `accept`. */
  datatype Connection = Reading | Spinning

  /** The frame payload sent back after one command, if any, and where the
      loop goes next. */
  datatype AfterCommand = AfterCommand(sent: Option<Message>, next: Connection)

  /** `SocketsObjects.py` swallows an exception and keeps reading. */
  function ObjectsAfter(h: Handled): (a: AfterCommand)
    ensures a.next == Reading
    ensures a.sent.Some? <==> h.reply.Ok?
    ensures h.reply.Ok? ==> a.sent.value == h.reply.value
  {
    match h.reply
    case Ok(m) => AfterCommand(Some(m), Reading)
    case Raise(_) => AfterCommand(None, Reading)
  }

  /** `SocketsServer.py` closes the socket on an exception and continues. */
  function ServerAfter(h: Handled): (a: AfterCommand)
    ensures a.next == Spinning <==> h.reply.Raise?
    ensures a.sent.Some? <==> h.reply.Ok?
    ensures h.reply.Ok? ==> a.sent.value == h.reply.value
  {
    match h.reply
    case Ok(m) => AfterCommand(Some(m), Reading)
    case Raise(_) => AfterCommand(None, Spinning)
  }

  /** What one receive yields to a connection loop on an open socket. */
  datatype Pass =
    | Closed                 // a `recv` returned nothing, so the receive returns ""
    | BadHeader              // `int(msg[:10])` raised `ValueError`
    | Command(req: Request)  // a framed payload; `req.raw` may be empty

  /** `SocketsObjects.py` leaves the loop on `not data`: a closed peer or an
      empty payload.  Its bad header raises out of `receive_message` and is
      swallowed like a failing command. */
  predicate EndsObjects(p: Pass) {
    p.Closed? || (p.Command? && p.req.raw == [])
  }

  /** `get_data` of `SocketsServer.py` turns a bad header into `None`, which
      leaves the loop through `not data` as well. */
  predicate EndsServer(p: Pass) {
    EndsObjects(p) || p.BadHeader?
  }

  /** A run of a connection loop: the replies sent, and whether the loop
      left through `break` and so returned to `accept`. */
  datatype LoopRun = LoopRun(sent: seq<Message>, backToAccept: bool)

  /** The `SocketsServer.py` connection loop over successive passes.  A
      spinning loop reads nothing and never breaks. */
  function ServerLoop(c: Connection, passes: seq<Pass>, ka: real, now: real, polar: PolarToCartesian): (r: LoopRun)
    ensures c == Spinning ==> r == LoopRun([], false)
    ensures |r.sent| <= |passes|
    ensures r.backToAccept ==> exists i :: 0 <= i < |passes| && EndsServer(passes[i])
    decreases |passes|
  {
    if |passes| == 0 then LoopRun([], false)
    else if c == Spinning then ServerLoop(Spinning, passes[1..], ka, now, polar)
    else if EndsServer(passes[0]) then LoopRun([], true)
    else
      var h := ServerHandleCommand(passes[0].req, ka, now, polar);
      var a := ServerAfter(h);
      var rest := ServerLoop(a.next, passes[1..], h.lastKeepAlive, now, polar);
      assert rest.backToAccept ==> EndsServer(passes[1..][0]) || exists i :: 1 <= i < |passes| && EndsServer(passes[i]);
      LoopRun((if a.sent.Some? then [a.sent.value] else []) + rest.sent, rest.backToAccept)
  }

  /** The `SocketsObjects.py` connection loop over the same passes.  It goes
      back to `accept` exactly when some pass ends the connection: nothing
      a client sends otherwise, a bad header included, closes it. */
  function ObjectsLoop(passes: seq<Pass>, ka: real, now: real, polar: PolarToCartesian): (r: LoopRun)
    ensures |r.sent| <= |passes|
    ensures r.backToAccept <==> exists i :: 0 <= i < |passes| && EndsObjects(passes[i])
    ensures |passes| > 0 && passes[0].BadHeader? ==> r == ObjectsLoop(passes[1..], ka, now, polar)
    decreases |passes|
  {
    if |passes| == 0 then LoopRun([], false)
    else if EndsObjects(passes[0]) then LoopRun([], true)
    else if passes[0].BadHeader? then ObjectsLoop(passes[1..], ka, now, polar)
    else
      var h := ObjectsHandleCommand(passes[0].req, ka, now, polar);
      var a := ObjectsAfter(h);
      var rest := ObjectsLoop(passes[1..], h.lastKeepAlive, now, polar);
      LoopRun((if a.sent.Some? then [a.sent.value] else []) + rest.sent, rest.backToAccept)
  }

  /** After a command raises, `SocketsServer.py` answers nothing more on
      that connection and never accepts another client, whatever arrives;
      `SocketsObjects.py` carries on with the next command as if the failed
      one had not been sent.  A bad header, an exception inside
      `receive_message` there, is skipped the same way, while
      `SocketsServer.py` drops the client and returns to `accept`. */
  lemma ExceptionWedgesServer(req: Request, rest: seq<Pass>, ka: real, now: real, polar: PolarToCartesian)
    ensures req.raw != [] && ServerHandleCommand(req, ka, now, polar).reply.Raise? ==>
              ServerLoop(Reading, [Command(req)] + rest, ka, now, polar) == LoopRun([], false)
    ensures req.raw != [] && ObjectsHandleCommand(req, ka, now, polar).reply.Raise? ==>
              ObjectsLoop([Command(req)] + rest, ka, now, polar) == ObjectsLoop(rest, ka, now, polar)
    ensures ObjectsLoop([BadHeader] + rest, ka, now, polar) == ObjectsLoop(rest, ka, now, polar)
    ensures ServerLoop(Reading, [BadHeader] + rest, ka, now, polar) == LoopRun([], true)
  {
    var passes := [Command(req)] + rest;
    assert passes[0] == Command(req) && passes[1..] == rest;
    var bad := [BadHeader] + rest;
    assert bad[0] == BadHeader && bad[1..] == rest;
  }

  // ------------------------------------------------------ Properties

  /** The safety gate: a `move` actuates exactly when its target resolves and
      lies in the box, and the reply then names that target. */
  lemma MoveActuatesIffSafe(req: Request, ka: real, now: real, polar: PolarToCartesian, sys: System)
    requires IsCommand(req, "move")
    requires "data" in req.parsed.value.members && SystemField(ShortNames, req.parsed.value.members) == Some(sys)
    ensures var t := PyTarget(sys, req.parsed.value.members["data"], Current, polar);
            var h := ObjectsHandleCommand(req, ka, now, polar);
            var g := ServerHandleCommand(req, ka, now, polar);
            (h.moved.Some? <==> t.Ok? && IsPositionSafe(t.value)) &&
            (g.moved.Some? <==> t.Ok? && IsPositionSafe(t.value)) &&
            (h.moved.Some? ==> h.moved == g.moved == Some(t.value))
  {
    var cmd := req.parsed.value.members;
    assert cmd["coordinate_system"].Str?;
    assert TruthyField(cmd, "coordinate_system") by {
      assert cmd["coordinate_system"].s in {ShortNames.absolute, ShortNames.relative, ShortNames.polar};
    }
  }

  /** A relative move with numeric deltas targets (10+dx, 10+dy, 10+dz). */
  lemma RelativeMoveTarget(req: Request, ka: real, now: real, polar: PolarToCartesian,
                           m: map<string, Value>, dx: real, dy: real, dz: real)
    requires IsCommand(req, "move")
    requires FieldIs(req.parsed.value.members, "coordinate_system", "cartesian_rel")
    requires "data" in req.parsed.value.members && req.parsed.value.members["data"] == Object(m)
    requires "x" in m && "y" in m && "z" in m
    requires m["x"] == Number(dx) && m["y"] == Number(dy) && m["z"] == Number(dz)
    ensures var p := PointAt(10.0 + dx, 10.0 + dy, 10.0 + dz);
            ObjectsHandleCommand(req, ka, now, polar).moved == (if IsPositionSafe(p) then Some(p) else None)
  {
    var cmd := req.parsed.value.members;
    assert SystemField(ShortNames, cmd) == Some(Relative);
    AbsoluteNumbers(m, Current, polar, dx, dy, dz);
  }

  /** Only `ping` touches the keep-alive, and it never moves the robot. */
  lemma PingOnlyRefreshes(req: Request, ka: real, now: real, polar: PolarToCartesian)
    requires IsCommand(req, "ping")
    ensures ObjectsHandleCommand(req, ka, now, polar) == Handled(Ok(Say("pong")), now, None)
    ensures ServerHandleCommand(req, ka, now, polar) == Handled(Ok(Say("pong")), now, None)
  {
  }

  /** The servers disagree on which error a faulty move reports: without a
      system `SocketsServer.py` says so, `SocketsObjects.py` reports the
      system as invalid; without `data` both report the format error. */
  lemma MoveErrorPrecedence(req: Request, ka: real, now: real, polar: PolarToCartesian)
    requires IsCommand(req, "move")
    ensures "coordinate_system" !in req.parsed.value.members && "data" in req.parsed.value.members ==>
              ObjectsHandleCommand(req, ka, now, polar).reply == Ok(Say("Error: Invalid coordinate system")) &&
              ServerHandleCommand(req, ka, now, polar).reply == Ok(Say("Error: No coordinate system specified"))
    ensures "data" !in req.parsed.value.members && TruthyField(req.parsed.value.members, "coordinate_system") ==>
              ObjectsHandleCommand(req, ka, now, polar).reply == Ok(Say("Error: Invalid MOVE command format")) &&
              ServerHandleCommand(req, ka, now, polar).reply == Ok(Say("Error: Invalid MOVE command format"))
  {
  }

  /** Unrecognised types: `SocketsObjects.py` answers a fixed text,
      `SocketsServer.py` quotes the command as stripped; neither moves. */
  lemma UnknownTypeReplies(req: Request, ka: real, now: real, polar: PolarToCartesian)
    requires req.parsed.Some? && req.parsed.value.Object? && "type" in req.parsed.value.members
    requires req.parsed.value.members["type"] !in {Str("move"), Str("ping"), Str("request")}
    ensures ObjectsHandleCommand(req, ka, now, polar) == Handled(Ok(Say("Unknown command")), ka, None)
    ensures ServerHandleCommand(req, ka, now, polar) == Handled(Ok(Say("Unknown command: " + Strip(req.raw))), ka, None)
  {
  }

  /** The quoted command loses the whitespace around the payload: a
      command sent as ` {"type":"x"}` plus a newline is echoed back as
      `{"type":"x"}`. */
  lemma UnknownCommandQuotesStripped(req: Request, pre: string, body: string, post: string,
                                     ka: real, now: real, polar: PolarToCartesian)
    requires req.raw == pre + body + post && AllSpace(pre, IsSpace) && AllSpace(post, IsSpace)
    requires |body| > 0 && !IsSpace(body[0]) && !IsSpace(body[|body| - 1])
    requires req.parsed.Some? && req.parsed.value.Object? && "type" in req.parsed.value.members
    requires req.parsed.value.members["type"] !in {Str("move"), Str("ping"), Str("request")}
    ensures ServerHandleCommand(req, ka, now, polar).reply == Ok(Say("Unknown command: " + body))
  {
    StripPadding(pre, body, post, IsSpace);
    UnknownTypeReplies(req, ka, now, polar);
  }

  /** A `null` coordinate makes `float()` raise `TypeError`, which neither
      server catches: `SocketsObjects.py` drops the command and goes on to
      the next one; `SocketsServer.py` closes the socket and spins on it,
      answering nothing more and never returning to `accept`. */
  lemma NullCoordinateEscapes(req: Request, ka: real, now: real, polar: PolarToCartesian, m: map<string, Value>,
                              rest: seq<Pass>)
    requires IsCommand(req, "move")
    requires FieldIs(req.parsed.value.members, "coordinate_system", "cartesian_abs")
    requires "data" in req.parsed.value.members && req.parsed.value.members["data"] == Object(m)
    requires "x" in m && m["x"] == Null
    ensures ObjectsAfter(ObjectsHandleCommand(req, ka, now, polar)) == AfterCommand(None, Reading)
    ensures ServerAfter(ServerHandleCommand(req, ka, now, polar)) == AfterCommand(None, Spinning)
    ensures req.raw != [] ==> ObjectsLoop([Command(req)] + rest, ka, now, polar) == ObjectsLoop(rest, ka, now, polar)
    ensures req.raw != [] ==> ServerLoop(Reading, [Command(req)] + rest, ka, now, polar) == LoopRun([], false)
  {
    assert SystemField(ShortNames, req.parsed.value.members) == Some(Absolute);
    assert PyFloatAt(Object(m), "x") == Raise(TypeError);
    ExceptionWedgesServer(req, rest, ka, now, polar);
  }
}

=== FILE: text.dfy ===
/** Character-level helpers shared by the framing code and the servers:
    decimal rendering (`str(n)` / Arduino `String(n)`), space padding,
    whitespace trimming and Python's `int()` on a header field. */
module Text {

  import opened Wrappers

  /** The decimal digit character for 0 <= d < 10. */
  function DigitChar(d: nat): (c: char)
    requires d < 10
    ensures '0' <= c <= '9'
    ensures c as int - '0' as int == d
  {
    ('0' as int + d) as char
  }

  predicate IsDigit(c: char) {
    '0' <= c <= '9'
  }

  predicate AllDigits(s: string) {
    forall i :: 0 <= i < |s| ==> IsDigit(s[i])
  }

  /** Decimal rendering of a natural number, most significant digit first. */
  function Decimal(n: nat): (s: string)
    ensures |s| >= 1
    ensures AllDigits(s)
    decreases n
  {
    if n < 10 then [DigitChar(n)] else Decimal(n / 10) + [DigitChar(n % 10)]
  }

  /** The value of a string of decimal digits (0 for the empty string). */
  function DigitsValue(s: string): nat
    requires AllDigits(s)
  {
    if |s| == 0 then 0 else DigitsValue(s[..|s| - 1]) * 10 + (s[|s| - 1] as int - '0' as int)
  }

  /** Reading back a rendered number gives the number. */
  lemma {:induction false} DecimalValue(n: nat)
    ensures DigitsValue(Decimal(n)) == n
    decreases n
  {
    if n >= 10 {
      var s := Decimal(n);
      assert s[..|s| - 1] == Decimal(n / 10);
      DecimalValue(n / 10);
    }
  }

  /** `str(n)` has at most `w` characters exactly when n < 10^w. */
  function Pow10(w: nat): (p: nat)
    ensures p >= 1
  {
    if w == 0 then 1 else 10 * Pow10(w - 1)
  }

  lemma {:induction false} DecimalWidth(n: nat, w: nat)
    requires w >= 1
    ensures |Decimal(n)| <= w <==> n < Pow10(w)
    decreases n
  {
    assert Pow10(1) == 10;
    if n < 10 {
      Pow10Grows(1, w);
    } else if w == 1 {
      assert |Decimal(n)| == |Decimal(n / 10)| + 1;
    } else {
      DecimalWidth(n / 10, w - 1);
    }
  }

  lemma {:induction false} Pow10Grows(a: nat, b: nat)
    requires a <= b
    ensures Pow10(a) <= Pow10(b)
    decreases b - a
  {
    if a < b { Pow10Grows(a, b - 1); }
  }

  function Spaces(k: nat): (s: string)
    ensures |s| == k
    ensures forall i :: 0 <= i < k ==> s[i] == ' '
  {
    if k == 0 then [] else Spaces(k - 1) + [' ']
  }

  /** Python's `f"{s:<width}"`: left-justify, pad with spaces, never truncate. */
  function LeftJustify(s: string, width: nat): (r: string)
    ensures |r| == if |s| >= width then |s| else width
    ensures r[..|s|] == s
    ensures forall i :: |s| <= i < |r| ==> r[i] == ' '
  {
    if |s| >= width then s else s + Spaces(width - |s|)
  }

  /** Whitespace in the sense of `str.isspace()`: what Python's
      `str.strip()`, and `int()` or `float()` on a `str`, discard. */
  predicate IsSpace(c: char) {
    var k := c as int;
    k == 0x20 || 0x09 <= k <= 0x0D || 0x1C <= k <= 0x1F || k == 0x85 || k == 0xA0 || k == 0x1680
    || 0x2000 <= k <= 0x200A || k == 0x2028 || k == 0x2029 || k == 0x202F || k == 0x205F || k == 0x3000
  }

  /** ASCII whitespace: what `int()` discards around a `bytes` value. */
  predicate IsAsciiSpace(c: char) {
    c == ' ' || '\t' <= c <= '\r'
  }

  /** Drops the leading characters of `s` that satisfy `ws`. */
  function TrimLeft(s: string, ws: char -> bool): (r: string)
    ensures |r| <= |s| && r == s[|s| - |r|..]
    ensures |r| > 0 ==> !ws(r[0])
  {
    if |s| > 0 && ws(s[0]) then TrimLeft(s[1..], ws) else s
  }

  /** Drops the trailing characters of `s` that satisfy `ws`. */
  function TrimRight(s: string, ws: char -> bool): (r: string)
    ensures |r| <= |s| && r == s[..|r|]
    ensures |r| > 0 ==> !ws(r[|r| - 1])
  {
    if |s| > 0 && ws(s[|s| - 1]) then TrimRight(s[..|s| - 1], ws) else s
  }

  /** Python's `s.strip()` on a `str`. */
  function Strip(s: string): string {
    TrimRight(TrimLeft(s, IsSpace), IsSpace)
  }

  /** The stripping `int()` does around a `bytes` value. */
  function StripAscii(s: string): string {
    TrimRight(TrimLeft(s, IsAsciiSpace), IsAsciiSpace)
  }

  predicate AllSpace(s: string, ws: char -> bool) {
    forall i :: 0 <= i < |s| ==> ws(s[i])
  }

  lemma {:induction false} TrimLeftPadding(pre: string, t: string, ws: char -> bool)
    requires AllSpace(pre, ws) && |t| > 0 && !ws(t[0])
    ensures TrimLeft(pre + t, ws) == t
    decreases |pre|
  {
    if |pre| == 0 {
      assert pre + t == t;
    } else {
      assert (pre + t)[0] == pre[0];
      assert (pre + t)[1..] == pre[1..] + t;
      TrimLeftPadding(pre[1..], t, ws);
    }
  }

  lemma {:induction false} TrimRightPadding(t: string, post: string, ws: char -> bool)
    requires AllSpace(post, ws) && |t| > 0 && !ws(t[|t| - 1])
    ensures TrimRight(t + post, ws) == t
    decreases |post|
  {
    if |post| == 0 {
      assert t + post == t;
    } else {
      var last := |t + post| - 1;
      assert (t + post)[last] == post[|post| - 1];
      assert (t + post)[..last] == t + post[..|post| - 1];
      TrimRightPadding(t, post[..|post| - 1], ws);
    }
  }

  /** Stripping removes exactly the whitespace around a text that neither
      starts nor ends with whitespace. */
  lemma StripPadding(pre: string, t: string, post: string, ws: char -> bool)
    requires AllSpace(pre, ws) && AllSpace(post, ws)
    requires |t| > 0 && !ws(t[0]) && !ws(t[|t| - 1])
    ensures TrimRight(TrimLeft(pre + t + post, ws), ws) == t
  {
    assert pre + t + post == pre + (t + post);
    TrimLeftPadding(pre, t + post, ws);
    TrimRightPadding(t, post, ws);
  }

  /** The digits of a Python integer: decimal digits, where a single
      underscore may separate two of them (`int("1_000")` is 1000). */
  predicate GroupedDigits(s: string)
    decreases |s|
  {
    && |s| >= 1 && IsDigit(s[0])
    && (|s| == 1 || (if s[1] == '_' then GroupedDigits(s[2..]) else GroupedDigits(s[1..])))
  }

  /** The digits of a grouped numeral, underscores removed. */
  function Ungrouped(s: string): (r: string)
    requires GroupedDigits(s)
    ensures |r| >= 1 && AllDigits(r)
    decreases |s|
  {
    if |s| == 1 then [s[0]]
    else if s[1] == '_' then [s[0]] + Ungrouped(s[2..])
    else [s[0]] + Ungrouped(s[1..])
  }

  lemma {:induction false} UngroupedDigits(d: string)
    requires |d| >= 1 && AllDigits(d)
    ensures GroupedDigits(d) && Ungrouped(d) == d
    decreases |d|
  {
    if |d| > 1 {
      assert IsDigit(d[1]);
      UngroupedDigits(d[1..]);
      assert d == [d[0]] + d[1..];
    }
  }

  /** Python's `int()` on the bytes of `s`: an optional sign and grouped
      digits, with ASCII whitespace around them; `None` stands for the
      `ValueError` it raises.  `int()` on a `str` strips the wider
      `str.isspace()` set first, which is `ParseInt(Strip(s))`. */
  function ParseInt(s: string): (r: Option<int>)
    ensures r.Some? ==> |StripAscii(s)| >= 1
    ensures GroupedDigits(StripAscii(s)) ==> r.Some? && r.value >= 0
  {
    var t := StripAscii(s);
    if |t| > 0 && (t[0] == '+' || t[0] == '-') then
      if GroupedDigits(t[1..]) then
        var v := DigitsValue(Ungrouped(t[1..]));
        Some(if t[0] == '-' then -(v as int) else v)
      else None
    else if GroupedDigits(t) then Some(DigitsValue(Ungrouped(t)))
    else None
  }

  /** Python's `s[:k]`. */
  function PyPrefix(s: string, k: nat): (r: string)
    ensures |r| == if k <= |s| then k else |s|
    ensures r == s[..|r|]
  {
    if k <= |s| then s[..k] else s
  }

  /** Python's `s[k:]` (empty when k is past the end). */
  function PySuffix(s: string, k: nat): (r: string)
    ensures k <= |s| ==> r == s[k..]
    ensures k > |s| ==> r == []
  {
    if k <= |s| then s[k..] else []
  }

  /** Trailing space padding does not disturb a digit string, under either
      kind of stripping. */
  lemma StripDigitsPadded(d: string, k: nat)
    requires |d| >= 1 && AllDigits(d)
    ensures Strip(d + Spaces(k)) == d
    ensures StripAscii(d + Spaces(k)) == d
  {
    var pad := Spaces(k);
    assert AllSpace(pad, IsSpace) && AllSpace(pad, IsAsciiSpace) by {
      forall i | 0 <= i < |pad| ensures IsSpace(pad[i]) && IsAsciiSpace(pad[i]) {
        assert pad[i] == ' ';
      }
    }
    assert IsDigit(d[0]) && IsDigit(d[|d| - 1]);
    assert AllSpace([], IsSpace) && AllSpace([], IsAsciiSpace);
    assert [] + d + pad == d + pad;
    StripPadding([], d, pad, IsSpace);
    StripPadding([], d, pad, IsAsciiSpace);
  }

  /** `int()` of anything that strips to a digit string is its value. */
  lemma ParseStripped(s: string, d: string)
    requires |d| >= 1 && AllDigits(d) && StripAscii(s) == d
    ensures ParseInt(s) == Some(DigitsValue(d))
  {
    UngroupedDigits(d);
    assert IsDigit(d[0]);
  }

  /** A digit string is left alone by either kind of stripping. */
  lemma DigitsUnstripped(d: string)
    requires |d| >= 1 && AllDigits(d)
    ensures StripAscii(d) == d
  {
    assert AllSpace([], IsAsciiSpace);
    assert IsDigit(d[0]) && IsDigit(d[|d| - 1]);
    assert [] + d + [] == d;
    StripPadding([], d, [], IsAsciiSpace);
  }

  /** `int()` of a digit string, possibly space-padded, is its value, on
      `bytes` and on a stripped `str` alike. */
  lemma ParseDigits(d: string, k: nat)
    requires |d| >= 1 && AllDigits(d)
    ensures ParseInt(d + Spaces(k)) == Some(DigitsValue(d))
    ensures ParseInt(Strip(d + Spaces(k))) == Some(DigitsValue(d))
  {
    StripDigitsPadded(d, k);
    ParseStripped(d + Spaces(k), d);
    DigitsUnstripped(d);
    ParseStripped(d, d);
  }

  /** `int(f"{n:<w}")` gives n back. */
  lemma {:induction false} ParsePaddedDecimal(n: nat, w: nat)
    ensures ParseInt(LeftJustify(Decimal(n), w)) == Some(n)
    ensures ParseInt(Strip(LeftJustify(Decimal(n), w))) == Some(n)
  {
    var d := Decimal(n);
    var pad := if |d| >= w then 0 else w - |d|;
    assert LeftJustify(d, w) == d + Spaces(pad);
    ParseDigits(d, pad);
    DecimalValue(n);
  }

  /** Neither kind of stripping touches a text that starts and ends with a
      character it keeps. */
  lemma Unpadded(s: string)
    requires |s| >= 1 && !IsAsciiSpace(s[0]) && !IsAsciiSpace(s[|s| - 1])
    ensures StripAscii(s) == s
  {
  }

  /** A digit in front of a grouped numeral gives a grouped numeral. */
  lemma DigitInFront(c: char, t: string)
    requires IsDigit(c) && GroupedDigits(t)
    ensures GroupedDigits([c] + t) && Ungrouped([c] + t) == [c] + Ungrouped(t)
  {
    var s := [c] + t;
    assert s[0] == c && s[1] == t[0] && s[1..] == t;
  }

  /** So does a digit and an underscore. */
  lemma GroupInFront(c: char, t: string)
    requires IsDigit(c) && GroupedDigits(t)
    ensures GroupedDigits([c, '_'] + t) && Ungrouped([c, '_'] + t) == [c] + Ungrouped(t)
  {
    var s := [c, '_'] + t;
    assert s[0] == c && s[1] == '_' && s[2..] == t;
  }

  /** `x_y` is a grouped numeral whose digits are those of `x` then `y`. */
  lemma {:induction false} GroupsJoin(x: string, y: string)
    requires |x| >= 1 && |y| >= 1 && AllDigits(x) && AllDigits(y)
    ensures GroupedDigits(x + ['_'] + y) && Ungrouped(x + ['_'] + y) == x + y
    decreases |x|
  {
    assert x == [x[0]] + x[1..] && IsDigit(x[0]);
    if |x| == 1 {
      UngroupedDigits(y);
      GroupInFront(x[0], y);
      assert x + ['_'] + y == [x[0], '_'] + y;
    } else {
      GroupsJoin(x[1..], y);
      JoinStep(x[0], x[1..], y);
    }
  }

  /** The inductive step of `GroupsJoin`: one more leading digit. */
  lemma JoinStep(c: char, t: string, y: string)
    requires IsDigit(c)
    requires GroupedDigits(t + ['_'] + y) && Ungrouped(t + ['_'] + y) == t + y
    ensures GroupedDigits([c] + t + ['_'] + y) && Ungrouped([c] + t + ['_'] + y) == [c] + t + y
  {
    var u := t + ['_'] + y;
    DigitInFront(c, u);
    assert [c] + t + ['_'] + y == [c] + u;
    assert [c] + t + y == [c] + (t + y);
  }

  /** Two underscores in a row never belong to a grouped numeral. */
  lemma {:induction false} DoubledUnderscoreUngrouped(x: string, y: string)
    requires AllDigits(x)
    ensures !GroupedDigits(x + "__" + y)
    decreases |x|
  {
    var s := x + "__" + y;
    if |x| == 0 {
      assert s[0] == '_';
    } else if |x| == 1 {
      assert s[1] == '_' && s[2..] == "_" + y && s[2] == '_';
    } else {
      DoubledUnderscoreUngrouped(x[1..], y);
      assert s[1] == x[1] && s[1..] == x[1..] + "__" + y;
    }
  }

  /** `int()` reads `x_y` as the number written `xy`: Python's digit
      grouping, which a header may use. */
  lemma GroupedParses(x: string, y: string)
    requires |x| >= 1 && |y| >= 1 && AllDigits(x) && AllDigits(y)
    ensures ParseInt(x + ['_'] + y) == Some(DigitsValue(x + y))
  {
    var s := x + ['_'] + y;
    assert s[0] == x[0] && s[|s| - 1] == y[|y| - 1];
    Unpadded(s);
    GroupsJoin(x, y);
  }

  /** A doubled underscore makes `int()` raise. */
  lemma DoubledUnderscoreRaises(x: string, y: string)
    requires |x| >= 1 && |y| >= 1 && AllDigits(x) && AllDigits(y)
    ensures ParseInt(x + "__" + y) == None
  {
    var s := x + "__" + y;
    assert s[0] == x[0] && s[|s| - 1] == y[|y| - 1];
    Unpadded(s);
    DoubledUnderscoreUngrouped(x, y);
  }

  /** Whitespace outside ASCII in front of a number: `int()` raises on the
      `bytes` a server reads, and parses the `str` the client strips. */
  lemma WideSpacePadding(c: char, d: string)
    requires IsSpace(c) && !IsAsciiSpace(c)
    requires |d| >= 1 && AllDigits(d)
    ensures ParseInt([c] + d) == None
    ensures ParseInt(Strip([c] + d)) == Some(DigitsValue(d))
  {
    WideSpaceKept(c, d);
    WideSpaceStripped(c, d);
    DigitsUnstripped(d);
    ParseStripped(d, d);
  }

  lemma WideSpaceKept(c: char, d: string)
    requires IsSpace(c) && !IsAsciiSpace(c)
    requires |d| >= 1 && AllDigits(d)
    ensures ParseInt([c] + d) == None
  {
    var s := [c] + d;
    assert s[0] == c && s[|s| - 1] == d[|d| - 1];
    Unpadded(s);
    assert !IsDigit(c);
  }

  lemma WideSpaceStripped(c: char, d: string)
    requires IsSpace(c)
    requires |d| >= 1 && AllDigits(d)
    ensures Strip([c] + d) == d
  {
    assert AllSpace([c], IsSpace) && AllSpace([], IsSpace);
    assert IsDigit(d[0]) && IsDigit(d[|d| - 1]);
    assert [c] + d + [] == [c] + d;
    StripPadding([c], d, [], IsSpace);
  }
}

=== FILE: wrappers.dfy ===
/** Optional values, used for absent JSON fields and for conversions that can fail. */
module Wrappers {

  datatype Option<+T> = None | Some(value: T) {

    function GetOr(default: T): T {
      match this
      case Some(v) => v
      case None => default
    }
  }
}
